=== FILE: README.md ===
# bling-dashboard core, modelled in Dafny

This project models the rule-bearing core of the Bling ERP dashboard. The Streamlit pages sit on top of four groups of small rules, and those rules are what is modelled here:

- **OAuth token lifecycle, in two variants.**
  - A file-backed `BlingAuth`: a token record in `tokens.json`, refreshed when `expiry_timestamp <= now`, and stored with a 60-second safety margin.
  - A database-backed `bling_service`: client rows with `token_expires_at`, a 10-minute expiry window, status names, icons, the refresh and code-exchange validations, and the authorization URL.
- **The `BlingClient` fetch loop.** One page request is retried up to 5 times on HTTP errors, and the `pagina = 1, 2, …` loop stops at the first empty page.
- **The KPI rules.**
  - `DataProcessor` (both copies): explodes orders into line items, left-joins them with cost and stock, derives the channel and product name, computes totals and margins, averages sales over *observed* selling days, computes coverage, and filters dead stock.
  - `analytics_service`: sales, inventory and finance KPIs. Here the average is taken over *calendar* days, coverage falls back to 999, and SKUs get an ABC classification.
- **The multi-tenant login.** This covers the administrator bootstrap in `.env`, the login decision over the client table, and logout.

| module | file | models |
|---|---|---|
| `Wrappers` | wrappers.dfy | `Option`, `Result` |
| `OAuth` | oauth.dfy | token requests and responses shared by both token variants; `raise_for_status` |
| `FileAuth` | file_auth.dfy | `BlingAuth` in `src/auth_handler.py` and `app_production.py` (same logic) |
| `Paging` | paging.dfy | `BlingClient._get` and `get_all_data` |
| `Seqs`, `Strings`, `Tables` | seqs.dfy, strings.dfy, tables.dfy | column reductions; `split`, `startswith`, `lower`, `readlines`/`writelines` and text-mode line ends; records and cell coercion |
| `Processor` | processor.dfy | `DataProcessor` in `app_production.py` and `src/data_processor.py` |
| `Models` | models.dfy | the `Client` row of `models.py` |
| `BlingService` | bling_service.dfy | `services/bling_service.py` and the token count of the admin overview |
| `Analytics` | analytics.dfy | `services/analytics_service.py` |
| `AuthService` | auth_service.dfy | `services/auth_service.py` |

The following are parameters:

- **Time.**
  - `now` and `today` are whole seconds.
  - A calendar day is `t / 86400`.
  - São Paulo's UTC offset is a function `Zone` that `localize` would consult.
- **The network and hashing are oracles.**
  - `TokenEndpoint` answers a token request.
  - `Server` answers attempt *i* of a page request.
  - `Checker` is `bcrypt.checkpw`.
  - `hashPassword` is `bcrypt.hashpw`.
- **Tables are sequences of records.** Money and quantities are `real`.

## Model

| member | source | states |
|---|---|---|
| FileAuth.NewAuth | bling-dashboard/src/auth_handler.py:24-34 | construction succeeds iff client id and client secret are both set and non-empty; otherwise it fails with the missing-credentials error; the redirect URI is optional |
| FileAuth.ReadTokens | bling-dashboard/src/auth_handler.py:36-50 | a missing token file is an error; absent string keys read as "" and absent integer keys as 0 |
| FileAuth.WriteTokens | bling-dashboard/src/auth_handler.py:52-60 | reading back a written record yields the same record |
| FileAuth.RefreshToken | bling-dashboard/src/auth_handler.py:62-86 | fails iff the status is an HTTP error; otherwise expiry = now + expires_in − 60, expires_in defaults to 0, the refresh token falls back to the old one, and the access token defaults to "" |
| FileAuth.GetValidToken | bling-dashboard/src/auth_handler.py:88-102 | no file or an empty token fails with no request and no write; a refresh is requested iff both tokens are present and expiry <= now (inclusive); otherwise the cached token is returned and the store is untouched; a failed refresh writes nothing; a successful one writes the record whose access token it returns |
| FileAuth.RefreshedTokenIsCachedUntilExpiry | bling-dashboard/app_production.py:161-175 | after a refresh, calls before the stored expiry return the same token with no request and no write |
| FileAuth.ShortLifetimeRefreshesAgain | bling-dashboard/app_production.py:151-159 | a response without expires_in (or with one of at most 60 s) is stored already expired, so the next call refreshes again |
| Paging.RetryFrom | bling-dashboard/src/bling_client.py:19-24 | at most 5 attempts; every attempt before the one returned raised an HTTP error; an earlier attempt is returned only if it did not raise an HTTP error; the outcome (the last error, re-raised) is that attempt's |
| Paging.CheckStatus | bling-dashboard/src/bling_client.py:30-33 | raises iff the status is an HTTP error status; a 429 raises the same HTTPError as any other error status |
| Paging.GetAttempt | bling-dashboard/src/bling_client.py:25-34 | an attempt is retryable iff the token refresh was rejected with an HTTP status or the GET returned an error status; it succeeds iff the token is obtained and the status is fine, and then yields the body |
| Paging.GetPage | bling-dashboard/app_production.py:185-200 | one page request takes 1 to 5 attempts; every attempt before the deciding one was retryable, and the deciding one is retryable only when it is the fifth, whose error is re-raised |
| Paging.WithPageKeepsCallerParams | bling-dashboard/src/bling_client.py:40-43 | each page request carries the caller's parameters with `pagina` set to the page number, and the caller's map is not changed |
| Paging.Walk | bling-dashboard/src/bling_client.py:42-54 | over any page outcomes: pages 1, 2, … are requested consecutively with `pagina` set to their number; the loop ends at the first page that is empty, not a dict, or failed; the result is the concatenation of the earlier pages in order, or the failure |
| Paging.GetAllData | bling-dashboard/app_production.py:202-219 | the same for the pages the retried `_get` returns from the server: every page is requested with the caller's parameters plus its number, and the fetch stops at the first stopping page |
| Paging.CollectedStep | bling-dashboard/src/bling_client.py:46-50 | a page that succeeded appends its items to those collected before it; a failed one adds none |
| Paging.CollectedGrows | bling-dashboard/src/bling_client.py:50-54 | later pages only extend the items collected so far: earlier pages form a prefix |
| Processor.WithMeta | bling-dashboard/app_production.py:248-253 | an exploded item gets every metadata key from its order (null when the order lacks it) and keeps its own other keys |
| Processor.Explode | bling-dashboard/src/data_processor.py:30-40 | one row per line item, in order: row k is item k with every metadata key taken from the order that holds it (null when that order lacks it) and its other keys kept |
| Processor.OwnerHoldsItem | bling-dashboard/src/data_processor.py:30-40 | each exploded item and the metadata it receives come from the same order |
| Processor.FirstIn | bling-dashboard/app_production.py:280-283 | returns the first candidate in priority order that is a column, or none iff no candidate is a column |
| Processor.NormalizeSales | bling-dashboard/app_production.py:232-254 | an empty order list gives the declared schema with no rows; it fails iff a line item has a key named like a metadata key; otherwise the rows are the exploded items |
| Processor.NormalizeRecords | bling-dashboard/app_production.py:256-268 | an empty product or stock table is replaced by its declared schema; otherwise it is kept |
| Processor.Lookup | bling-dashboard/app_production.py:311-314 | the right side of a LEFT JOIN: exactly one NULL when no row matches (NULL ids match nothing); otherwise the looked-up column of each matching row, in table order |
| Processor.LookupFindsMatches | bling-dashboard/app_production.py:311-314 | every matching row's value is among the looked-up values, and every non-NULL looked-up value comes from a matching row |
| Processor.JoinRow | bling-dashboard/app_production.py:305-315 | a sales row yields at least one joined row, and every one of them carries that sales row |
| Processor.JoinRowWidth | bling-dashboard/app_production.py:305-315 | a sales row yields (product matches, or 1) × (stock matches, or 1) joined rows |
| Processor.JoinRowValues | bling-dashboard/app_production.py:308-314 | every joined row's cost comes from the product lookup and its balance from the stock lookup |
| Processor.MatchedPairIsJoined | bling-dashboard/app_production.py:310-314 | every pair of a matching product row and a matching stock row appears as a joined row |
| Processor.UnmatchedSideIsNull | bling-dashboard/app_production.py:311-314 | with no product match the cost is NULL; with no stock match the balance is NULL |
| Processor.LeftJoin | bling-dashboard/src/data_processor.py:61-73 | no sales row is dropped: every sales row has a joined row, there are at least as many output rows as sales rows, and every output row is one of its own sales row's joined rows |
| Processor.JoinedRowsFromSales | bling-dashboard/src/data_processor.py:61-73 | every joined row carries a sales row and is one of that row's joined rows |
| Processor.EverySaleJoined | bling-dashboard/src/data_processor.py:61-73 | every sales row, by position, has a joined row carrying it |
| Processor.LeftJoinAppend | bling-dashboard/src/data_processor.py:61-73 | the join of concatenated sales is the concatenation of their joins: each sales row is joined on its own, in order |
| Processor.LeftJoinSingle | bling-dashboard/src/data_processor.py:61-73 | a single sales row joins to exactly its own joined rows |
| Processor.CheckColumns | bling-dashboard/app_production.py:305-317 | the query binds iff the five columns it names exist |
| Processor.Derive | bling-dashboard/app_production.py:270-291 | the first candidate that is a column decides, with its nulls filled by the default; the default applies when no candidate is a column |
| Processor.Enrich | bling-dashboard/app_production.py:318-328 | valor_venda, quantidade, preco_custo and saldo_fisico are the coerced sale and joined cells, a NULL becoming 0; the product id, date, name and channel come from the sale; item_total = valor×quantidade, margem_unitaria = valor − custo, margem_total = margem_unitaria×quantidade |
| Processor.SellingDays | bling-dashboard/app_production.py:333-338 | the selling days are distinct and are exactly the days with at least one row |
| Processor.SumOverSellingDays | bling-dashboard/app_production.py:334-338 | grouping by day loses and duplicates nothing: the per-day sums add up to the total quantity |
| Processor.ObservedMean | bling-dashboard/src/data_processor.py:83-95 | media_venda_diaria = the total quantity over the number of observed selling days, and 0 with no rows |
| Processor.Coverage | bling-dashboard/src/data_processor.py:97-103 | dias_cobertura is defined iff media > 0, and then dias_cobertura × media = saldo |
| Processor.WithAverages | bling-dashboard/app_production.py:339-352 | merging the averages changes only the average and coverage columns; each row's average is its product's observed mean over the output |
| Processor.EnrichAll | bling-dashboard/app_production.py:305-354 | one output row per row of the left join, in the join's order, each carrying that joined row's sale, cost and balance; every sales row is covered and every output row comes from a sales row: its value, quantity, date, name and channel are that sale's, its cost and balance those of one of its joined rows, its totals are consistent, its average is its product's observed mean over the output, and its coverage follows from that mean |
| Processor.OneSaleRowCount | bling-dashboard/app_production.py:305-317 | a single sale comes back as many times as it has matching products times matching stock rows, an unmatched side counting once |
| Processor.Process | bling-dashboard/app_production.py:293-354 | it fails iff normalizing the sales fails, or the sales are non-empty and either the query names a missing column or the sales have no `valor` or no `quantidade` column; empty sales give the empty frame; otherwise there is one row per row of the left join of the normalized tables, in order, each enriched from its joined row, and every sales row is covered |
| Processor.CheckCoerced | bling-dashboard/app_production.py:321-322 | coercing `valor` and `quantidade` fails iff the sales lack one of those columns, and the error names a missing one |
| Processor.EmptyLookupsBindColumns | bling-dashboard/src/data_processor.py:49-52 | empty products or stock still bind the join columns |
| Processor.EstoqueParado | bling-dashboard/app_production.py:356-370 | an empty frame is returned as is; otherwise the result holds exactly the rows with saldo > 0 and nothing sold in the window, each as many times as it occurs in the frame (their number is the count of such rows) |
| Processor.SoldInWindowIsNotDead | bling-dashboard/src/data_processor.py:107-120 | with non-negative quantities, a product sold in the window is never dead stock |
| Processor.UnsoldWithStockIsDead | bling-dashboard/app_production.py:361-370 | a stocked product with zero quantity in the window is dead stock |
| Processor.ProductionSalesCarryCanalVenda | bling-dashboard/app_production.py:231-252 | whenever the sales table is built, with or without orders, `canalVenda` is one of its columns |
| Processor.ChannelComesFromCanalVenda | bling-dashboard/app_production.py:269-282 | when `canalVenda` is a column, every enriched row's channel is that value or "Indefinido"; `loja.nome` and the later candidates are never consulted |
| Processor.UnmatchedSaleGetsZero | bling-dashboard/app_production.py:321-324 | a sale whose product has no product row or stock row gets cost 0 and balance 0 |
| Processor.ThreeSellingDays | bling-dashboard/src/data_processor.py:83-95 | quantities 2, 3 and 5 on three different days average 10/3, not 10/90 |
| BlingService.RefreshToken | bling-dashboard/bling-saas/services/bling_service.py:33-56 | an empty refresh token fails before any request; status >= 400 fails; a missing access token fails; success carries the body's access token, the body's refresh token or else the old one, and an expiry of now + expires_in (default 3600) with no margin |
| BlingService.ExchangeCodeForToken | bling-dashboard/bling-saas/services/bling_service.py:66-92 | an empty code fails before any request; the redirect URI falls back to the configured one; it succeeds iff status < 400 and both tokens are present |
| BlingService.AuthorizationUrlFields | bling-dashboard/bling-saas/services/bling_service.py:59-63 | the URL's query parses back to response_type=code, client_id, redirect_uri, and state iff state is non-empty, in that order |
| BlingService.ExpiringIsMonotone | bling-dashboard/bling-saas/services/bling_service.py:95-101 | an expiring token stays expiring at a later time or with a wider window |
| BlingService.TokenStatus | bling-dashboard/bling-saas/services/bling_service.py:104-109 | the status is one of three names; "expired" iff no expiry; "valid" iff the expiry is after now + minutes |
| BlingService.PastExpiryIsExpiring | bling-dashboard/bling-saas/services/bling_service.py:104-108 | an expiry already in the past reads "expiring", not "expired" |
| BlingService.ForceRefreshToken | bling-dashboard/bling-saas/services/bling_service.py:127-137 | a request is made iff the stored refresh token is non-empty; a failure changes nothing; success replaces the three token columns together and only those |
| BlingService.EnsureValidToken | bling-dashboard/bling-saas/services/bling_service.py:112-124 | a no-op when the token is not expiring; otherwise exactly a forced refresh |
| BlingService.MaintainedTokenIsValid | bling-dashboard/bling-saas/services/bling_service.py:112-124 | after a successful maintenance the status is never "expired"; it is "valid" when nothing was needed, or when the new lifetime exceeds the window |
| BlingService.FriendlyTokenIcon | bling-dashboard/bling-saas/services/bling_service.py:140-141 | green iff "valid", yellow iff "expiring", red for anything else |
| BlingService.RedMeansNoExpiry | bling-dashboard/bling-saas/services/bling_service.py:104-141 | a client's icon is red iff it has no stored expiry |
| BlingService.AsWrittenCountsNoValidToken | bling-dashboard/bling-saas/views/admin_view.py:72-73 | the overview's count of "Valid" statuses is 0 for every client list |
| BlingService.ValidTokenCountCounts | bling-dashboard/bling-saas/views/admin_view.py:72-73 | the corrected count is the number of clients whose expiry lies beyond the 10-minute window, and it exceeds the as-written count whenever one exists |
| Analytics.SafeDiv | bling-dashboard/bling-saas/services/analytics_service.py:16-17 | 0 when the denominator is 0; otherwise the exact quotient |
| Analytics.FractionBounds | bling-dashboard/bling-saas/services/analytics_service.py:36-39 | a part over its whole lies in [0, 1] |
| Analytics.ApprovalRate | bling-dashboard/bling-saas/services/analytics_service.py:38-39 | the approval rate lies in [0, 100] and is 0 iff no recent order is paid; with recent orders, rate × order count = 100 × paid count |
| Analytics.Percent | bling-dashboard/bling-saas/services/analytics_service.py:39 | a percentage times its base is 100 times the part, and a part of its whole lies in [0, 100] |
| Analytics.Ticket | bling-dashboard/bling-saas/services/analytics_service.py:34-36 | ticket × order count = revenue |
| Analytics.BuildSalesKpis | bling-dashboard/bling-saas/services/analytics_service.py:20-45 | "empty" iff no dated, non-cancelled order falls in the last 30 days; otherwise revenue, ticket, approval rate and delta are computed over those orders |
| Analytics.DeltaSign | bling-dashboard/bling-saas/services/analytics_service.py:41-45 | with positive previous revenue, delta > 0 iff revenue grew, and delta = 0 iff it stayed the same |
| Analytics.IgnoredOrderChangesNothing | bling-dashboard/bling-saas/services/analytics_service.py:26-29 | adding a cancelled or undated order changes no sales KPI |
| Analytics.DailyQty | bling-dashboard/bling-saas/services/analytics_service.py:98-103 | daily_qty × 90 = the SKU's quantity sold in the last 90 days (0 for an SKU with no sales) |
| Analytics.CoverageDays | bling-dashboard/bling-saas/services/analytics_service.py:104-107 | coverage × daily_qty = saldo when daily_qty > 0; otherwise 999 |
| Analytics.MergeRow | bling-dashboard/bling-saas/services/analytics_service.py:83-107 | a stock row keeps its sku, coerced saldo and coerced custo; valor_estoque = saldo×custo, and its coverage agrees with its daily quantity |
| Analytics.Merge | bling-dashboard/bling-saas/services/analytics_service.py:102-103 | one merged row per stock row, in order |
| Analytics.DeadStock | bling-dashboard/bling-saas/services/analytics_service.py:112-113 | exactly the rows with saldo > 5 and daily_qty = 0, each with trava = saldo×custo |
| Analytics.Skus | bling-dashboard/bling-saas/services/analytics_service.py:119 | the SKU groups are distinct and are exactly the SKUs with a sale |
| Analytics.GroupRevenue | bling-dashboard/bling-saas/services/analytics_service.py:117-119 | one total per SKU, summing that SKU's line totals |
| Analytics.SortDesc | bling-dashboard/bling-saas/services/analytics_service.py:119 | the result is a permutation of the groups, sorted by descending revenue |
| Analytics.AbcCurve | bling-dashboard/bling-saas/services/analytics_service.py:117-123 | the rows are the per-SKU revenues rearranged (equal as multisets), so each SKU appears once and none is lost, and their totals add up to the total of all sale lines; they come in descending revenue; each cumulative share is the running sum of the totals over their grand total floored at 1, and each class follows the 0.8/0.95 cut of its share |
| Analytics.GroupRevenueSum | bling-dashboard/bling-saas/services/analytics_service.py:117-119 | the per-SKU totals add up to the total of all the sale lines |
| Analytics.DistinctSkusKept | bling-dashboard/bling-saas/services/analytics_service.py:119 | any rearrangement of rows with distinct SKUs, such as the sorted groups, still has distinct SKUs |
| Seqs.SumOfPermutation | bling-dashboard/bling-saas/services/analytics_service.py:119-120 | rearranging rows, as `sort_values` does, leaves the column sum unchanged |
| Analytics.LastShareIsWhole | bling-dashboard/bling-saas/services/analytics_service.py:119-123 | with revenue of at least 1, the last row's cumulative share is exactly 1, in class C |
| Analytics.AbcClassesOrdered | bling-dashboard/bling-saas/services/analytics_service.py:119-123 | with non-negative revenues, classes appear as A…B…C and never go back |
| Analytics.ShareStep | bling-dashboard/bling-saas/services/analytics_service.py:120-123 | down any ranking with non-negative revenues, a later row's class is never better than an earlier row's |
| Analytics.SingleSkuIsClassC | bling-dashboard/bling-saas/services/analytics_service.py:120-123 | any catalogue of one SKU with revenue of at least 1 gives one row with cumulative share 1.0, in class C |
| Analytics.BuildInventoryKpis | bling-dashboard/bling-saas/services/analytics_service.py:82-131 | "empty" iff there is no stock; rupture holds exactly the rows with coverage < 15, one entry per such row; dead stock, stock value and the ABC curve are as above |
| Seqs.FilterMultiplicity | bling-dashboard/app_production.py:370 | a boolean mask keeps every copy of a row it selects and no copy of one it rejects |
| Seqs.FilterAppend | bling-dashboard/bling-saas/services/analytics_service.py:109 | a boolean mask keeps rows in order: masking a concatenation masks each part |
| Analytics.RuptureFollowsStock | bling-dashboard/bling-saas/services/analytics_service.py:101-109 | the rupture list of two stock tables one after the other is the first table's list followed by the second's, so rupture rows come in stock order |
| Analytics.RuptureOfOneItem | bling-dashboard/bling-saas/services/analytics_service.py:101-109 | a single stock item is listed in rupture iff its merged row has coverage < 15, and then it is that row |
| Analytics.RuptureRowsSell | bling-dashboard/bling-saas/services/analytics_service.py:104-110 | every rupture row has positive daily sales (999 is never below 15) |
| Analytics.SellingSkuIsNotDead | bling-dashboard/bling-saas/services/analytics_service.py:98-113 | with non-negative quantities, an SKU sold in the last 90 days is never dead stock |
| Analytics.CalendarAverageVersusObserved | bling-dashboard/bling-saas/services/analytics_service.py:98-99 | one sale of 9 units averages 0.1 a day here, but 9 a day in the processor's observed-day average |
| Analytics.Inadimplencia | bling-dashboard/bling-saas/services/analytics_service.py:145-147 | the rate is the percentage that the overdue receivables (dated before today, status not "pago" in any letter case), summed entry by entry, make of all receivables with the total floored at 1 |
| Analytics.OverdueTotalIsFilteredSum | bling-dashboard/bling-saas/services/analytics_service.py:146-147 | summing the filtered overdue rows gives the entry-by-entry sum of overdue amounts |
| Analytics.InadimplenciaBounded | bling-dashboard/bling-saas/services/analytics_service.py:145-147 | with non-negative amounts the rate lies in [0, 100] |
| Analytics.NothingOverdueIsZero | bling-dashboard/bling-saas/services/analytics_service.py:146-147 | with nothing overdue, inadimplência is 0 |
| Analytics.AllOverdueIsHundred | bling-dashboard/bling-saas/services/analytics_service.py:146-147 | with every receivable overdue and a total of at least 1, it is 100 |
| Analytics.Projection | bling-dashboard/bling-saas/services/analytics_service.py:149-156 | holds exactly the dated entries due by today + 30 days, receivables before payables, each with its own amount and kind |
| Analytics.ProjectFlowsFollowFilter | bling-dashboard/bling-saas/services/analytics_service.py:149-156 | one table projects to one movement per entry that is dated and due by the horizon, the `i`-th movement taken from the `i`-th such entry |
| Analytics.ProjectFlowsAppend | bling-dashboard/bling-saas/services/analytics_service.py:149-156 | projecting a concatenated table gives the first part's movements followed by the second's |
| Analytics.ProjectFlowsSingle | bling-dashboard/bling-saas/services/analytics_service.py:155-156 | one entry gives one movement with its date, amount and kind iff it is dated and due by today + 30 days, and none otherwise |
| Analytics.ProjectionReceivablesFirst | bling-dashboard/bling-saas/services/analytics_service.py:149-156 | the projection has as many movements as there are due receivables plus due payables; the first ones, exactly as many as the due receivables, are the receivables in table order |
| Analytics.ProjectionPayablesAfter | bling-dashboard/bling-saas/services/analytics_service.py:149-156 | after the receivables come the due payables, in table order, each with its own date and amount |
| Analytics.OverdueIsProjected | bling-dashboard/bling-saas/services/analytics_service.py:145-156 | an overdue receivable always appears in the projection |
| Analytics.BuildFinanceKpis | bling-dashboard/bling-saas/services/analytics_service.py:134-162 | "empty" iff there are no receivables and no payables |
| AuthService.VerifyPassword | bling-dashboard/bling-saas/services/auth_service.py:23-27 | true iff the check matches; a malformed hash gives false instead of an error |
| AuthService.GetAdminCredentials | bling-dashboard/bling-saas/services/auth_service.py:66-70 | the user defaults to "admin" and the hash to "" |
| AuthService.RewriteEnvLines | bling-dashboard/bling-saas/services/auth_service.py:44-59 | every ADMIN_USER= and ADMIN_PASS_HASH= line gets the new value; other lines keep their text and place; lines are appended only for missing keys, user first |
| AuthService.RewriteHasBothKeys | bling-dashboard/bling-saas/services/auth_service.py:56-59 | the rewritten lines hold the new user line and the new hash line |
| AuthService.RewriteIsIdempotent | bling-dashboard/bling-saas/services/auth_service.py:44-59 | rewriting twice with the same values equals rewriting once |
| AuthService.UnterminatedLastLineSwallowsUser | bling-dashboard/bling-saas/services/auth_service.py:42-61 | as written, a file whose only line lacks a newline reads back with no ADMIN_USER= line |
| AuthService.EnvTextReadsBack | bling-dashboard/bling-saas/services/auth_service.py:42-61 | with the last line terminated first, the file reads back as exactly the rewritten lines, including both admin lines |
| AuthService.EnsureAdminEnv | bling-dashboard/bling-saas/services/auth_service.py:30-63 | nothing happens when the user and hash are both non-empty; otherwise the environment gets the user (or "admin") and a hash of ADMIN_PASS (default "admin"), and an existing file is rewritten as the source writes it, its line ends read in text mode |
| Strings.UniversalNewlines | bling-dashboard/bling-saas/services/auth_service.py:42-43 | text read in text mode holds no `\r`, is never longer than the file, and a file without `\r` reads unchanged |
| Strings.UniversalNewlinesPlainPrefix | bling-dashboard/bling-saas/services/auth_service.py:42-43 | a leading stretch without `\r` reads unchanged, whatever follows it |
| Strings.CarriageReturnsReadAsNewlines | bling-dashboard/bling-saas/services/auth_service.py:42-43 | for any lines `a` and `b` without `\r`, `a\r\nb\r` reads as `a\nb\n`: a `\r\n` pair and a lone `\r` each become one `\n` |
| AuthService.CarriageReturnEndsLine | bling-dashboard/bling-saas/services/auth_service.py:42-61 | a file whose one line ends in a lone `\r` reads as a terminated line, so both admin lines follow it on lines of their own |
| AuthService.BootstrapIsStable | bling-dashboard/bling-saas/services/auth_service.py:30-39 | a second bootstrap changes nothing |
| AuthService.FindClient | bling-dashboard/bling-saas/services/auth_service.py:81 | finds the first client with the username, or none iff no client has it |
| AuthService.LoginUser | bling-dashboard/bling-saas/services/auth_service.py:73-106 | a login succeeds iff the user is the configured admin (with a non-empty hash) and the admin password matches, or, for anyone else, the client exists, is active and its password matches; a failed login changes no client row and requests no token; the client table keeps its length |
| AuthService.AdminLogin | bling-dashboard/bling-saas/services/auth_service.py:74-79 | the admin branch never reaches the client table or the token endpoint; success stores only the admin auth in the session, failure leaves the session alone |
| AuthService.RefusedLogin | bling-dashboard/bling-saas/services/auth_service.py:81-88 | an unknown user or a wrong password changes nothing; a suspended client is refused with "Acesso Suspenso" and its login is not counted |
| AuthService.ClientLogin | bling-dashboard/bling-saas/services/auth_service.py:90-106 | a successful client login changes only that client's row: it stamps the time, counts one more login, maintains the token, sets token_error when maintenance fails, and still returns the client auth |
| AuthService.LoginCountsOnce | bling-dashboard/bling-saas/services/auth_service.py:90-93 | a client login adds exactly 1 to login_count (None counts as 0) and leaves credentials and status alone |
| AuthService.Logout | bling-dashboard/bling-saas/services/auth_service.py:109-112 | removes auth, auth_error and token_error, and keeps every other key |
| AuthService.LogoutUndoesLogin | bling-dashboard/bling-saas/services/auth_service.py:73-112 | logging out after any login attempt leaves the session as logging out before it would |

## Left out

- **HTTP.**
  - `requests` calls become oracle answers.
  - `tenacity` wait times and the `time.sleep` rate limits are not modelled. Only the attempt count is.
- **Persistence.**
  - JSON reading and writing of `tokens.json` is replaced by a `TokenFile` value.
  - SQLite/SQLAlchemy sessions, `commit` and `add` are replaced by returned client rows.
  - `load_dotenv` / `load_env` is replaced by an `AdminEnv` value that already holds what they load.
- **pandas and DuckDB mechanics.**
  - Parsing a date string is outside the model. A row's date is given as parsed, or absent when coercion failed.
  - `to_numeric` coerces a non-number to 0, like `fillna(0)` after a failed coercion.
  - DuckDB's output row order is unspecified. The join is modelled in nested-loop order.
  - The order of equal-revenue SKUs after `sort_values` is unspecified. The ABC sort is an insertion sort.
- **Presentation.** `trend`, `channel_share`, `top_products`, `top_sellers` and the rupture `status` label of `build_sales_kpis` / `build_inventory_kpis` are not modelled. Neither are the Streamlit views and `generate_mock_data`.
- **Time zones.**
  - Every `pd.Timestamp.now()` / `datetime.now()` call inside one operation reads the same `now`.
  - São Paulo's offset is the `Zone` parameter.
  - Naive and aware timestamps are both plain seconds.
  - The aware/naive round trip of `token_expires_at` through the database is represented only by the two `Expiry` cases.
- **bcrypt.** Hashing and checking are oracles. A malformed hash is the `Malformed` outcome.
- Analytics.BuildSalesKpis: a frame without `total`, `status` or `channel` raises `AttributeError` (lines 23-25: the scalar fallback of `df.get` has no `fillna`/`astype`), one without `created_at` raises `KeyError` at line 26, and one without `product_name` or `seller` raises `KeyError` in the groupby at line 60 or 65, before the guards at lines 62 and 67 can apply. The model's orders always carry `created_at` (possibly empty), `total` and `status`, and the channel, product and seller tables are not modelled.
- Analytics.BuildInventoryKpis: stock without `sku`, `saldo` or `custo` raises `AttributeError` (lines 84-86). Sales without `created_at` raise `KeyError` at line 91, even when the stock is empty. Sales without `qty` or `sku` raise `AttributeError` at lines 92-93, and sales without `total` at line 118. The model's stock items and sale lines always carry these fields.
- Analytics.BuildFinanceKpis: a table without `amount` raises `AttributeError` (lines 139-140), and, once either table is non-empty, receivables without `status` raise `AttributeError` at line 146. The model's entries always carry these fields.
- **Rows without a product id.** pandas `groupby` drops NaN keys. The model gives such rows an average of 0 and counts no sale for them.
- Paging.GetAllData: the loop is bounded by a ghost page `last` at which it is known to stop. The source loops for ever on a server that never sends an empty page.
- Processor.Process: `src/data_processor.py` does not compute `produto_nome`, `canal_venda`, `item_total` or `margem_total`. The model computes them for both copies, and the columns both copies compute agree.
- BlingService.RefreshToken: `int(expires_in)` of a null or non-numeric value raises in the source. The model's body field is already an integer.
- FileAuth.ReadTokens: `int()` of a non-numeric JSON value is not modelled, for the same reason.
- AuthService.EnsureAdminEnv: an `OSError` while writing `.env` is swallowed by the source and is not modelled.
- AuthService.EnsureAdminEnv: writing in text mode turns each `\n` into the platform's line separator. The model writes `\n`, as on POSIX.
- Analytics.InadimplenciaBounded: the [0, 100] bound is stated only for non-negative amounts. A negative receivable can push the source's ratio outside it.
- Processor.NormalizeRecords: records are flat, with nested fields under dotted names as `json_normalize` gives them. The modular copy builds its tables with `pd.DataFrame(...)`, which keeps a nested `produto` object as one column, so a nested stock record leaves no `produto.id` column and that copy's query fails to bind. The model covers that copy only for flat records.
- Processor.NormalizeSales: an order without an `itens` key makes `json_normalize` raise `KeyError`. Every modelled order has an item list, possibly empty.
- Processor.EnrichAll: the 90-day filter compares the parsed `data` column with the tz-aware `Timestamp.utcnow()`. pandas raises `TypeError` when the parsed dates are tz-naive; the model assumes the comparison succeeds, both sides being seconds.
- **Numeric text.** `pd.to_numeric` parses text such as `"12.5"`, but the model's cell coercion turns any text into 0. Numeric API fields are taken to arrive as number cells.

Some behaviours of the code that a reader might not expect:

- **ABC classes.** Classes follow the cumulative share, so an SKU that alone holds more than 80% of revenue is B or C, never A (`Analytics.SingleSkuIsClassC`).
- **Channel.** The first candidate that is a column decides for every row. A null in that column becomes "Indefinido" even when a later candidate holds a value (`Processor.Derive`, `Processor.ProductionSalesCarryCanalVenda`, `Processor.ChannelComesFromCanalVenda`).
- **Past expiry.** `token_status` reports "expiring" for an expiry already in the past, and "expired" only when no expiry is stored (`BlingService.PastExpiryIsExpiring`).
- **Safety margin.** The database variant stores `now + expires_in` with no safety margin. The file variant subtracts 60 seconds.
- **Page parameter.** Pages are requested through the `pagina` parameter.

## Findings

| source | as written | input that shows it | evidently intended | confidence | as-written member | corrected member |
|---|---|---|---|---|---|---|
| bling-dashboard/bling-saas/views/admin_view.py:72 | counts clients whose `token_status` equals `"Valid"`, but `token_status` only returns lower-case names | any client list with a client whose token expires in more than 10 minutes: "Tokens Válidos" shows 0 and every token counts as expired | count `== "valid"` | high; not executed | BlingService.AsWrittenCountsNoValidToken | BlingService.ValidTokenCountCounts |
| bling-dashboard/bling-saas/services/auth_service.py:42-61 | appends `ADMIN_USER=…\n` after the last line read, even when that line has no newline | a `.env` holding `FOO=1` with no trailing newline becomes `FOO=1ADMIN_USER=admin\nADMIN_PASS_HASH=h\n`, which has no ADMIN_USER line | terminate the last line before appending | medium; not executed | AuthService.UnterminatedLastLineSwallowsUser | AuthService.EnvTextReadsBack |

=== FILE: analytics.dfy ===
/** `services/analytics_service.py`: the sales, inventory and finance
    figures of the multi-tenant dashboard. Columns arrive already parsed:
    timestamps as seconds (`None` for a missing or unparsable date) and
    amounts as cells that coerce to 0 when missing or non-numeric. `now` and
    `today` are parameters. */
module Analytics {
  import opened Wrappers
  import opened Tables
  import opened Seqs
  import opened Strings
  import Processor

  /** `_safe_div`: a zero denominator gives 0 instead of raising. */
  function SafeDiv(n: real, d: real): (r: real)
    ensures d == 0.0 ==> r == 0.0
    ensures d != 0.0 ==> r * d == n
  {
    if d != 0.0 then n / d else 0.0
  }

  /** A part of a non-negative whole is a fraction between 0 and 1 of it. */
  lemma FractionBounds(a: real, b: real)
    requires 0.0 <= a <= b
    ensures 0.0 <= SafeDiv(a, b) <= 1.0
  {
    if b != 0.0 {
      var q := SafeDiv(a, b);
      assert q * b == a;
    }
  }

  /** Dividing by a positive number keeps the order. */
  lemma DivideKeepsOrder(a: real, b: real, d: real)
    requires a <= b && d > 0.0
    ensures a / d <= b / d
  {
    assert (b - a) / d >= 0.0;
    assert b / d - a / d == (b - a) / d;
  }

  function Max(a: real, b: real): real
  {
    if a >= b then a else b
  }

  // ---------------------------------------------------------------- sales

  /** One order row: `created_at`, `total` and the status text. */
  datatype SalesOrder = SalesOrder(createdAt: Option<int>, total: Value, status: string)

  const SalesWindowDays: int := 30
  const CancelledStatus: string := "cancelado"
  const PaidStatuses: seq<string> := ["pago", "aprovado", "faturado"]

  predicate Cancelled(o: SalesOrder)
  {
    Lower(o.status) == CancelledStatus
  }

  /** Dated, not cancelled, and created in the last 30 days. */
  predicate InLast30(o: SalesOrder, now: int)
  {
    o.createdAt.Some? && o.createdAt.value >= now - SalesWindowDays * SecondsPerDay && !Cancelled(o)
  }

  /** Dated, not cancelled, and created in the 30 days before those. */
  predicate InPrevious30(o: SalesOrder, now: int)
  {
    o.createdAt.Some? && o.createdAt.value >= now - 2 * SalesWindowDays * SecondsPerDay
    && o.createdAt.value < now - SalesWindowDays * SecondsPerDay && !Cancelled(o)
  }

  predicate Paid(o: SalesOrder)
  {
    Lower(o.status) in PaidStatuses
  }

  function Recent(orders: seq<SalesOrder>, now: int): seq<SalesOrder>
  {
    Filter(orders, (o: SalesOrder) => InLast30(o, now))
  }

  function Previous(orders: seq<SalesOrder>, now: int): seq<SalesOrder>
  {
    Filter(orders, (o: SalesOrder) => InPrevious30(o, now))
  }

  function Revenue(orders: seq<SalesOrder>): real
  {
    SumOf(orders, (o: SalesOrder) => ToNumber(o.total))
  }

  /** `n` as a percentage of `d`, 0 when `d` is 0. */
  function Percent(n: real, d: real): (p: real)
    ensures d != 0.0 ==> p * d == 100.0 * n
    ensures 0.0 <= n <= d ==> 0.0 <= p <= 100.0
  {
    var q := SafeDiv(n, d);
    assert 0.0 <= n <= d ==> 0.0 <= q <= 1.0 by {
      if 0.0 <= n <= d { FractionBounds(n, d); }
    }
    assert d != 0.0 ==> q * 100.0 * d == 100.0 * (q * d);
    q * 100.0
  }

  /** The percentage of `paid` among `count` orders. */
  function Percentage(paid: nat, count: nat): real
  {
    Percent(paid as real, count as real)
  }

  /** `delta`: the change from the previous period's revenue, in percent; 0
      when there was none. */
  function Delta(revenue: real, previous: real): real
  {
    if previous != 0.0 then SafeDiv(revenue - previous, previous) * 100.0 else 0.0
  }

  /** The headline figures; the trend, channel and ranking tables are not
      modelled. */
  datatype SalesKpis = SalesKpis(revenue: real, delta: real, ticket: real, approvalRate: real)

  /** `approval_rate`: the share of orders with a paid status, in percent. */
  function ApprovalRate(recent: seq<SalesOrder>): (a: real)
    ensures 0.0 <= a <= 100.0
    ensures a == 0.0 <==> |recent| == 0 || Count(recent, Paid) == 0
    ensures |recent| > 0 ==> a * (|recent| as real) == 100.0 * (Count(recent, Paid) as real)
  {
    var paid := Count(recent, Paid);
    Percentage(paid, |recent|)
  }

  /** `ticket`: the average order value. */
  function Ticket(recent: seq<SalesOrder>): (t: real)
    requires |recent| > 0
    ensures t * (|recent| as real) == Revenue(recent)
  {
    SafeDiv(Revenue(recent), |recent| as real)
  }

  /** `build_sales_kpis`; `None` is the `{"empty": True}` answer. */
  function BuildSalesKpis(orders: seq<SalesOrder>, now: int): (r: Option<SalesKpis>)
    ensures r.None? <==> |Recent(orders, now)| == 0
    ensures r.Some? ==> r.value.revenue == Revenue(Recent(orders, now))
    ensures r.Some? ==> r.value.ticket == Ticket(Recent(orders, now))
    ensures r.Some? ==> r.value.approvalRate == ApprovalRate(Recent(orders, now))
    ensures r.Some? ==> r.value.delta == Delta(r.value.revenue, Revenue(Previous(orders, now)))
  {
    var recent := Recent(orders, now);
    if |recent| == 0 then None
    else
      var revenue := Revenue(recent);
      Some(SalesKpis(revenue, Delta(revenue, Revenue(Previous(orders, now))), Ticket(recent), ApprovalRate(recent)))
  }

  /** With a positive previous revenue, `delta` is positive exactly when
      revenue grew, and 0 exactly when it stayed the same. */
  lemma DeltaSign(revenue: real, previous: real)
    requires previous > 0.0
    ensures Delta(revenue, previous) > 0.0 <==> revenue > previous
    ensures Delta(revenue, previous) == 0.0 <==> revenue == previous
  {
    var q := SafeDiv(revenue - previous, previous);
    assert q * previous == revenue - previous;
    if q > 0.0 { assert q * previous > 0.0; }
    if q < 0.0 { assert q * previous < 0.0; }
  }

  /** An order whose status reads "cancelado" in any letter case, or that
      has no date, changes none of the sales figures. */
  lemma IgnoredOrderChangesNothing(orders: seq<SalesOrder>, o: SalesOrder, now: int)
    requires Cancelled(o) || o.createdAt.None?
    ensures BuildSalesKpis(orders + [o], now) == BuildSalesKpis(orders, now)
  {
    assert (orders + [o])[..|orders|] == orders;
  }

  // ---------------------------------------------------------------- inventory

  /** One stock row: SKU, balance and unit cost. */
  datatype StockItem = StockItem(sku: string, saldo: Value, custo: Value)

  /** One sale line: date, SKU, quantity and line total. */
  datatype SaleLine = SaleLine(createdAt: Option<int>, sku: string, qty: Value, total: Value)

  const InventoryWindowDays: int := 90
  /** The calendar days the 90-day quantity is spread over. */
  const CalendarDays: real := 90.0
  /** The coverage reported for a SKU that does not sell. */
  const NoCoverage: real := 999.0
  const RuptureDays: real := 15.0
  const DeadStockMinimum: real := 5.0

  predicate InLast90(s: SaleLine, now: int)
  {
    s.createdAt.Some? && s.createdAt.value >= now - InventoryWindowDays * SecondsPerDay
  }

  /** The sale lines of one SKU inside the 90-day window. */
  function SkuSales(sales: seq<SaleLine>, sku: string, now: int): seq<SaleLine>
  {
    Filter(sales, (s: SaleLine) => InLast90(s, now) && s.sku == sku)
  }

  function Quantity(s: SaleLine): real
  {
    ToNumber(s.qty)
  }

  /** `daily_qty`: the SKU's 90-day quantity spread over all 90 calendar
      days, whether or not it sold on them (0 for a SKU that did not sell). */
  function DailyQty(sales: seq<SaleLine>, sku: string, now: int): (d: real)
    ensures d * CalendarDays == SumOf(SkuSales(sales, sku, now), Quantity)
  {
    SumOf(SkuSales(sales, sku, now), Quantity) / CalendarDays
  }

  /** `coverage_days`: how many days the balance lasts at the daily rate, or
      999 when nothing sells. */
  function CoverageDays(saldo: real, daily: real): (c: real)
    ensures daily > 0.0 ==> c * daily == saldo
    ensures daily <= 0.0 ==> c == NoCoverage
  {
    if daily > 0.0 then SafeDiv(saldo, daily) else NoCoverage
  }

  /** A row of the stock table merged with its daily sales. */
  datatype StockRow = StockRow(sku: string, saldo: real, custo: real, valorEstoque: real,
                               dailyQty: real, coverageDays: real)

  /** The derived columns of a merged row agree with its inputs: stock value
      is balance times cost, and coverage times the daily rate is the
      balance, or 999 when the SKU does not sell. */
  predicate Consistent(r: StockRow)
  {
    r.valorEstoque == r.saldo * r.custo
    && (r.dailyQty > 0.0 ==> r.coverageDays * r.dailyQty == r.saldo)
    && (r.dailyQty <= 0.0 ==> r.coverageDays == NoCoverage)
  }

  function MergeRow(item: StockItem, sales: seq<SaleLine>, now: int): (r: StockRow)
    ensures r.sku == item.sku && r.saldo == ToNumber(item.saldo) && r.custo == ToNumber(item.custo)
    ensures r.dailyQty == DailyQty(sales, item.sku, now)
    ensures Consistent(r)
  {
    var saldo := ToNumber(item.saldo);
    var custo := ToNumber(item.custo);
    var daily := DailyQty(sales, item.sku, now);
    StockRow(item.sku, saldo, custo, saldo * custo, daily, CoverageDays(saldo, daily))
  }

  /** The left merge of stock with the per-SKU daily sales: one row per stock
      row, in order, since the daily table has one row per SKU. */
  function Merge(stock: seq<StockItem>, sales: seq<SaleLine>, now: int): (rows: seq<StockRow>)
    ensures |rows| == |stock|
    ensures forall i :: 0 <= i < |stock| ==> rows[i] == MergeRow(stock[i], sales, now)
  {
    seq(|stock|, i requires 0 <= i < |stock| => MergeRow(stock[i], sales, now))
  }

  predicate Rupture(r: StockRow)
  {
    r.coverageDays < RuptureDays
  }

  predicate Dead(r: StockRow)
  {
    r.saldo > DeadStockMinimum && r.dailyQty == 0.0
  }

  /** A dead-stock row with the money it ties up (`trava`). */
  datatype DeadRow = DeadRow(row: StockRow, trava: real)

  function DeadStock(rows: seq<StockRow>): (d: seq<DeadRow>)
    ensures |d| == Count(rows, Dead)
    ensures forall i :: 0 <= i < |d| ==> d[i].row in rows && Dead(d[i].row)
    ensures forall x :: x in rows && Dead(x) ==> exists i :: 0 <= i < |d| && d[i].row == x
    ensures forall i :: 0 <= i < |d| ==> d[i].trava == d[i].row.saldo * d[i].row.custo
  {
    var dead := Filter(rows, Dead);
    var d := seq(|dead|, i requires 0 <= i < |dead| => DeadRow(dead[i], dead[i].saldo * dead[i].custo));
    forall x | x in rows && Dead(x)
      ensures exists i :: 0 <= i < |d| && d[i].row == x
    {
      assert x in dead;
      var k :| 0 <= k < |dead| && dead[k] == x;
      assert d[k].row == x;
    }
    assert forall i :: 0 <= i < |d| ==> d[i].row in dead;
    d
  }

  /** A dead row ties up money exactly when its unit cost is positive: its
      balance is above the dead-stock minimum. */
  lemma DeadRowTiesUpMoney(rows: seq<StockRow>, i: nat)
    requires i < |DeadStock(rows)|
    ensures DeadStock(rows)[i].trava > 0.0 <==> DeadStock(rows)[i].row.custo > 0.0
    ensures DeadStock(rows)[i].trava == 0.0 <==> DeadStock(rows)[i].row.custo == 0.0
  {
    var r := DeadStock(rows)[i].row;
    assert r.saldo > 0.0;
    if r.custo > 0.0 { assert r.saldo * r.custo > 0.0; }
    if r.custo < 0.0 { assert r.saldo * r.custo < 0.0; }
  }

  // ---------------------------------------------------------------- ABC curve

  /** Revenue summed per SKU. */
  datatype SkuRevenue = SkuRevenue(sku: string, total: real)

  /** Some line of `sales` is for SKU `k`. */
  predicate HasSku(sales: seq<SaleLine>, k: string)
  {
    exists i :: 0 <= i < |sales| && sales[i].sku == k
  }

  lemma HasSkuSnoc(init: seq<SaleLine>, x: SaleLine, k: string)
    ensures HasSku(init + [x], k) <==> HasSku(init, k) || x.sku == k
  {
    var all := init + [x];
    if HasSku(all, k) && x.sku != k {
      var i :| 0 <= i < |all| && all[i].sku == k;
      assert init[i].sku == k;
    }
    if HasSku(init, k) {
      var i :| 0 <= i < |init| && init[i].sku == k;
      assert all[i].sku == k;
    }
    if x.sku == k {
      assert all[|init|].sku == k;
    }
  }

  /** The SKUs of the sale lines, each once, in order of first appearance. */
  function Skus(sales: seq<SaleLine>): (ks: seq<string>)
    ensures forall i, j :: 0 <= i < j < |ks| ==> ks[i] != ks[j]
    ensures forall k :: k in ks <==> HasSku(sales, k)
  {
    if |sales| == 0 then []
    else
      var init := sales[..|sales| - 1];
      var last := sales[|sales| - 1];
      assert sales == init + [last];
      forall k
        ensures HasSku(sales, k) <==> HasSku(init, k) || k == last.sku
      {
        HasSkuSnoc(init, last, k);
      }
      var ks := Skus(init);
      if last.sku in ks then ks else ks + [last.sku]
  }

  function LineTotal(s: SaleLine): real
  {
    ToNumber(s.total)
  }

  /** The sale lines of SKU `k`, as a row filter. */
  function OfSku(k: string): SaleLine -> bool
  {
    (s: SaleLine) => s.sku == k
  }

  /** One revenue row per key of `ks`, in the order of `ks`. */
  function Groups(sales: seq<SaleLine>, ks: seq<string>): (g: seq<SkuRevenue>)
    ensures |g| == |ks|
    ensures forall i :: 0 <= i < |g| ==> g[i] == SkuRevenue(ks[i], SumOf(Filter(sales, OfSku(ks[i])), LineTotal))
  {
    if |ks| == 0 then []
    else
      var k := ks[|ks| - 1];
      Groups(sales, ks[..|ks| - 1]) + [SkuRevenue(k, SumOf(Filter(sales, OfSku(k)), LineTotal))]
  }

  /** `groupby("sku")["total"].sum()` over every sale line, dated or not. */
  function GroupRevenue(sales: seq<SaleLine>): (g: seq<SkuRevenue>)
    ensures |g| == |Skus(sales)|
    ensures forall i :: 0 <= i < |g| ==>
      g[i] == SkuRevenue(Skus(sales)[i], SumOf(Filter(sales, OfSku(Skus(sales)[i])), LineTotal))
  {
    var ks := Skus(sales);
    seq(|ks|, i requires 0 <= i < |ks| => SkuRevenue(ks[i], SumOf(Filter(sales, OfSku(ks[i])), LineTotal)))
  }

  /** The revenue rows of distinct keys, after one more sale line: the line's
      total is added once, to its own SKU's row, if that SKU is a key. */
  lemma {:induction false} GroupsSnoc(init: seq<SaleLine>, x: SaleLine, ks: seq<string>)
    requires forall i, j :: 0 <= i < j < |ks| ==> ks[i] != ks[j]
    ensures SumOf(Groups(init + [x], ks), Total)
      == SumOf(Groups(init, ks), Total) + (if x.sku in ks then LineTotal(x) else 0.0)
    decreases |ks|
  {
    if |ks| > 0 {
      var k := ks[|ks| - 1];
      var front := ks[..|ks| - 1];
      var sales := init + [x];
      GroupsSnoc(init, x, front);
      assert sales[..|sales| - 1] == init;
      var before := Filter(init, OfSku(k));
      assert Filter(sales, OfSku(k)) == if x.sku == k then before + [x] else before;
      assert SumOf(Filter(sales, OfSku(k)), LineTotal)
        == SumOf(before, LineTotal) + (if x.sku == k then LineTotal(x) else 0.0) by {
        if x.sku == k {
          assert (before + [x])[..|before|] == before;
        }
      }
      var g := Groups(sales, ks);
      var h := Groups(init, ks);
      assert g[..|g| - 1] == Groups(sales, front);
      assert h[..|h| - 1] == Groups(init, front);
      assert x.sku in ks <==> x.sku in front || x.sku == k;
      assert x.sku == k ==> x.sku !in front;
    }
  }

  /** Grouping by SKU keeps the revenue: the per-SKU totals add up to the
      total of all the sale lines. */
  lemma GroupRevenueSum(sales: seq<SaleLine>)
    ensures SumOf(GroupRevenue(sales), Total) == SumOf(sales, LineTotal)
  {
    assert GroupRevenue(sales) == Groups(sales, Skus(sales));
    SkuGroupsSum(sales);
  }

  /** The revenue rows of all the SKUs add up to the total of the lines. */
  lemma {:induction false} SkuGroupsSum(sales: seq<SaleLine>)
    ensures SumOf(Groups(sales, Skus(sales)), Total) == SumOf(sales, LineTotal)
    decreases |sales|
  {
    if |sales| > 0 {
      var init := sales[..|sales| - 1];
      var x := sales[|sales| - 1];
      assert sales == init + [x];
      SkuGroupsSum(init);
      SkuGroupsStep(init, x);
    }
  }

  /** One more sale line adds its total to the revenue rows of all the SKUs. */
  lemma SkuGroupsStep(init: seq<SaleLine>, x: SaleLine)
    ensures SumOf(Groups(init + [x], Skus(init + [x])), Total) == SumOf(Groups(init, Skus(init)), Total) + LineTotal(x)
  {
    var ks := Skus(init);
    SkusSnoc(init, x);
    GroupsSnoc(init, x, ks);
    if x.sku !in ks {
      NewSkuGroup(init, x);
    }
  }

  /** The SKUs after one more sale line: its SKU is added at the end if new. */
  lemma SkusSnoc(init: seq<SaleLine>, x: SaleLine)
    ensures Skus(init + [x]) == if x.sku in Skus(init) then Skus(init) else Skus(init) + [x.sku]
  {
    assert (init + [x])[..|init|] == init;
  }

  /** A line whose SKU is new adds a row holding just its total. */
  lemma NewSkuGroup(init: seq<SaleLine>, x: SaleLine)
    requires x.sku !in Skus(init)
    ensures SumOf(Groups(init + [x], Skus(init) + [x.sku]), Total)
      == SumOf(Groups(init + [x], Skus(init)), Total) + LineTotal(x)
  {
    var sales := init + [x];
    var ks := Skus(init);
    var g := Groups(sales, ks + [x.sku]);
    assert (ks + [x.sku])[..|ks|] == ks;
    assert g[..|g| - 1] == Groups(sales, ks);
    assert !HasSku(init, x.sku);
    assert forall i :: 0 <= i < |init| ==> !OfSku(x.sku)(init[i]);
    CountNone(init, OfSku(x.sku));
    assert sales[..|sales| - 1] == init;
    assert Filter(sales, OfSku(x.sku)) == [x];
    assert SumOf([x], LineTotal) == LineTotal(x) by {
      assert [x][..0] == [];
    }
  }

  predicate SortedDesc(g: seq<SkuRevenue>)
  {
    forall i, j :: 0 <= i < j < |g| ==> g[i].total >= g[j].total
  }

  lemma SortedCons(a: SkuRevenue, rest: seq<SkuRevenue>)
    requires SortedDesc(rest)
    requires forall j :: 0 <= j < |rest| ==> a.total >= rest[j].total
    ensures SortedDesc([a] + rest)
  {
    var r := [a] + rest;
    forall i, j | 0 <= i < j < |r|
      ensures r[i].total >= r[j].total
    {
      assert r[j] == rest[j - 1];
      if i > 0 {
        assert r[i] == rest[i - 1];
      }
    }
  }

  /** Every element of `g` is bounded by a bound of its head. */
  lemma HeadBounds(g: seq<SkuRevenue>, y: SkuRevenue)
    requires SortedDesc(g) && |g| > 0 && y in multiset(g[1..])
    ensures g[0].total >= y.total
  {
    assert y in g[1..];
    var m :| 0 <= m < |g[1..]| && g[1..][m] == y;
    assert g[m + 1] == y;
  }

  function Insert(x: SkuRevenue, g: seq<SkuRevenue>): (r: seq<SkuRevenue>)
    requires SortedDesc(g)
    ensures |r| == |g| + 1
    ensures SortedDesc(r)
    ensures multiset(r) == multiset(g) + multiset{x}
  {
    if |g| == 0 then [x]
    else if g[0].total <= x.total then
      SortedCons(x, g);
      [x] + g
    else
      var rest := Insert(x, g[1..]);
      assert g == [g[0]] + g[1..];
      forall j | 0 <= j < |rest|
        ensures g[0].total >= rest[j].total
      {
        assert rest[j] in multiset(rest);
        if rest[j] != x {
          HeadBounds(g, rest[j]);
        }
      }
      SortedCons(g[0], rest);
      [g[0]] + rest
  }

  /** `sort_values("total", ascending=False)`. */
  function SortDesc(g: seq<SkuRevenue>): (r: seq<SkuRevenue>)
    ensures |r| == |g|
    ensures SortedDesc(r)
    ensures multiset(r) == multiset(g)
  {
    if |g| == 0 then []
    else
      assert g == [g[0]] + g[1..];
      Insert(g[0], SortDesc(g[1..]))
  }

  /** No SKU has two rows. */
  predicate DistinctSkus(g: seq<SkuRevenue>)
  {
    forall i, j :: 0 <= i < j < |g| ==> g[i].sku != g[j].sku
  }

  /** A rearrangement of rows with distinct SKUs has distinct SKUs. */
  lemma {:induction false} DistinctSkusKept(a: seq<SkuRevenue>, b: seq<SkuRevenue>)
    requires multiset(a) == multiset(b)
    requires DistinctSkus(b)
    ensures DistinctSkus(a)
    decreases |a|
  {
    if |a| > 0 {
      var x := a[0];
      var tail := a[1..];
      assert a == [x] + tail;
      assert x in multiset(b);
      var p :| 0 <= p < |b| && b[p] == x;
      var rest := b[..p] + b[p + 1..];
      RemoveOne(b, p);
      assert multiset(rest) == multiset(tail);
      DistinctWithout(b, p);
      DistinctSkusKept(tail, rest);
      forall k | 0 <= k < |tail|
        ensures tail[k].sku != x.sku
      {
        assert tail[k] in multiset(rest);
      }
      forall i, j | 0 <= i < j < |a|
        ensures a[i].sku != a[j].sku
      {
        assert a[j] == tail[j - 1];
        if i > 0 {
          assert a[i] == tail[i - 1];
        }
      }
    }
  }

  /** Taking a row out of rows with distinct SKUs leaves rows with distinct
      SKUs, none of them the SKU taken out. */
  lemma DistinctWithout(b: seq<SkuRevenue>, p: nat)
    requires p < |b| && DistinctSkus(b)
    ensures DistinctSkus(b[..p] + b[p + 1..])
    ensures forall y :: y in b[..p] + b[p + 1..] ==> y.sku != b[p].sku
  {
    var rest := b[..p] + b[p + 1..];
    forall i, j | 0 <= i < j < |rest|
      ensures rest[i].sku != rest[j].sku
    {
      SkipIndex(b, p, i);
      SkipIndex(b, p, j);
    }
    forall y | y in rest
      ensures y.sku != b[p].sku
    {
      var m :| 0 <= m < |rest| && rest[m] == y;
      SkipIndex(b, p, m);
    }
  }

  datatype AbcClass = A | B | C

  /** 80% of revenue makes class A, the next 15% class B, the rest class C. */
  function ClassOf(share: real): AbcClass
  {
    if share <= 0.8 then A else if share <= 0.95 then B else C
  }

  function Rank(c: AbcClass): nat
  {
    match c
    case A => 0
    case B => 1
    case C => 2
  }

  datatype AbcRow = AbcRow(sku: string, total: real, cumShare: real, abcClass: AbcClass)

  function Total(g: SkuRevenue): real
  {
    g.total
  }

  /** The cumulative shares of a ranking: row `i` holds the share of all
      revenue taken by the first `i + 1` SKUs, and its class. */
  function Shares(g: seq<SkuRevenue>): (rows: seq<AbcRow>)
    ensures |rows| == |g|
    ensures forall i :: 0 <= i < |rows| ==>
      && rows[i].sku == g[i].sku && rows[i].total == g[i].total
      && rows[i].cumShare == SumOf(g[..i + 1], Total) / Max(SumOf(g, Total), 1.0)
      && rows[i].abcClass == ClassOf(rows[i].cumShare)
  {
    var denominator := Max(SumOf(g, Total), 1.0);
    seq(|g|, i requires 0 <= i < |g| =>
      var share := SumOf(g[..i + 1], Total) / denominator;
      AbcRow(g[i].sku, g[i].total, share, ClassOf(share)))
  }

  function RowTotal(r: AbcRow): real
  {
    r.total
  }

  /** The SKU and revenue of each row, dropping the share and class. */
  function Ranking(rows: seq<AbcRow>): seq<SkuRevenue>
  {
    seq(|rows|, i requires 0 <= i < |rows| => SkuRevenue(rows[i].sku, rows[i].total))
  }

  /** Rows that carry the totals of a ranking, position by position, add up
      to the same sum. */
  lemma {:induction false} SameTotals(rows: seq<AbcRow>, g: seq<SkuRevenue>)
    requires |rows| == |g|
    requires forall i :: 0 <= i < |g| ==> rows[i].total == g[i].total
    ensures SumOf(rows, RowTotal) == SumOf(g, Total)
  {
    if |g| > 0 {
      SameTotals(rows[..|rows| - 1], g[..|g| - 1]);
    }
  }

  /** The ABC curve: one row per SKU with its summed revenue, by descending
      revenue, each with the share of all revenue (floored at 1) held by it
      and every SKU ranked above it, and the class of that share. */
  function AbcCurve(sales: seq<SaleLine>): (rows: seq<AbcRow>)
    ensures |rows| == |Skus(sales)|
    ensures forall i :: 0 <= i < |rows| ==> SkuRevenue(rows[i].sku, rows[i].total) in GroupRevenue(sales)
    // the rows are the per-SKU revenues rearranged: each SKU once, none lost
    ensures multiset(Ranking(rows)) == multiset(GroupRevenue(sales))
    ensures forall i, j :: 0 <= i < j < |rows| ==> rows[i].sku != rows[j].sku
    ensures SumOf(rows, RowTotal) == SumOf(sales, LineTotal)
    ensures forall i, j :: 0 <= i < j < |rows| ==> rows[i].total >= rows[j].total
    ensures forall i :: 0 <= i < |rows| ==>
      rows[i].cumShare == SumOf(rows[..i + 1], RowTotal) / Max(SumOf(rows, RowTotal), 1.0)
    ensures forall i :: 0 <= i < |rows| ==> rows[i].abcClass == ClassOf(rows[i].cumShare)
  {
    var grouped := GroupRevenue(sales);
    var rows := Shares(SortDesc(grouped));
    SharesOfGroups(grouped, rows);
    GroupRevenueSum(sales);
    assert DistinctSkus(grouped);
    rows
  }

  /** The facts `AbcCurve` exports, stated over any grouping. */
  lemma SharesOfGroups(grouped: seq<SkuRevenue>, rows: seq<AbcRow>)
    requires rows == Shares(SortDesc(grouped))
    ensures Ranking(rows) == SortDesc(grouped)
    ensures forall i :: 0 <= i < |rows| ==> SkuRevenue(rows[i].sku, rows[i].total) in grouped
    ensures DistinctSkus(grouped) ==> forall i, j :: 0 <= i < j < |rows| ==> rows[i].sku != rows[j].sku
    ensures SumOf(rows, RowTotal) == SumOf(grouped, Total)
    ensures forall i :: 0 <= i < |rows| ==>
      rows[i].cumShare == SumOf(rows[..i + 1], RowTotal) / Max(SumOf(rows, RowTotal), 1.0)
  {
    var g := SortDesc(grouped);
    ShareRanking(g, rows);
    ShareSums(g, rows);
    SumOfPermutation(g, grouped, Total);
    forall i | 0 <= i < |rows|
      ensures SkuRevenue(rows[i].sku, rows[i].total) in grouped
    {
      assert Ranking(rows)[i] in multiset(g);
    }
    if DistinctSkus(grouped) {
      DistinctSkusKept(g, grouped);
    }
  }

  /** The rows of a ranking add up to its revenue, and each row's share is
      the running sum of the rows down to it. */
  lemma ShareSums(g: seq<SkuRevenue>, rows: seq<AbcRow>)
    requires rows == Shares(g)
    ensures SumOf(rows, RowTotal) == SumOf(g, Total)
    ensures forall i :: 0 <= i < |rows| ==>
      rows[i].cumShare == SumOf(rows[..i + 1], RowTotal) / Max(SumOf(rows, RowTotal), 1.0)
  {
    SameTotals(rows, g);
    forall i | 0 <= i < |rows|
      ensures rows[i].cumShare == SumOf(rows[..i + 1], RowTotal) / Max(SumOf(rows, RowTotal), 1.0)
    {
      SameTotals(rows[..i + 1], g[..i + 1]);
    }
  }

  /** Dropping the shares and classes gives back the ranking. */
  lemma ShareRanking(g: seq<SkuRevenue>, rows: seq<AbcRow>)
    requires rows == Shares(g)
    ensures Ranking(rows) == g
  {
    assert forall i :: 0 <= i < |g| ==> Ranking(rows)[i] == g[i];
  }

  /** Revenue of at least 1 makes the last row of the curve hold all of it:
      its cumulative share is exactly 1. */
  lemma LastShareIsWhole(sales: seq<SaleLine>)
    ensures var rows := AbcCurve(sales);
      |rows| > 0 && SumOf(rows, RowTotal) >= 1.0 ==> rows[|rows| - 1].cumShare == 1.0 && rows[|rows| - 1].abcClass == C
  {
    var rows := AbcCurve(sales);
    if |rows| > 0 && SumOf(rows, RowTotal) >= 1.0 {
      assert rows[..|rows|] == rows;
      WholeIsOne(SumOf(rows, RowTotal));
    }
  }

  // ---------------------------------------------------------------- inventory KPIs

  datatype InventoryKpis = InventoryKpis(stockValue: real, rows: seq<StockRow>, rupture: seq<StockRow>,
                                         deadStock: seq<DeadRow>, abc: seq<AbcRow>)

  /** `build_inventory_kpis`; `None` is the `{"empty": True}` answer. */
  function BuildInventoryKpis(stock: seq<StockItem>, sales: seq<SaleLine>, now: int): (r: Option<InventoryKpis>)
    ensures r.None? <==> |stock| == 0
    ensures r.Some? ==> r.value.rows == Merge(stock, sales, now)
    ensures r.Some? ==> forall x :: x in r.value.rupture <==> x in r.value.rows && x.coverageDays < RuptureDays
    ensures r.Some? ==> |r.value.rupture| == Count(r.value.rows, Rupture)
    ensures r.Some? ==> r.value.deadStock == DeadStock(r.value.rows)
    ensures r.Some? ==> r.value.stockValue == SumOf(r.value.rows, (x: StockRow) => x.valorEstoque)
    ensures r.Some? ==> r.value.abc == AbcCurve(sales)
  {
    if |stock| == 0 then None
    else
      var rows := Merge(stock, sales, now);
      Some(InventoryKpis(SumOf(rows, (x: StockRow) => x.valorEstoque), rows, Filter(rows, Rupture),
                         DeadStock(rows), AbcCurve(sales)))
  }

  /** The rupture list follows the stock table: splitting the stock splits
      the list, so rows come in stock order. */
  lemma RuptureFollowsStock(a: seq<StockItem>, b: seq<StockItem>, sales: seq<SaleLine>, now: int)
    requires |a| > 0 && |b| > 0
    ensures BuildInventoryKpis(a + b, sales, now).value.rupture
      == BuildInventoryKpis(a, sales, now).value.rupture + BuildInventoryKpis(b, sales, now).value.rupture
  {
    RuptureList(a + b, sales, now);
    RuptureList(a, sales, now);
    RuptureList(b, sales, now);
    MergeAppend(a, b, sales, now);
    FilterAppend(Merge(a, sales, now), Merge(b, sales, now), Rupture);
  }

  /** The rupture list is the merged rows with under 15 days of cover. */
  lemma RuptureList(stock: seq<StockItem>, sales: seq<SaleLine>, now: int)
    requires |stock| > 0
    ensures BuildInventoryKpis(stock, sales, now).value.rupture == Filter(Merge(stock, sales, now), Rupture)
  {
  }

  /** Merging two stock tables one after the other merges their
      concatenation. */
  lemma MergeAppend(a: seq<StockItem>, b: seq<StockItem>, sales: seq<SaleLine>, now: int)
    ensures Merge(a + b, sales, now) == Merge(a, sales, now) + Merge(b, sales, now)
  {
    assert forall i :: 0 <= i < |a| + |b| ==>
      Merge(a + b, sales, now)[i] == (Merge(a, sales, now) + Merge(b, sales, now))[i];
  }

  /** One stock item is listed in rupture exactly when its coverage is
      under 15 days. */
  lemma RuptureOfOneItem(item: StockItem, sales: seq<SaleLine>, now: int)
    ensures var x := MergeRow(item, sales, now);
      BuildInventoryKpis([item], sales, now).value.rupture == if x.coverageDays < RuptureDays then [x] else []
  {
    RuptureList([item], sales, now);
    assert Merge([item], sales, now) == [MergeRow(item, sales, now)];
    FilterSingle(MergeRow(item, sales, now), Rupture);
  }

  /** A SKU only runs into rupture while it sells: 999 days of coverage is
      never critical, so every rupture row has a positive daily rate and
      its coverage times that rate is its balance. */
  lemma RuptureRowsSell(stock: seq<StockItem>, sales: seq<SaleLine>, now: int, x: StockRow)
    requires x in Filter(Merge(stock, sales, now), Rupture)
    ensures x.dailyQty > 0.0 && Consistent(x)
  {
    var rows := Merge(stock, sales, now);
    assert x in rows;
    var i :| 0 <= i < |rows| && rows[i] == x;
    assert Consistent(x);
  }

  /** With non-negative quantities, a SKU that sold a positive quantity in
      the last 90 days is never dead stock, whatever its balance. */
  lemma SellingSkuIsNotDead(item: StockItem, sales: seq<SaleLine>, now: int, k: nat)
    requires k < |sales| && sales[k].sku == item.sku && InLast90(sales[k], now) && Quantity(sales[k]) > 0.0
    requires forall i :: 0 <= i < |sales| ==> Quantity(sales[i]) >= 0.0
    ensures !Dead(MergeRow(item, sales, now))
  {
    var hits := SkuSales(sales, item.sku, now);
    assert sales[k] in hits;
    var j :| 0 <= j < |hits| && hits[j] == sales[k];
    assert forall i :: 0 <= i < |hits| ==> hits[i] in sales;
    SumOfPositive(hits, Quantity, j);
  }

  /** The two averages differ: nine units sold on a single day in the window
      give 0.1 a day here, but 9 a day over observed selling days as the
      single-tenant processor computes it. */
  lemma CalendarAverageVersusObserved(now: int)
    ensures DailyQty([SaleLine(Some(now), "X", Number(9.0), Null)], "X", now) == 0.1
    ensures Processor.ObservedMean([Processor.DayQty(DayOf(now), 9.0)]) == 9.0
  {
    CalendarAverageOfOneSale(now);
    ObservedAverageOfOneDay(DayOf(now));
  }

  lemma CalendarAverageOfOneSale(now: int)
    ensures DailyQty([SaleLine(Some(now), "X", Number(9.0), Null)], "X", now) == 0.1
  {
    var sales := [SaleLine(Some(now), "X", Number(9.0), Null)];
    assert sales[..0] == [];
    assert SkuSales(sales, "X", now) == sales;
    assert SumOf(sales, Quantity) == 9.0;
  }

  lemma ObservedAverageOfOneDay(day: int)
    ensures Processor.ObservedMean([Processor.DayQty(day, 9.0)]) == 9.0
  {
    var ps := [Processor.DayQty(day, 9.0)];
    assert ps[..0] == [];
    assert Processor.SellingDays(ps) == [day];
    assert Processor.TotalQty(ps) == 9.0;
  }

  /** With non-negative line totals the classes come in the order A..., B...,
      C...: cumulative shares never decrease down the curve. */
  lemma AbcClassesOrdered(sales: seq<SaleLine>)
    requires forall i :: 0 <= i < |sales| ==> LineTotal(sales[i]) >= 0.0
    ensures forall i, j :: 0 <= i < j < |AbcCurve(sales)| ==>
      Rank(AbcCurve(sales)[i].abcClass) <= Rank(AbcCurve(sales)[j].abcClass)
  {
    var g := SortDesc(GroupRevenue(sales));
    SortedRevenueNonNegative(sales);
    forall i, j | 0 <= i < j < |g|
      ensures Rank(Shares(g)[i].abcClass) <= Rank(Shares(g)[j].abcClass)
    {
      ShareStep(g, i, j);
    }
  }

  /** Down a ranking with non-negative revenues, a later row's class is never
      better than an earlier one's. */
  lemma ShareStep(g: seq<SkuRevenue>, i: nat, j: nat)
    requires i < j < |g|
    requires forall k :: 0 <= k < |g| ==> g[k].total >= 0.0
    ensures Rank(Shares(g)[i].abcClass) <= Rank(Shares(g)[j].abcClass)
  {
    var rows := Shares(g);
    var denominator := Max(SumOf(g, Total), 1.0);
    PrefixSumGrows(g, i, j);
    DivideKeepsOrder(SumOf(g[..i + 1], Total), SumOf(g[..j + 1], Total), denominator);
    ClassOfMonotone(rows[i].cumShare, rows[j].cumShare);
  }

  lemma ClassOfMonotone(a: real, b: real)
    requires a <= b
    ensures Rank(ClassOf(a)) <= Rank(ClassOf(b))
  {
  }

  /** With non-negative terms, a longer prefix never sums to less. */
  lemma PrefixSumGrows(g: seq<SkuRevenue>, i: nat, j: nat)
    requires i < j < |g|
    requires forall k :: 0 <= k < |g| ==> g[k].total >= 0.0
    ensures SumOf(g[..i + 1], Total) <= SumOf(g[..j + 1], Total)
  {
    assert g[..j + 1] == g[..i + 1] + g[i + 1..j + 1];
    SumOfAppend(g[..i + 1], g[i + 1..j + 1], Total);
    SumOfNonNegative(g[i + 1..j + 1], Total);
  }

  /** Non-negative line totals give non-negative per-SKU revenues, before
      and after sorting. */
  lemma SortedRevenueNonNegative(sales: seq<SaleLine>)
    requires forall i :: 0 <= i < |sales| ==> LineTotal(sales[i]) >= 0.0
    ensures forall k :: 0 <= k < |SortDesc(GroupRevenue(sales))| ==> SortDesc(GroupRevenue(sales))[k].total >= 0.0
  {
    var grouped := GroupRevenue(sales);
    forall k | 0 <= k < |grouped|
      ensures grouped[k].total >= 0.0
    {
      GroupNonNegative(sales, k);
    }
    SortKeepsNonNegative(grouped);
  }

  /** One SKU's revenue is a sum of non-negative line totals. */
  lemma GroupNonNegative(sales: seq<SaleLine>, k: nat)
    requires forall i :: 0 <= i < |sales| ==> LineTotal(sales[i]) >= 0.0
    requires k < |GroupRevenue(sales)|
    ensures GroupRevenue(sales)[k].total >= 0.0
  {
    var part := Filter(sales, OfSku(Skus(sales)[k]));
    assert forall i :: 0 <= i < |part| ==> part[i] in sales;
    SumOfNonNegative(part, LineTotal);
  }

  /** Sorting only rearranges, so non-negative revenues stay non-negative. */
  lemma SortKeepsNonNegative(grouped: seq<SkuRevenue>)
    requires forall k :: 0 <= k < |grouped| ==> grouped[k].total >= 0.0
    ensures forall k :: 0 <= k < |SortDesc(grouped)| ==> SortDesc(grouped)[k].total >= 0.0
  {
    var g := SortDesc(grouped);
    forall k | 0 <= k < |g|
      ensures g[k].total >= 0.0
    {
      assert g[k] in multiset(grouped);
      var m :| 0 <= m < |grouped| && grouped[m] == g[k];
    }
  }

  /** A catalogue with a single SKU puts it in class C: its cumulative share
      is 100%, above the 95% mark, so the best seller is not class A. */
  lemma SingleSkuIsClassC(x: SaleLine)
    requires LineTotal(x) >= 1.0
    ensures AbcCurve([x]) == [AbcRow(x.sku, LineTotal(x), 1.0, C)]
  {
    var rows := AbcCurve([x]);
    SingleGroup(x);
    assert |rows| == 1 by {
      assert [x][..0] == [];
    }
    assert Ranking(rows)[0] == SkuRevenue(x.sku, LineTotal(x)) by {
      assert Ranking(rows) == [Ranking(rows)[0]];
      assert Ranking(rows)[0] in multiset(GroupRevenue([x]));
    }
    assert SumOf(rows, RowTotal) == LineTotal(x) by {
      assert [x][..0] == [];
    }
    assert rows[..1] == rows;
    WholeIsOne(LineTotal(x));
  }

  /** One sale line makes one SKU group holding its total. */
  lemma SingleGroup(x: SaleLine)
    ensures GroupRevenue([x]) == [SkuRevenue(x.sku, LineTotal(x))]
  {
    var sales := [x];
    assert sales[..0] == [];
    assert Skus(sales) == [x.sku];
    var part := Filter(sales, OfSku(x.sku));
    FilterAll(sales, OfSku(x.sku));
    assert SumOf(sales, LineTotal) == LineTotal(x);
  }

  // ---------------------------------------------------------------- finance

  datatype Receivable = Receivable(dueDate: Option<int>, amount: Value, status: string)
  datatype Payable = Payable(dueDate: Option<int>, amount: Value)

  const HorizonDays: int := 30

  /** Past due (strictly before `today`) and not marked paid; an undated
      entry is never overdue. */
  predicate Overdue(e: Receivable, today: int)
  {
    e.dueDate.Some? && e.dueDate.value < today && Lower(e.status) != "pago"
  }

  /** The overdue test for one `today`, as a row filter. */
  function OverdueAt(today: int): Receivable -> bool
  {
    (e: Receivable) => Overdue(e, today)
  }

  function Amount(e: Receivable): real
  {
    ToNumber(e.amount)
  }

  /** The amounts of the overdue receivables, added up entry by entry. */
  function OverdueTotal(ar: seq<Receivable>, today: int): real
  {
    if |ar| == 0 then 0.0
    else
      var e := ar[|ar| - 1];
      OverdueTotal(ar[..|ar| - 1], today) + (if Overdue(e, today) then Amount(e) else 0.0)
  }

  /** Summing the overdue rows after filtering them out of the table gives
      the entry-by-entry total. */
  lemma {:induction false} OverdueTotalIsFilteredSum(ar: seq<Receivable>, today: int)
    ensures SumOf(Filter(ar, OverdueAt(today)), Amount) == OverdueTotal(ar, today)
  {
    if |ar| > 0 {
      var init := ar[..|ar| - 1];
      var e := ar[|ar| - 1];
      OverdueTotalIsFilteredSum(init, today);
      var kept := Filter(init, OverdueAt(today));
      if Overdue(e, today) {
        assert (kept + [e])[..|kept|] == kept;
      }
    }
  }

  /** With non-negative amounts the overdue part lies between 0 and the
      floored total. */
  lemma OverdueWithinTotal(ar: seq<Receivable>, today: int)
    requires forall i :: 0 <= i < |ar| ==> Amount(ar[i]) >= 0.0
    ensures 0.0 <= SumOf(Filter(ar, OverdueAt(today)), Amount) <= Max(SumOf(ar, Amount), 1.0)
  {
    SumOfFilterAtMost(ar, OverdueAt(today), Amount);
  }

  /** `inadimplencia`: overdue receivables as a percentage of all
      receivables, with the total floored at 1. */
  function Inadimplencia(ar: seq<Receivable>, today: int): (r: real)
    ensures r == Percent(OverdueTotal(ar, today), Max(SumOf(ar, Amount), 1.0))
  {
    OverdueTotalIsFilteredSum(ar, today);
    Percent(SumOf(Filter(ar, OverdueAt(today)), Amount), Max(SumOf(ar, Amount), 1.0))
  }

  /** With non-negative amounts the default rate is a percentage: it lies in
      [0, 100]. */
  lemma InadimplenciaBounded(ar: seq<Receivable>, today: int)
    requires forall i :: 0 <= i < |ar| ==> Amount(ar[i]) >= 0.0
    ensures 0.0 <= Inadimplencia(ar, today) <= 100.0
  {
    OverdueWithinTotal(ar, today);
  }

  datatype Flow = Receber | Pagar

  /** A projected cash movement. */
  datatype Projected = Projected(dueDate: int, amount: real, kind: Flow)

  /** Dated and due within the next 30 days (or already past). */
  predicate DueBy(d: Option<int>, today: int)
  {
    d.Some? && d.value <= today + HorizonDays * SecondsPerDay
  }

  /** The due-by test on the date `due` reads from an entry, as a row filter. */
  function DueAt<T>(due: T -> Option<int>, today: int): T -> bool
  {
    (x: T) => DueBy(due(x), today)
  }

  /** The entries of one table that are dated and due by the horizon, as
      projected movements of the given kind, in table order. */
  function ProjectFlows<T(!new)>(xs: seq<T>, due: T -> Option<int>, amount: T -> real, kind: Flow, today: int)
    : (ps: seq<Projected>)
    ensures |ps| <= |xs|
    ensures forall i :: 0 <= i < |ps| ==> ps[i].kind == kind && ps[i].dueDate <= today + HorizonDays * SecondsPerDay
    ensures forall x :: x in xs && DueBy(due(x), today) ==> Projected(due(x).value, amount(x), kind) in ps
    ensures forall i :: 0 <= i < |ps| ==>
      exists x :: x in xs && DueBy(due(x), today) && ps[i] == Projected(due(x).value, amount(x), kind)
  {
    if |xs| == 0 then []
    else
      var init := ProjectFlows(xs[..|xs| - 1], due, amount, kind, today);
      var x := xs[|xs| - 1];
      assert forall y :: y in xs <==> y in xs[..|xs| - 1] || y == x;
      if DueBy(due(x), today) then init + [Projected(due(x).value, amount(x), kind)] else init
  }

  /** The movements follow the entries the due-by filter keeps: one per
      kept entry, the `i`-th dated and valued from the `i`-th kept entry. */
  lemma {:induction false} ProjectFlowsFollowFilter<T(!new)>(xs: seq<T>, due: T -> Option<int>, amount: T -> real,
                                                             kind: Flow, today: int)
    ensures |ProjectFlows(xs, due, amount, kind, today)| == Count(xs, DueAt(due, today))
    ensures forall i :: 0 <= i < |ProjectFlows(xs, due, amount, kind, today)| ==>
      && due(Filter(xs, DueAt(due, today))[i]).Some?
      && ProjectFlows(xs, due, amount, kind, today)[i]
         == Projected(due(Filter(xs, DueAt(due, today))[i]).value, amount(Filter(xs, DueAt(due, today))[i]), kind)
    decreases |xs|
  {
    if |xs| > 0 {
      ProjectFlowsFollowFilter(xs[..|xs| - 1], due, amount, kind, today);
    }
  }

  /** Projecting two tables one after the other projects their
      concatenation: the movements keep the order of the entries. */
  lemma {:induction false} ProjectFlowsAppend<T(!new)>(a: seq<T>, b: seq<T>, due: T -> Option<int>, amount: T -> real,
                                                       kind: Flow, today: int)
    ensures ProjectFlows(a + b, due, amount, kind, today)
      == ProjectFlows(a, due, amount, kind, today) + ProjectFlows(b, due, amount, kind, today)
    decreases |b|
  {
    if |b| == 0 {
      assert a + b == a;
    } else {
      var init := b[..|b| - 1];
      var last := b[|b| - 1];
      SplitLast(a, b);
      ProjectFlowsSnoc(a + init, last, due, amount, kind, today);
      ProjectFlowsSnoc(init, last, due, amount, kind, today);
      ProjectFlowsAppend(a, init, due, amount, kind, today);
      AppendAssoc(ProjectFlows(a, due, amount, kind, today), ProjectFlows(init, due, amount, kind, today),
                  if DueBy(due(last), today) then [Projected(due(last).value, amount(last), kind)] else []);
    }
  }

  /** One more entry adds its movement, if it is due, at the end. */
  lemma ProjectFlowsSnoc<T(!new)>(xs: seq<T>, x: T, due: T -> Option<int>, amount: T -> real, kind: Flow, today: int)
    ensures ProjectFlows(xs + [x], due, amount, kind, today)
      == ProjectFlows(xs, due, amount, kind, today)
         + if DueBy(due(x), today) then [Projected(due(x).value, amount(x), kind)] else []
  {
    assert (xs + [x])[..|xs|] == xs;
  }

  /** One entry gives one movement, dated and valued from it, exactly when
      it is dated and due by the horizon. */
  lemma ProjectFlowsSingle<T(!new)>(x: T, due: T -> Option<int>, amount: T -> real, kind: Flow, today: int)
    ensures ProjectFlows([x], due, amount, kind, today)
      == if DueBy(due(x), today) then [Projected(due(x).value, amount(x), kind)] else []
  {
    assert [x][..0] == [];
  }

  function PayableAmount(e: Payable): real
  {
    ToNumber(e.amount)
  }

  function ReceivableDue(e: Receivable): Option<int>
  {
    e.dueDate
  }

  function PayableDue(e: Payable): Option<int>
  {
    e.dueDate
  }

  /** `projected`: receivables then payables, each kept when dated and due
      within the horizon. */
  function Projection(ar: seq<Receivable>, ap: seq<Payable>, today: int): (ps: seq<Projected>)
    ensures forall i :: 0 <= i < |ps| ==> ps[i].dueDate <= today + HorizonDays * SecondsPerDay
    // every receivable comes before every payable
    ensures forall i, j :: 0 <= i < j < |ps| && ps[j].kind == Receber ==> ps[i].kind == Receber
    // exactly the dated entries due by the horizon, from both tables
    ensures forall e :: e in ar && DueBy(e.dueDate, today) ==> Projected(e.dueDate.value, Amount(e), Receber) in ps
    ensures forall e :: e in ap && DueBy(e.dueDate, today) ==> Projected(e.dueDate.value, PayableAmount(e), Pagar) in ps
    ensures forall i :: 0 <= i < |ps| && ps[i].kind == Receber ==>
      exists e :: e in ar && DueBy(e.dueDate, today) && ps[i] == Projected(e.dueDate.value, Amount(e), Receber)
    ensures forall i :: 0 <= i < |ps| && ps[i].kind == Pagar ==>
      exists e :: e in ap && DueBy(e.dueDate, today) && ps[i] == Projected(e.dueDate.value, PayableAmount(e), Pagar)
  {
    var rs := ProjectFlows(ar, ReceivableDue, Amount, Receber, today);
    var qs := ProjectFlows(ap, PayableDue, PayableAmount, Pagar, today);
    var ps := rs + qs;
    assert forall i :: 0 <= i < |ps| ==> (ps[i].kind == Receber <==> i < |rs|);
    ps
  }

  /** `projected` starts with the receivables: one movement per receivable
      due, in table order, followed by the payables due. */
  lemma ProjectionReceivablesFirst(ar: seq<Receivable>, ap: seq<Payable>, today: int)
    ensures var ps := Projection(ar, ap, today);
      var dr := Filter(ar, DueAt(ReceivableDue, today));
      && |ps| == |dr| + Count(ap, DueAt(PayableDue, today))
      && (forall i :: 0 <= i < |ps| ==> (ps[i].kind == Receber <==> i < |dr|))
      && (forall i :: 0 <= i < |dr| ==>
            dr[i].dueDate.Some? && ps[i] == Projected(dr[i].dueDate.value, Amount(dr[i]), Receber))
  {
    var ps := Projection(ar, ap, today);
    var dr := Filter(ar, DueAt(ReceivableDue, today));
    var rs := ProjectFlows(ar, ReceivableDue, Amount, Receber, today);
    var qs := ProjectFlows(ap, PayableDue, PayableAmount, Pagar, today);
    assert ps == rs + qs;
    ProjectFlowsFollowFilter(ar, ReceivableDue, Amount, Receber, today);
    ProjectFlowsFollowFilter(ap, PayableDue, PayableAmount, Pagar, today);
    forall i | 0 <= i < |dr|
      ensures dr[i].dueDate.Some? && ps[i] == Projected(dr[i].dueDate.value, Amount(dr[i]), Receber)
    {
      assert ps[i] == rs[i];
    }
  }

  /** After the receivables, `projected` holds one movement per payable
      due, in table order. */
  lemma ProjectionPayablesAfter(ar: seq<Receivable>, ap: seq<Payable>, today: int)
    ensures var ps := Projection(ar, ap, today);
      var n := Count(ar, DueAt(ReceivableDue, today));
      var dp := Filter(ap, DueAt(PayableDue, today));
      forall i :: 0 <= i < |dp| ==>
        && n + i < |ps|
        && dp[i].dueDate.Some? && ps[n + i] == Projected(dp[i].dueDate.value, PayableAmount(dp[i]), Pagar)
  {
    var ps := Projection(ar, ap, today);
    var rs := ProjectFlows(ar, ReceivableDue, Amount, Receber, today);
    var qs := ProjectFlows(ap, PayableDue, PayableAmount, Pagar, today);
    ProjectionIsFlows(ar, ap, today);
    ReceivableFlowsCount(ar, today);
    PayableFlowsFollowFilter(ap, today);
    PayablesAfterReceivables(ps, rs, qs, Filter(ap, DueAt(PayableDue, today)), Count(ar, DueAt(ReceivableDue, today)));
  }

  /** `projected` is the receivables' movements followed by the payables'. */
  lemma ProjectionIsFlows(ar: seq<Receivable>, ap: seq<Payable>, today: int)
    ensures Projection(ar, ap, today)
      == ProjectFlows(ar, ReceivableDue, Amount, Receber, today) + ProjectFlows(ap, PayableDue, PayableAmount, Pagar, today)
  {
  }

  /** One receivable movement per receivable due. */
  lemma ReceivableFlowsCount(ar: seq<Receivable>, today: int)
    ensures |ProjectFlows(ar, ReceivableDue, Amount, Receber, today)| == Count(ar, DueAt(ReceivableDue, today))
  {
    ProjectFlowsFollowFilter(ar, ReceivableDue, Amount, Receber, today);
  }

  /** The payable movements follow the payables due, one each, in order. */
  lemma PayableFlowsFollowFilter(ap: seq<Payable>, today: int)
    ensures var qs := ProjectFlows(ap, PayableDue, PayableAmount, Pagar, today);
      var dp := Filter(ap, DueAt(PayableDue, today));
      && |qs| == |dp|
      && forall i :: 0 <= i < |qs| ==>
           dp[i].dueDate.Some? && qs[i] == Projected(dp[i].dueDate.value, PayableAmount(dp[i]), Pagar)
  {
    ProjectFlowsFollowFilter(ap, PayableDue, PayableAmount, Pagar, today);
  }

  /** Movements `qs` made from the payables `dp`, one per entry, keep that
      correspondence behind any `rs` of length `n`. */
  lemma PayablesAfterReceivables(ps: seq<Projected>, rs: seq<Projected>, qs: seq<Projected>, dp: seq<Payable>, n: nat)
    requires ps == rs + qs && n == |rs| && |qs| == |dp|
    requires forall i :: 0 <= i < |qs| ==>
      dp[i].dueDate.Some? && qs[i] == Projected(dp[i].dueDate.value, PayableAmount(dp[i]), Pagar)
    ensures forall i :: 0 <= i < |dp| ==>
      && n + i < |ps|
      && dp[i].dueDate.Some? && ps[n + i] == Projected(dp[i].dueDate.value, PayableAmount(dp[i]), Pagar)
  {
  }

  datatype FinanceKpis = FinanceKpis(inadimplencia: real, projected: seq<Projected>)

  /** `build_finance_kpis`; `None` is the `{"empty": True}` answer. */
  function BuildFinanceKpis(ar: seq<Receivable>, ap: seq<Payable>, today: int): (r: Option<FinanceKpis>)
    ensures r.None? <==> |ar| == 0 && |ap| == 0
    ensures r.Some? ==> r.value.inadimplencia == Inadimplencia(ar, today) && r.value.projected == Projection(ar, ap, today)
  {
    if |ar| == 0 && |ap| == 0 then None
    else Some(FinanceKpis(Inadimplencia(ar, today), Projection(ar, ap, today)))
  }

  /** An overdue receivable is still projected: the horizon has no lower end. */
  lemma OverdueIsProjected(ar: seq<Receivable>, ap: seq<Payable>, today: int, e: Receivable)
    requires e in ar && Overdue(e, today)
    ensures Projected(e.dueDate.value, Amount(e), Receber) in Projection(ar, ap, today)
  {
  }

  /** With nothing overdue the default rate is 0. */
  lemma NothingOverdueIsZero(ar: seq<Receivable>, today: int)
    requires forall i :: 0 <= i < |ar| ==> !Overdue(ar[i], today)
    ensures Inadimplencia(ar, today) == 0.0
  {
    CountNone(ar, OverdueAt(today));
  }

  /** With every receivable overdue and a total of at least 1 the default
      rate is 100. */
  lemma AllOverdueIsHundred(ar: seq<Receivable>, today: int)
    requires forall i :: 0 <= i < |ar| ==> Overdue(ar[i], today)
    requires SumOf(ar, Amount) >= 1.0
    ensures Inadimplencia(ar, today) == 100.0
  {
    FilterAll(ar, OverdueAt(today));
    WholeIsOne(SumOf(ar, Amount));
  }

  lemma WholeIsOne(t: real)
    requires t >= 1.0
    ensures SafeDiv(t, Max(t, 1.0)) == 1.0
  {
  }
}

=== FILE: auth_service.dfy ===
/** `services/auth_service.py`: the administrator bootstrap in the `.env`
    file, the login decision over the client table and the session keys it
    sets. Password hashing is an oracle; the clock, the time-zone lookup and
    the vendor's token endpoint are parameters passed on to the token
    maintenance of `BlingService`. */
module AuthService {
  import opened Wrappers
  import opened Strings
  import opened Models
  import opened OAuth
  import BlingService

  // ---------------------------------------------------------------- passwords

  /** What `bcrypt.checkpw` does with a password and a stored hash. */
  datatype CheckOutcome = Match | Mismatch | Malformed   // Malformed: it raises ValueError

  type Checker = (string, string) -> CheckOutcome

  /** `verify_password`: a malformed hash is a failed check, not an error. */
  function VerifyPassword(checkpw: Checker, password: string, hash: string): (ok: bool)
    ensures ok <==> checkpw(password, hash) == Match
    ensures checkpw(password, hash) == Malformed ==> !ok
  {
    match checkpw(password, hash)
    case Match => true
    case Mismatch => false
    case Malformed => false
  }

  // ---------------------------------------------------------------- administrator bootstrap

  const DefaultAdminUser: string := "admin"
  const DefaultAdminPass: string := "admin"
  const UserKey: string := "ADMIN_USER="
  const HashKey: string := "ADMIN_PASS_HASH="

  /** `ADMIN_USER`, `ADMIN_PASS_HASH` and `ADMIN_PASS` in the process
      environment; `None` when unset. */
  datatype AdminEnv = AdminEnv(user: Option<string>, passHash: Option<string>, pass: Option<string>)

  /** `get_admin_credentials`: the configured user (default "admin") and
      hash (default empty, which disables the administrator login). */
  function GetAdminCredentials(env: AdminEnv): (c: (string, string))
    ensures env.user.None? ==> c.0 == DefaultAdminUser
    ensures env.passHash.None? ==> c.1 == ""
    ensures env.user.Some? ==> c.0 == env.user.value
    ensures env.passHash.Some? ==> c.1 == env.passHash.value
  {
    (env.user.GetOr(DefaultAdminUser), env.passHash.GetOr(""))
  }

  function UserLine(user: string): string
  {
    UserKey + user + "\n"
  }

  function HashLine(hash: string): string
  {
    HashKey + hash + "\n"
  }

  predicate IsUserLine(l: string)
  {
    StartsWith(l, UserKey)
  }

  predicate IsHashLine(l: string)
  {
    StartsWith(l, HashKey)
  }

  /** One line of the loop: an `ADMIN_USER=` line gets the new user, an
      `ADMIN_PASS_HASH=` line the new hash, any other line is kept. */
  function RewriteLine(l: string, user: string, hash: string): string
  {
    if IsUserLine(l) then UserLine(user) else if IsHashLine(l) then HashLine(hash) else l
  }

  /** The loop over the file's lines. */
  function RewriteEach(lines: seq<string>, user: string, hash: string): (out: seq<string>)
    ensures |out| == |lines|
    ensures forall i :: 0 <= i < |lines| ==> out[i] == RewriteLine(lines[i], user, hash)
  {
    if |lines| == 0 then []
    else RewriteEach(lines[..|lines| - 1], user, hash) + [RewriteLine(lines[|lines| - 1], user, hash)]
  }

  predicate HasUserLine(lines: seq<string>)
  {
    exists i :: 0 <= i < |lines| && IsUserLine(lines[i])
  }

  predicate HasHashLine(lines: seq<string>)
  {
    exists i :: 0 <= i < |lines| && IsHashLine(lines[i])
  }

  /** The rewrite of `ensure_admin_env`: replace the administrator lines,
      then append a line for each key that had none. */
  function RewriteEnvLines(lines: seq<string>, user: string, hash: string): (out: seq<string>)
    ensures |lines| <= |out| <= |lines| + 2
    // every administrator line now carries the new values; other lines keep their place and text
    ensures forall i :: 0 <= i < |lines| ==>
      (IsUserLine(lines[i]) ==> out[i] == UserLine(user)) &&
      (IsHashLine(lines[i]) ==> out[i] == HashLine(hash)) &&
      (!IsUserLine(lines[i]) && !IsHashLine(lines[i]) ==> out[i] == lines[i])
    // the appended lines are exactly the missing keys, user before hash
    ensures out[|lines|..] ==
      (if HasUserLine(lines) then [] else [UserLine(user)]) + (if HasHashLine(lines) then [] else [HashLine(hash)])
  {
    NoLineHasBothKeys(lines);
    var updated := RewriteEach(lines, user, hash);
    var out := updated + (if HasUserLine(lines) then [] else [UserLine(user)])
                       + (if HasHashLine(lines) then [] else [HashLine(hash)]);
    out
  }

  /** After the rewrite there is a line for each key carrying the new value. */
  lemma RewriteHasBothKeys(lines: seq<string>, user: string, hash: string)
    ensures UserLine(user) in RewriteEnvLines(lines, user, hash)
    ensures HashLine(hash) in RewriteEnvLines(lines, user, hash)
  {
    var out := RewriteEnvLines(lines, user, hash);
    if HasUserLine(lines) {
      var i :| 0 <= i < |lines| && IsUserLine(lines[i]);
      assert out[i] == UserLine(user);
    } else {
      assert out[|lines|] == UserLine(user);
    }
    if HasHashLine(lines) {
      var i :| 0 <= i < |lines| && IsHashLine(lines[i]);
      UserKeyIsNotHashKey(lines[i]);
      assert out[i] == HashLine(hash);
    } else {
      assert out[|out| - 1] == HashLine(hash);
    }
  }

  /** No line starts with both keys. */
  lemma UserKeyIsNotHashKey(l: string)
    ensures !(IsUserLine(l) && IsHashLine(l))
  {
    if IsUserLine(l) {
      assert l[6] == UserKey[6];
    }
  }

  lemma NoLineHasBothKeys(lines: seq<string>)
    ensures forall i :: 0 <= i < |lines| ==> !(IsUserLine(lines[i]) && IsHashLine(lines[i]))
  {
    forall i | 0 <= i < |lines|
      ensures !(IsUserLine(lines[i]) && IsHashLine(lines[i]))
    {
      UserKeyIsNotHashKey(lines[i]);
    }
  }

  lemma NewLinesAreAdminLines(user: string, hash: string)
    ensures IsUserLine(UserLine(user)) && !IsHashLine(UserLine(user))
    ensures IsHashLine(HashLine(hash)) && !IsUserLine(HashLine(hash))
  {
    assert UserLine(user)[..|UserKey|] == UserKey;
    assert HashLine(hash)[..|HashKey|] == HashKey;
    UserKeyIsNotHashKey(UserLine(user));
    UserKeyIsNotHashKey(HashLine(hash));
  }

  /** Rewriting twice with the same values changes nothing the second time. */
  lemma RewriteIsIdempotent(lines: seq<string>, user: string, hash: string)
    ensures RewriteEnvLines(RewriteEnvLines(lines, user, hash), user, hash) == RewriteEnvLines(lines, user, hash)
  {
    var once := RewriteEnvLines(lines, user, hash);
    forall i | 0 <= i < |once|
      ensures RewriteLine(once[i], user, hash) == once[i]
    {
      RewrittenLineIsFixed(lines, user, hash, i);
    }
    RewriteHasBothKeys(lines, user, hash);
    NewLinesAreAdminLines(user, hash);
    var u :| 0 <= u < |once| && once[u] == UserLine(user);
    var h :| 0 <= h < |once| && once[h] == HashLine(hash);
    assert IsUserLine(once[u]) && IsHashLine(once[h]);
    assert HasUserLine(once) && HasHashLine(once);
    var twice := RewriteEnvLines(once, user, hash);
    assert twice[|once|..] == [];
  }

  /** A rewritten line is left alone by a second rewrite. */
  lemma RewrittenLineIsFixed(lines: seq<string>, user: string, hash: string, i: nat)
    requires i < |RewriteEnvLines(lines, user, hash)|
    ensures RewriteLine(RewriteEnvLines(lines, user, hash)[i], user, hash) == RewriteEnvLines(lines, user, hash)[i]
  {
    var once := RewriteEnvLines(lines, user, hash);
    NewLinesAreAdminLines(user, hash);
    if i < |lines| {
      UserKeyIsNotHashKey(lines[i]);
    } else {
      assert once[i] in once[|lines|..];
    }
  }

  /** `readlines` never returns an empty line, and every line but the last
      ends with a newline. */
  lemma {:induction false} ReadLinesShape(text: string)
    ensures forall i :: 0 <= i < |ReadLines(text)| ==> IsLine(ReadLines(text)[i])
    ensures forall i :: 0 <= i < |ReadLines(text)| - 1 ==> EndsLine(ReadLines(text)[i])
    decreases |text|
  {
    if |text| > 0 && '\n' in text {
      var i := IndexOf(text, '\n');
      var first := text[..i + 1];
      assert first[..|first| - 1] == text[..i];
      ReadLinesShape(text[i + 1..]);
    }
  }

  predicate EndsLine(l: string)
  {
    |l| > 0 && l[|l| - 1] == '\n'
  }

  /** The `.env` text written back as the source writes it: the file is read
      in text mode, so its line ends read as "\n", and the rewritten lines
      are concatenated, even when the old last line had no newline. */
  function EnvTextAsWritten(text: string, user: string, hash: string): string
  {
    Concat(RewriteEnvLines(ReadLines(UniversalNewlines(text)), user, hash))
  }

  /** A single line without either key gets both keys appended after it. */
  lemma RewriteOfPlainLine(l: string, user: string, hash: string)
    requires !IsUserLine(l) && !IsHashLine(l)
    ensures RewriteEnvLines([l], user, hash) == [l, UserLine(user), HashLine(hash)]
  {
    var lines := [l];
    assert lines[..0] == [];
    assert !HasUserLine(lines) && !HasHashLine(lines);
    var out := RewriteEnvLines(lines, user, hash);
    assert out[1..] == [UserLine(user), HashLine(hash)];
  }

  /** A file whose only line is unterminated loses the user line: the source
      glues it onto that line, so the file read back has no `ADMIN_USER=`
      line, and the old line's value now ends in the user entry. */
  lemma UnterminatedLastLineSwallowsUser(l: string, user: string, hash: string)
    requires |l| > 0 && '\n' !in l && '\r' !in l && l[0] != 'A'
    requires '\n' !in user && '\n' !in hash
    ensures ReadLines(EnvTextAsWritten(l, user, hash)) == [l + UserLine(user), HashLine(hash)]
    ensures !HasUserLine(ReadLines(EnvTextAsWritten(l, user, hash)))
  {
    var glued := l + UserLine(user);
    var h := HashLine(hash);
    WrittenAsOneLine(l, user, hash);
    NewLineShape(user, hash);
    assert glued[..|glued| - 1] == l + UserKey + user;
    ReadLinesConcat([glued, h]);
    assert !IsUserLine(glued) by {
      assert UserKey[0] == 'A';
    }
    assert !IsUserLine(h) by {
      NewLinesAreAdminLines(user, hash);
    }
  }

  /** The written text of a one-line file: the user line glued onto the old
      line, then the hash line. */
  lemma WrittenAsOneLine(l: string, user: string, hash: string)
    requires |l| > 0 && '\n' !in l && '\r' !in l && l[0] != 'A'
    ensures EnvTextAsWritten(l, user, hash) == Concat([l + UserLine(user), HashLine(hash)])
  {
    assert UniversalNewlines(l) == l;
    assert ReadLines(l) == [l];
    assert !IsUserLine(l) && !IsHashLine(l) by {
      assert UserKey[0] == 'A' && HashKey[0] == 'A';
    }
    RewriteOfPlainLine(l, user, hash);
    ConcatSmall(l, UserLine(user), HashLine(hash));
  }

  lemma ConcatSmall(a: string, b: string, c: string)
    ensures Concat([a, b, c]) == (a + b) + c
    ensures Concat([a + b, c]) == (a + b) + c
  {
    assert [a, b, c][1..] == [b, c];
    assert [b, c][1..] == [c];
    assert [a + b, c][1..] == [c];
    assert Concat([c]) == c by {
      assert [c][1..] == [];
    }
  }

  /** The smallest such file: `FOO=1` without a newline. */
  lemma UnterminatedExample()
    ensures !HasUserLine(ReadLines(EnvTextAsWritten("FOO=1", "admin", "h")))
  {
    UnterminatedLastLineSwallowsUser("FOO=1", "admin", "h");
  }

  /** A line ended by a lone carriage return reads, in text mode, as a
      terminated line: the admin lines are appended after it as lines of
      their own. */
  lemma CarriageReturnEndsLine(l: string, user: string, hash: string)
    requires '\n' !in l && '\r' !in l && (|l| == 0 || l[0] != 'A')
    ensures EnvTextAsWritten(l + "\r", user, hash) == l + "\n" + UserLine(user) + HashLine(hash)
  {
    UniversalNewlinesPlainPrefix(l, "\r");
    assert UniversalNewlines("\r") == "\n";
    var line := l + "\n";
    IndexOfAfterPrefix(l, '\n', "");
    assert line == l + ['\n'] + "";
    assert ReadLines(line) == [line] by {
      assert line[..|l| + 1] == line;
      assert line[|l| + 1..] == "";
    }
    assert !IsUserLine(line) && !IsHashLine(line) by {
      assert UserKey[0] == 'A' && HashKey[0] == 'A';
      if |l| == 0 { assert line[0] == '\n'; }
      else { assert line[0] == l[0]; }
    }
    RewriteOfPlainLine(line, user, hash);
    ConcatSmall(line, UserLine(user), HashLine(hash));
  }

  /** Ends the last line with a newline if it has none. */
  function Terminate(lines: seq<string>): (out: seq<string>)
    ensures |out| == |lines|
    ensures forall i :: 0 <= i < |lines| - 1 ==> out[i] == lines[i]
  {
    if |lines| == 0 || EndsLine(lines[|lines| - 1]) then lines
    else lines[..|lines| - 1] + [lines[|lines| - 1] + "\n"]
  }

  /** The `.env` text as evidently intended: the old last line is terminated
      before anything is appended. */
  function EnvText(text: string, user: string, hash: string): string
  {
    Concat(RewriteEnvLines(Terminate(ReadLines(UniversalNewlines(text))), user, hash))
  }

  /** Read back, the intended text is exactly the rewritten lines, so it
      holds the new user line and the new hash line. */
  lemma EnvTextReadsBack(text: string, user: string, hash: string)
    requires '\n' !in user && '\n' !in hash
    ensures ReadLines(EnvText(text, user, hash)) == RewriteEnvLines(Terminate(ReadLines(UniversalNewlines(text))), user, hash)
    ensures UserLine(user) in ReadLines(EnvText(text, user, hash))
    ensures HashLine(hash) in ReadLines(EnvText(text, user, hash))
  {
    var ended := Terminate(ReadLines(UniversalNewlines(text)));
    TerminatedLines(UniversalNewlines(text));
    var out := RewriteEnvLines(ended, user, hash);
    RewrittenLines(ended, user, hash);
    RewriteHasBothKeys(ended, user, hash);
    ReadLinesConcat(out);
  }

  /** Every line of the file, once the last one is terminated, is a whole
      line ending in a newline. */
  lemma TerminatedLines(text: string)
    ensures forall i :: 0 <= i < |Terminate(ReadLines(text))| ==>
      IsLine(Terminate(ReadLines(text))[i]) && EndsLine(Terminate(ReadLines(text))[i])
  {
    var lines := ReadLines(text);
    ReadLinesShape(text);
    var ended := Terminate(lines);
    forall i | 0 <= i < |ended|
      ensures IsLine(ended[i]) && EndsLine(ended[i])
    {
      if i == |lines| - 1 && !EndsLine(lines[i]) {
        var l := lines[i];
        assert ended[i] == l + "\n";
        assert ended[i][..|ended[i]| - 1] == l;
        assert l[..|l| - 1] + [l[|l| - 1]] == l;
      }
    }
  }

  /** The rewrite keeps every line whole and newline-terminated. */
  lemma RewrittenLines(lines: seq<string>, user: string, hash: string)
    requires '\n' !in user && '\n' !in hash
    requires forall i :: 0 <= i < |lines| ==> IsLine(lines[i]) && EndsLine(lines[i])
    ensures forall i :: 0 <= i < |RewriteEnvLines(lines, user, hash)| ==>
      IsLine(RewriteEnvLines(lines, user, hash)[i]) && RewriteEnvLines(lines, user, hash)[i][|RewriteEnvLines(lines, user, hash)[i]| - 1] == '\n'
  {
    var out := RewriteEnvLines(lines, user, hash);
    NewLineShape(user, hash);
    forall i | 0 <= i < |out|
      ensures IsLine(out[i]) && EndsLine(out[i])
    {
      if i < |lines| {
        UserKeyIsNotHashKey(lines[i]);
      } else {
        assert out[i] in out[|lines|..];
      }
    }
  }

  lemma NewLineShape(user: string, hash: string)
    requires '\n' !in user && '\n' !in hash
    ensures IsLine(UserLine(user)) && EndsLine(UserLine(user))
    ensures IsLine(HashLine(hash)) && EndsLine(HashLine(hash))
  {
    assert UserLine(user)[..|UserLine(user)| - 1] == UserKey + user;
    assert HashLine(hash)[..|HashLine(hash)| - 1] == HashKey + hash;
  }

  /** What `ensure_admin_env` leaves behind: the process environment and the
      `.env` text (`None` when there is no such file). */
  datatype Bootstrap = Bootstrap(env: AdminEnv, file: Option<string>)

  /** `ensure_admin_env(env_path)`. `hashPassword` stands for bcrypt with a
      fresh salt. The file is rewritten as the source writes it
      (`EnvTextAsWritten`); write errors are swallowed by the source and are
      not modelled. */
  function EnsureAdminEnv(env: AdminEnv, file: Option<string>, hashPassword: string -> string): (b: Bootstrap)
    // a non-empty user (the default counts) and a non-empty hash: nothing happens
    ensures GetAdminCredentials(env).0 != "" && GetAdminCredentials(env).1 != "" ==> b == Bootstrap(env, file)
    // otherwise a hash of ADMIN_PASS (default "admin") is installed, with an empty user replaced by the default
    ensures !(GetAdminCredentials(env).0 != "" && GetAdminCredentials(env).1 != "") ==>
      b.env == env.(user := Some(if GetAdminCredentials(env).0 != "" then GetAdminCredentials(env).0 else DefaultAdminUser),
                    passHash := Some(hashPassword(env.pass.GetOr(DefaultAdminPass))))
    ensures !(GetAdminCredentials(env).0 != "" && GetAdminCredentials(env).1 != "") ==>
      b.file.Some? == file.Some? &&
      (file.Some? ==> b.file.value == EnvTextAsWritten(file.value, b.env.user.value, b.env.passHash.value))
    // afterwards the administrator login is enabled, unless the hasher returned nothing
    ensures GetAdminCredentials(b.env).0 != ""
    ensures GetAdminCredentials(b.env).1 != "" || hashPassword(env.pass.GetOr(DefaultAdminPass)) == ""
  {
    var (adminUser, adminHash) := GetAdminCredentials(env);
    if adminUser != "" && adminHash != "" then Bootstrap(env, file)
    else
      var generated := hashPassword(env.pass.GetOr(DefaultAdminPass));
      var user := if adminUser != "" then adminUser else DefaultAdminUser;
      var env' := env.(user := Some(user), passHash := Some(generated));
      match file
      case None => Bootstrap(env', None)
      case Some(text) => Bootstrap(env', Some(EnvTextAsWritten(text, user, generated)))
  }

  /** A second bootstrap with what the first one left behind does nothing. */
  lemma BootstrapIsStable(env: AdminEnv, file: Option<string>, hashPassword: string -> string)
    requires hashPassword(env.pass.GetOr(DefaultAdminPass)) != ""
    ensures var b := EnsureAdminEnv(env, file, hashPassword); EnsureAdminEnv(b.env, b.file, hashPassword) == b
  {
  }

  // ---------------------------------------------------------------- login

  /** The `auth` dict stored in the session. */
  datatype Auth =
    | AdminAuth(username: string)
    | ClientAuth(clientId: int, username: string, companyName: string)

  /** A session value. */
  datatype Entry = AuthEntry(auth: Auth) | Message(text: string) | OtherEntry

  type Session = map<string, Entry>

  const AuthKey: string := "auth"
  const AuthErrorKey: string := "auth_error"
  const TokenErrorKey: string := "token_error"
  const SuspendedMessage: string := "Acesso Suspenso"
  const TokenErrorMessage: string := "Token do Bling invÃ¡lido ou revogado."

  /** `query(Client).filter(username == ...).first()`: the first client with
      that username. */
  function FindClient(clients: seq<Client>, username: string): (r: Option<nat>)
    ensures r.Some? ==> r.value < |clients| && clients[r.value].username == username
    ensures r.Some? ==> forall j :: 0 <= j < r.value ==> clients[j].username != username
    ensures r.None? ==> forall j :: 0 <= j < |clients| ==> clients[j].username != username
  {
    if |clients| == 0 then None
    else if clients[0].username == username then Some(0)
    else
      var r := FindClient(clients[1..], username);
      if r.Some? then Some(r.value + 1) else None
  }

  /** The outcome of a login: the auth returned (if any), the client table
      and the session afterwards, and the token request posted (if any). */
  datatype Login = Login(result: Option<Auth>, clients: seq<Client>, session: Session, request: Option<TokenRequest>)

  /** A client's row after a successful password check: stamped, counted and
      with its token maintained. */
  function Admit(c: Client, now: int, zone: Zone, endpoint: TokenEndpoint): BlingService.Maintained
  {
    var stamped := c.(lastLogin := Some(now), loginCount := Some(c.loginCount.GetOr(0) + 1));
    BlingService.EnsureValidToken(stamped, now, BlingService.DefaultMinutes, zone, endpoint)
  }

  /** The branch taken for the administrator. */
  predicate AdminBranch(username: string, env: AdminEnv)
  {
    username == GetAdminCredentials(env).0 && GetAdminCredentials(env).1 != ""
  }

  /** The client row a non-administrator login attempt is about: the first
      client with that username. */
  predicate Known(clients: seq<Client>, username: string)
  {
    FindClient(clients, username).Some?
  }

  /** The known client is active and the password checks against its hash. */
  predicate Admissible(clients: seq<Client>, username: string, password: string, checkpw: Checker)
  {
    Known(clients, username) &&
    var c := clients[FindClient(clients, username).value];
    c.isActive && checkpw(password, c.passwordHash) == Match
  }

  /** `login_user(username, password, session)`. */
  function LoginUser(username: string, password: string, clients: seq<Client>, session: Session,
                     env: AdminEnv, checkpw: Checker, now: int, zone: Zone, endpoint: TokenEndpoint): (r: Login)
    // a login succeeds iff the administrator's password matches, or (for anyone
    // else) the client exists, is active and its password matches
    ensures r.result.Some? <==>
      if AdminBranch(username, env) then checkpw(password, GetAdminCredentials(env).1) == Match
      else Admissible(clients, username, password, checkpw)
    // a failed login changes no client row and posts no request
    ensures r.result.None? ==> r.clients == clients && r.request.None?
    ensures |r.clients| == |clients|
  {
    var (adminUser, adminHash) := GetAdminCredentials(env);
    if username == adminUser && adminHash != "" then
      if VerifyPassword(checkpw, password, adminHash) then
        Login(Some(AdminAuth(username)), clients, session[AuthKey := AuthEntry(AdminAuth(username))], None)
      else Login(None, clients, session, None)
    else
      match FindClient(clients, username)
      case None => Login(None, clients, session, None)
      case Some(i) =>
        var c := clients[i];
        if !c.isActive then Login(None, clients, session[AuthErrorKey := Message(SuspendedMessage)], None)
        else if !VerifyPassword(checkpw, password, c.passwordHash) then Login(None, clients, session, None)
        else
          var m := Admit(c, now, zone, endpoint);
          var s1 := if m.error.Some? then session[TokenErrorKey := Message(TokenErrorMessage)] else session;
          var auth := ClientAuth(c.id, username, c.companyName);
          Login(Some(auth), clients[i := m.client], s1[AuthKey := AuthEntry(auth)], m.request)
  }

  /** The administrator never falls through to the client table: the outcome
      depends only on the administrator's password. */
  lemma AdminLogin(username: string, password: string, clients: seq<Client>, session: Session,
                   env: AdminEnv, checkpw: Checker, now: int, zone: Zone, endpoint: TokenEndpoint, r: Login)
    requires r == LoginUser(username, password, clients, session, env, checkpw, now, zone, endpoint)
    requires AdminBranch(username, env)
    ensures r.clients == clients && r.request.None?
    ensures r.result.Some? ==>
      r.result.value == AdminAuth(username) && r.session == session[AuthKey := AuthEntry(AdminAuth(username))]
    ensures r.result.None? ==> r.session == session
  {
  }

  /** An unknown user and a wrong password change nothing; a suspended client
      is refused with a message and its login is not counted. */
  lemma RefusedLogin(username: string, password: string, clients: seq<Client>, session: Session,
                     env: AdminEnv, checkpw: Checker, now: int, zone: Zone, endpoint: TokenEndpoint, r: Login)
    requires r == LoginUser(username, password, clients, session, env, checkpw, now, zone, endpoint)
    requires !AdminBranch(username, env) && !Admissible(clients, username, password, checkpw)
    ensures r.result.None? && r.clients == clients && r.request.None?
    ensures Known(clients, username) && !clients[FindClient(clients, username).value].isActive ==>
      r.session == session[AuthErrorKey := Message(SuspendedMessage)]
    ensures !(Known(clients, username) && !clients[FindClient(clients, username).value].isActive) ==>
      r.session == session
  {
  }

  /** A successful client login changes exactly that client's row, stamps and
      counts it, maintains its token, and returns the client auth even when
      the token maintenance fails, recording the failure in the session. */
  lemma ClientLogin(username: string, password: string, clients: seq<Client>, session: Session,
                    env: AdminEnv, checkpw: Checker, now: int, zone: Zone, endpoint: TokenEndpoint, r: Login)
    requires r == LoginUser(username, password, clients, session, env, checkpw, now, zone, endpoint)
    requires !AdminBranch(username, env) && Admissible(clients, username, password, checkpw)
    ensures var i := FindClient(clients, username).value;
      var c := clients[i];
      var m := Admit(c, now, zone, endpoint);
      && r.result == Some(ClientAuth(c.id, username, c.companyName))
      && r.clients == clients[i := m.client]
      && r.request == m.request
      && r.clients[i].loginCount == Some(c.loginCount.GetOr(0) + 1)
      && r.clients[i].lastLogin == Some(now)
      && AuthKey in r.session && r.session[AuthKey] == AuthEntry(ClientAuth(c.id, username, c.companyName))
      && (m.error.Some? ==> TokenErrorKey in r.session && r.session[TokenErrorKey] == Message(TokenErrorMessage))
      && (m.error.None? ==> r.session == session[AuthKey := AuthEntry(ClientAuth(c.id, username, c.companyName))])
  {
    var i := FindClient(clients, username).value;
    var c := clients[i];
    var stamped := c.(lastLogin := Some(now), loginCount := Some(c.loginCount.GetOr(0) + 1));
    assert SameButTokens(Admit(c, now, zone, endpoint).client, stamped);
  }

  /** A successful client login counts exactly one more login, treating a
      missing count as 0, and leaves the credentials and status untouched. */
  lemma LoginCountsOnce(username: string, password: string, clients: seq<Client>, session: Session,
                        env: AdminEnv, checkpw: Checker, now: int, zone: Zone, endpoint: TokenEndpoint, r: Login)
    requires r == LoginUser(username, password, clients, session, env, checkpw, now, zone, endpoint)
    requires r.result.Some? && r.result.value.ClientAuth?
    ensures Known(clients, username)
    ensures var i := FindClient(clients, username).value;
      r.clients[i].loginCount == Some(clients[i].loginCount.GetOr(0) + 1) &&
      r.clients[i].passwordHash == clients[i].passwordHash &&
      r.clients[i].username == clients[i].username &&
      r.clients[i].isActive
  {
    var i := FindClient(clients, username).value;
    var c := clients[i];
    var stamped := c.(lastLogin := Some(now), loginCount := Some(c.loginCount.GetOr(0) + 1));
    assert SameButTokens(Admit(c, now, zone, endpoint).client, stamped);
  }

  /** `logout`: the three login keys go, everything else stays. */
  function Logout(session: Session): (r: Session)
    ensures AuthKey !in r && AuthErrorKey !in r && TokenErrorKey !in r
    ensures forall k :: k in session && k != AuthKey && k != AuthErrorKey && k != TokenErrorKey ==>
      k in r && r[k] == session[k]
    ensures r.Keys <= session.Keys
  {
    session - {AuthKey, AuthErrorKey, TokenErrorKey}
  }

  /** Logging out right after a login leaves the session as it was, apart
      from the three login keys. */
  lemma LogoutUndoesLogin(username: string, password: string, clients: seq<Client>, session: Session,
                          env: AdminEnv, checkpw: Checker, now: int, zone: Zone, endpoint: TokenEndpoint)
    ensures Logout(LoginUser(username, password, clients, session, env, checkpw, now, zone, endpoint).session)
      == Logout(session)
  {
  }
}

=== FILE: bling_service.dfy ===
/** `services/bling_service.py`: the multi-tenant app's OAuth calls against the
    vendor (refresh, code exchange, authorization URL) and the per-client
    token bookkeeping built on them. The token endpoint is an oracle, the
    clock is the parameter `now` (UTC seconds) and the environment is `Env`. */
module BlingService {
  import opened Wrappers
  import opened OAuth
  import opened Strings
  import opened Models
  import Seqs

  const DefaultApiBase: string := "https://www.bling.com.br/Api/v3"
  const DefaultRedirectUri: string := "http://localhost:8502"
  const AuthorizePath: string := "/oauth/authorize"

  /** Token lifetime assumed when the answer has no `expires_in`. */
  const DefaultExpiresIn: int := 3600

  /** The default look-ahead window of the expiry checks, in minutes. */
  const DefaultMinutes: int := 10

  /** `BLING_API_BASE` and `BLING_REDIRECT_URI`; `None` when unset. */
  datatype Env = Env(apiBase: Option<string>, redirectUri: Option<string>)

  function ApiBase(env: Env): string
  {
    env.apiBase.GetOr(DefaultApiBase)
  }

  function RedirectUri(env: Env): string
  {
    env.redirectUri.GetOr(DefaultRedirectUri)
  }

  /** The `BlingAuthError`s these calls raise. */
  datatype Failure =
    | NoRefreshToken
    | RefreshRejected(status: int)
    | MissingAccessToken
    | NoCode
    | ExchangeRejected(status: int)
    | MissingTokens

  /** The access token, refresh token and expiry instant returned on success. */
  datatype Issued = Issued(accessToken: string, refreshToken: string, expiresAt: int)

  /** The request posted (when one was) and what the call returned or raised. */
  datatype Call = Call(request: Option<TokenRequest>, result: Result<Issued, Failure>)

  /** The lifetime a token answer grants. */
  function Lifetime(b: TokenBody): int
  {
    b.expiresIn.GetOr(DefaultExpiresIn)
  }

  /** Any status from 400 up is an error here, not only 4xx and 5xx. */
  predicate Rejected(status: int)
  {
    status >= 400
  }

  /** `refresh_token(client_id, client_secret, refresh_token_value)`. */
  function RefreshToken(clientId: string, clientSecret: string, refreshValue: string, now: int,
                        endpoint: TokenEndpoint): (c: Call)
    // an empty refresh token fails before anything is posted
    ensures c.request.Some? <==> refreshValue != ""
    ensures refreshValue == "" ==> c.result == Err(NoRefreshToken)
    ensures c.request.Some? ==> c.request.value == RefreshGrant(refreshValue, clientId, clientSecret)
    // an error status wins over a bad body; a body without an access token is an error
    ensures c.request.Some? ==>
      var resp := endpoint(c.request.value);
      (Rejected(resp.status) ==> c.result == Err(RefreshRejected(resp.status))) &&
      (!Rejected(resp.status) && !Truthy(resp.body.accessToken) ==> c.result == Err(MissingAccessToken)) &&
      (c.result.Ok? <==> !Rejected(resp.status) && Truthy(resp.body.accessToken))
    // on success: the vendor's access token, a refresh token that is never empty
    // (the old one is kept when the answer has none), and an expiry `expires_in` from now
    ensures c.result.Ok? ==>
      c.request.Some? && (var body := endpoint(c.request.value).body;
      c.result.value.accessToken == body.accessToken.value &&
      c.result.value.accessToken != "" && c.result.value.refreshToken != "" &&
      (Truthy(body.refreshToken) ==> c.result.value.refreshToken == body.refreshToken.value) &&
      (!Truthy(body.refreshToken) ==> c.result.value.refreshToken == refreshValue) &&
      c.result.value.expiresAt == now + Lifetime(body))
  {
    if refreshValue == "" then Call(None, Err(NoRefreshToken))
    else
      var req := RefreshGrant(refreshValue, clientId, clientSecret);
      var resp := endpoint(req);
      if Rejected(resp.status) then Call(Some(req), Err(RefreshRejected(resp.status)))
      else
        var data := resp.body;
        var newRefresh := if Truthy(data.refreshToken) then data.refreshToken.value else refreshValue;
        var expiresAt := now + Lifetime(data);
        if !Truthy(data.accessToken) then Call(Some(req), Err(MissingAccessToken))
        else Call(Some(req), Ok(Issued(data.accessToken.value, newRefresh, expiresAt)))
  }

  /** `exchange_code_for_token(client_id, client_secret, code, redirect_uri)`. */
  function ExchangeCodeForToken(clientId: string, clientSecret: string, code: string,
                                redirectUri: Option<string>, env: Env, now: int,
                                endpoint: TokenEndpoint): (c: Call)
    ensures c.request.Some? <==> code != ""
    ensures code == "" ==> c.result == Err(NoCode)
    // an empty or missing redirect URI falls back to the configured one
    ensures c.request.Some? ==>
      c.request.value == CodeGrant(code, if Truthy(redirectUri) then redirectUri.value else RedirectUri(env),
                                   clientId, clientSecret)
    ensures c.request.Some? ==>
      var resp := endpoint(c.request.value);
      (Rejected(resp.status) ==> c.result == Err(ExchangeRejected(resp.status))) &&
      (c.result.Ok? <==> !Rejected(resp.status) && Truthy(resp.body.accessToken) && Truthy(resp.body.refreshToken))
    // both tokens come from the answer and neither is empty
    ensures c.result.Ok? ==>
      c.request.Some? && (var body := endpoint(c.request.value).body;
      c.result.value == Issued(body.accessToken.value, body.refreshToken.value, now + Lifetime(body)) &&
      c.result.value.accessToken != "" && c.result.value.refreshToken != "")
  {
    if code == "" then Call(None, Err(NoCode))
    else
      var redirect := if Truthy(redirectUri) then redirectUri.value else RedirectUri(env);
      var req := CodeGrant(code, redirect, clientId, clientSecret);
      var resp := endpoint(req);
      if Rejected(resp.status) then Call(Some(req), Err(ExchangeRejected(resp.status)))
      else
        var data := resp.body;
        if !Truthy(data.accessToken) || !Truthy(data.refreshToken) then Call(Some(req), Err(MissingTokens))
        else Call(Some(req), Ok(Issued(data.accessToken.value, data.refreshToken.value, now + Lifetime(data))))
  }

  /** `get_authorization_url(client_id, state)`: values are inserted as they
      are, without percent-encoding. */
  function AuthorizationUrl(env: Env, clientId: string, state: string): string
  {
    ApiBase(env) + AuthorizePath + "?" + AuthorizationQuery(RedirectUri(env), clientId, state)
  }

  /** The query string of the authorization URL; the state is sent only when
      it is non-empty. */
  function AuthorizationQuery(redirect: string, clientId: string, state: string): string
  {
    "response_type=code" + "&client_id=" + clientId + "&redirect_uri=" + redirect
      + (if state != "" then "&state=" + state else "")
  }

  /** `key=value`. */
  function Pair(f: (string, string)): string
  {
    f.0 + "=" + f.1
  }

  /** Fields joined with `&`, as a query string is written. */
  function EncodeQuery(fields: seq<(string, string)>): string
    requires |fields| >= 1
    decreases |fields|
  {
    if |fields| == 1 then Pair(fields[0]) else Pair(fields[0]) + "&" + EncodeQuery(fields[1..])
  }

  /** One `key=value` field, split at its first `=`. */
  function Field(p: string): (string, string)
  {
    if '=' in p then (p[..IndexOf(p, '=')], p[IndexOf(p, '=') + 1..]) else (p, "")
  }

  /** The fields of a query string, in order, as a server reads them back. */
  function ParseQuery(q: string): seq<(string, string)>
  {
    var parts := Split(q, '&');
    seq(|parts|, i requires 0 <= i < |parts| => Field(parts[i]))
  }

  /** The text after the first `?` of a URL. */
  function QueryOf(url: string): string
  {
    if '?' in url then url[IndexOf(url, '?') + 1..] else ""
  }

  /** Fields a query string can carry unescaped: keys without `&` or `=`,
      values without `&`. */
  predicate Encodable(fields: seq<(string, string)>)
  {
    forall i :: 0 <= i < |fields| ==> '&' !in fields[i].0 && '=' !in fields[i].0 && '&' !in fields[i].1
  }

  lemma FieldOfPair(f: (string, string))
    requires '=' !in f.0
    ensures Field(Pair(f)) == f
  {
    IndexOfAfterPrefix(f.0, '=', f.1);
    assert Pair(f)[..|f.0|] == f.0;
    assert Pair(f)[|f.0| + 1..] == f.1;
  }

  lemma {:induction false} SplitEncoded(fields: seq<(string, string)>)
    requires |fields| >= 1 && Encodable(fields)
    ensures Split(EncodeQuery(fields), '&') == seq(|fields|, i requires 0 <= i < |fields| => Pair(fields[i]))
    decreases |fields|
  {
    assert '&' !in Pair(fields[0]);
    if |fields| == 1 {
      SplitNoSep(Pair(fields[0]), '&');
    } else {
      assert Encodable(fields[1..]) by {
        assert forall i :: 0 <= i < |fields[1..]| ==> fields[1..][i] == fields[i + 1];
      }
      SplitEncoded(fields[1..]);
      SplitCons(Pair(fields[0]), EncodeQuery(fields[1..]), '&');
    }
  }

  /** Parsing an encoded query gives back its fields. */
  lemma ParseEncoded(fields: seq<(string, string)>)
    requires |fields| >= 1 && Encodable(fields)
    ensures ParseQuery(EncodeQuery(fields)) == fields
  {
    SplitEncoded(fields);
    forall i | 0 <= i < |fields|
      ensures Field(Pair(fields[i])) == fields[i]
    {
      FieldOfPair(fields[i]);
    }
  }

  /** The fields of the authorization URL, in the order they are written. */
  function AuthorizationFields(redirect: string, clientId: string, state: string): seq<(string, string)>
  {
    [("response_type", "code"), ("client_id", clientId), ("redirect_uri", redirect)]
      + (if state != "" then [("state", state)] else [])
  }

  lemma AuthorizationPieces(redirect: string, clientId: string, state: string)
    ensures Pair(("response_type", "code")) == "response_type=code"
    ensures "&" + Pair(("client_id", clientId)) == "&client_id=" + clientId
    ensures "&" + Pair(("redirect_uri", redirect)) == "&redirect_uri=" + redirect
    ensures "&" + Pair(("state", state)) == "&state=" + state
  {
  }

  lemma EncodeThree(f1: (string, string), f2: (string, string), f3: (string, string))
    ensures EncodeQuery([f1, f2, f3]) == Pair(f1) + "&" + Pair(f2) + "&" + Pair(f3)
  {
    assert [f1, f2, f3][1..] == [f2, f3];
    assert [f2, f3][1..] == [f3];
    var a, b, c := Pair(f1), Pair(f2), Pair(f3);
    assert EncodeQuery([f2, f3]) == b + "&" + c;
    assert a + "&" + (b + "&" + c) == a + "&" + b + "&" + c;
  }

  lemma EncodeFour(f1: (string, string), f2: (string, string), f3: (string, string), f4: (string, string))
    ensures EncodeQuery([f1, f2, f3, f4]) == Pair(f1) + "&" + Pair(f2) + "&" + Pair(f3) + "&" + Pair(f4)
  {
    assert [f1, f2, f3, f4][1..] == [f2, f3, f4];
    EncodeThree(f2, f3, f4);
    var a, b, c, d := Pair(f1), Pair(f2), Pair(f3), Pair(f4);
    assert a + "&" + (b + "&" + c + "&" + d) == a + "&" + b + "&" + c + "&" + d;
  }

  lemma AuthorizationQueryEncodes(redirect: string, clientId: string, state: string)
    ensures AuthorizationQuery(redirect, clientId, state) == EncodeQuery(AuthorizationFields(redirect, clientId, state))
  {
    var f1, f2, f3 := ("response_type", "code"), ("client_id", clientId), ("redirect_uri", redirect);
    AuthorizationPieces(redirect, clientId, state);
    var head := "response_type=code" + "&client_id=" + clientId + "&redirect_uri=" + redirect;
    assert head == Pair(f1) + "&" + Pair(f2) + "&" + Pair(f3);
    if state != "" {
      var f4 := ("state", state);
      assert AuthorizationFields(redirect, clientId, state) == [f1, f2, f3, f4];
      EncodeFour(f1, f2, f3, f4);
    } else {
      assert AuthorizationFields(redirect, clientId, state) == [f1, f2, f3];
      EncodeThree(f1, f2, f3);
    }
  }

  lemma QueryOfJoin(base: string, q: string)
    requires '?' !in base
    ensures QueryOf(base + "?" + q) == q
  {
    IndexOfAfterPrefix(base, '?', q);
    assert (base + "?" + q)[|base| + 1..] == q;
  }

  /** The vendor reads back exactly the fields the URL was built from, in
      order, as long as no value contains `&` and the API base has no `?`. */
  lemma AuthorizationUrlFields(env: Env, clientId: string, state: string)
    requires '?' !in ApiBase(env)
    requires '&' !in clientId && '&' !in RedirectUri(env) && '&' !in state
    ensures ParseQuery(QueryOf(AuthorizationUrl(env, clientId, state))) ==
      AuthorizationFields(RedirectUri(env), clientId, state)
  {
    var redirect := RedirectUri(env);
    var base := ApiBase(env) + AuthorizePath;
    var q := AuthorizationQuery(redirect, clientId, state);
    assert '?' !in base by { AuthorizePathIsPlain(); }
    QueryOfJoin(base, q);
    AuthorizationQueryEncodes(redirect, clientId, state);
    AuthorizationFieldsEncodable(redirect, clientId, state);
    ParseEncoded(AuthorizationFields(redirect, clientId, state));
  }

  lemma AuthorizePathIsPlain()
    ensures '?' !in AuthorizePath
  {
  }

  lemma AuthorizationFieldsEncodable(redirect: string, clientId: string, state: string)
    requires '&' !in clientId && '&' !in redirect && '&' !in state
    ensures |AuthorizationFields(redirect, clientId, state)| >= 1
    ensures Encodable(AuthorizationFields(redirect, clientId, state))
  {
  }

  /** `is_token_expiring(expires_at, minutes)`: a missing expiry counts as
      expiring; otherwise the token expires within the next `minutes`. */
  function IsTokenExpiring(expiresAt: Option<Expiry>, now: int, minutes: int, zone: Zone): bool
  {
    expiresAt.None? || Instant(expiresAt.value, zone) <= now + minutes * 60
  }

  /** Once a token is expiring it stays so as time passes and as the window
      widens. */
  lemma ExpiringIsMonotone(expiresAt: Option<Expiry>, now: int, later: int, minutes: int, wider: int, zone: Zone)
    requires now <= later && minutes <= wider
    ensures IsTokenExpiring(expiresAt, now, minutes, zone) ==> IsTokenExpiring(expiresAt, later, wider, zone)
  {
  }

  /** `token_status(client, minutes)`. */
  function TokenStatus(c: Client, now: int, minutes: int, zone: Zone): (s: string)
    ensures s in ["valid", "expiring", "expired"]
    ensures s == "expired" <==> c.tokenExpiresAt.None?
    ensures s == "valid" <==> c.tokenExpiresAt.Some? && Instant(c.tokenExpiresAt.value, zone) > now + minutes * 60
  {
    if c.tokenExpiresAt.None? then "expired"
    else if IsTokenExpiring(c.tokenExpiresAt, now, minutes, zone) then "expiring"
    else "valid"
  }

  /** A token whose expiry has already passed is reported as "expiring", not
      "expired": only a missing expiry is "expired". */
  lemma PastExpiryIsExpiring(c: Client, now: int, minutes: int, zone: Zone)
    requires c.tokenExpiresAt.Some? && Instant(c.tokenExpiresAt.value, zone) < now && minutes >= 0
    ensures TokenStatus(c, now, minutes, zone) == "expiring"
  {
  }

  /** The outcome of the token maintenance on one client: its row afterwards,
      the request posted (if any) and the error raised (if any). */
  datatype Maintained = Maintained(client: Client, request: Option<TokenRequest>, error: Option<Failure>)

  /** `force_refresh_token(client, session)`. */
  function ForceRefreshToken(c: Client, now: int, endpoint: TokenEndpoint): (r: Maintained)
    // a missing refresh column is sent as "" and fails without a request
    ensures r.request.Some? <==> Truthy(c.refreshToken)
    ensures r.request.Some? ==> r.request.value == RefreshGrant(c.refreshToken.value, c.blingClientId, c.blingClientSecret)
    // a failure leaves the row as it was
    ensures r.error.Some? ==> r.client == c
    // success overwrites the three token columns together and nothing else
    ensures SameButTokens(r.client, c)
    ensures r.error.None? ==>
      r.request.Some? && (var body := endpoint(r.request.value).body;
      r.client.accessToken == body.accessToken && Truthy(r.client.accessToken) &&
      Truthy(r.client.refreshToken) && r.client.tokenExpiresAt == Some(Aware(now + Lifetime(body))))
  {
    var call := RefreshToken(c.blingClientId, c.blingClientSecret, c.refreshToken.GetOr(""), now, endpoint);
    match call.result
    case Err(e) => Maintained(c, call.request, Some(e))
    case Ok(t) =>
      Maintained(c.(accessToken := Some(t.accessToken), refreshToken := Some(t.refreshToken),
                    tokenExpiresAt := Some(Aware(t.expiresAt))),
                 call.request, None)
  }

  /** `ensure_valid_token(client, session, minutes)`: refresh only when the
      token is expiring. */
  function EnsureValidToken(c: Client, now: int, minutes: int, zone: Zone, endpoint: TokenEndpoint): (r: Maintained)
    ensures !IsTokenExpiring(c.tokenExpiresAt, now, minutes, zone) ==> r == Maintained(c, None, None)
    ensures IsTokenExpiring(c.tokenExpiresAt, now, minutes, zone) ==> r == ForceRefreshToken(c, now, endpoint)
  {
    if !IsTokenExpiring(c.tokenExpiresAt, now, minutes, zone) then Maintained(c, None, None)
    else ForceRefreshToken(c, now, endpoint)
  }

  /** After a successful maintenance the token is no longer missing, and when
      the lifetime granted exceeds the window it reads as valid. */
  lemma MaintainedTokenIsValid(c: Client, now: int, minutes: int, zone: Zone, endpoint: TokenEndpoint, r: Maintained)
    requires r == EnsureValidToken(c, now, minutes, zone, endpoint)
    ensures r.error.None? ==> TokenStatus(r.client, now, minutes, zone) != "expired"
    ensures r.error.None? && r.request.Some? && Lifetime(endpoint(r.request.value).body) > minutes * 60 ==>
      TokenStatus(r.client, now, minutes, zone) == "valid"
    ensures r.error.None? && r.request.None? ==> TokenStatus(r.client, now, minutes, zone) == "valid"
  {
  }

  /** The status dot shown next to a token status. */
  datatype Icon = Green | Yellow | Red

  /** `friendly_token_icon(status)`: any unknown status shows red. */
  function FriendlyTokenIcon(status: string): (i: Icon)
    ensures i == Green <==> status == "valid"
    ensures i == Yellow <==> status == "expiring"
  {
    if status == "valid" then Green
    else if status == "expiring" then Yellow
    else Red
  }

  /** A client's dot is red exactly when it has no expiry stored. */
  lemma RedMeansNoExpiry(c: Client, now: int, minutes: int, zone: Zone)
    ensures FriendlyTokenIcon(TokenStatus(c, now, minutes, zone)) == Red <==> c.tokenExpiresAt.None?
  {
  }

  /** The admin overview's "Tokens Válidos" count as written: it compares the
      status with "Valid", a string `token_status` never returns. */
  function ValidTokenCountAsWritten(clients: seq<Client>, now: int, zone: Zone): nat
  {
    Seqs.Count(clients, (c: Client) => TokenStatus(c, now, DefaultMinutes, zone) == "Valid")
  }

  /** The count of clients whose token is valid, with the status spelt as
      `token_status` spells it. */
  function ValidTokenCount(clients: seq<Client>, now: int, zone: Zone): nat
  {
    Seqs.Count(clients, (c: Client) => TokenStatus(c, now, DefaultMinutes, zone) == "valid")
  }

  /** The written count is 0 whatever the clients, so the overview reports
      every token as pending. */
  lemma AsWrittenCountsNoValidToken(clients: seq<Client>, now: int, zone: Zone)
    ensures ValidTokenCountAsWritten(clients, now, zone) == 0
  {
    Seqs.CountNone(clients, (c: Client) => TokenStatus(c, now, DefaultMinutes, zone) == "Valid");
  }

  /** The corrected count is the number of clients whose stored expiry lies
      beyond the window, and a single such client makes the written count wrong. */
  lemma {:induction false} ValidTokenCountCounts(clients: seq<Client>, now: int, zone: Zone)
    ensures ValidTokenCount(clients, now, zone) ==
      Seqs.Count(clients, (c: Client) => c.tokenExpiresAt.Some? &&
                                         Instant(c.tokenExpiresAt.value, zone) > now + DefaultMinutes * 60)
    ensures (exists i :: 0 <= i < |clients| && TokenStatus(clients[i], now, DefaultMinutes, zone) == "valid") ==>
      ValidTokenCountAsWritten(clients, now, zone) < ValidTokenCount(clients, now, zone)
  {
    Seqs.FilterCongruent(clients,
      (c: Client) => TokenStatus(c, now, DefaultMinutes, zone) == "valid",
      (c: Client) => c.tokenExpiresAt.Some? && Instant(c.tokenExpiresAt.value, zone) > now + DefaultMinutes * 60);
    AsWrittenCountsNoValidToken(clients, now, zone);
    if i :| 0 <= i < |clients| && TokenStatus(clients[i], now, DefaultMinutes, zone) == "valid" {
      var hits := Seqs.Filter(clients, (c: Client) => TokenStatus(c, now, DefaultMinutes, zone) == "valid");
      assert clients[i] in clients;
      assert clients[i] in hits;
    }
  }
}

=== FILE: file_auth.dfy ===
/** The file-backed OAuth2 token lifecycle (`BlingAuth`): credentials from the
    environment, a token record kept in `tokens.json`, and the decision to
    return the cached access token or to refresh it. Time is whole seconds
    since the epoch (`int(time.time())`), passed in by the caller. */
module FileAuth {
  import opened Wrappers
  import opened OAuth

  /** Seconds taken off the server-reported lifetime when a refresh is stored. */
  const SafetyMargin: int := 60

  datatype TokenData = TokenData(
    accessToken: string,
    refreshToken: string,
    expiresIn: int,
    expiryTimestamp: int)

  /** The JSON object held in `tokens.json`; an absent key is `None`. */
  datatype TokenFile = TokenFile(
    accessToken: Option<string>,
    refreshToken: Option<string>,
    expiresIn: Option<int>,
    expiryTimestamp: Option<int>)

  /** The token file: missing, or holding one object. */
  type Store = Option<TokenFile>

  datatype AuthError =
    | MissingCredentials       // RuntimeError raised by the constructor
    | TokenFileNotFound        // FileNotFoundError raised by _read_tokens
    | MissingTokens            // RuntimeError raised by get_valid_token
    | HttpStatus(status: int)  // requests.HTTPError raised by raise_for_status

  datatype AuthConfig = AuthConfig(clientId: string, clientSecret: string, redirectUri: Option<string>)

  /** The constructor: client id and secret come from the environment and
      both must be set and non-empty; the redirect URI is optional. */
  function NewAuth(clientId: Option<string>, clientSecret: Option<string>, redirectUri: Option<string>)
    : (r: Result<AuthConfig, AuthError>)
    ensures r.Ok? <==> Truthy(clientId) && Truthy(clientSecret)
    ensures r.Ok? ==> r.value == AuthConfig(clientId.value, clientSecret.value, redirectUri)
    ensures r.Err? ==> r.error == MissingCredentials
  {
    if !Truthy(clientId) || !Truthy(clientSecret) then Err(MissingCredentials)
    else Ok(AuthConfig(clientId.value, clientSecret.value, redirectUri))
  }

  /** `_read_tokens`: absent string keys read as "", absent integer keys as 0. */
  function ReadTokens(store: Store): (r: Result<TokenData, AuthError>)
    ensures r.Err? <==> store.None?
    ensures r.Err? ==> r.error == TokenFileNotFound
    ensures r.Ok? ==> var f := store.value;
      && (f.accessToken.None? ==> r.value.accessToken == "")
      && (f.refreshToken.None? ==> r.value.refreshToken == "")
      && (f.expiresIn.None? ==> r.value.expiresIn == 0)
      && (f.expiryTimestamp.None? ==> r.value.expiryTimestamp == 0)
  {
    match store
    case None => Err(TokenFileNotFound)
    case Some(f) =>
      Ok(TokenData(
        f.accessToken.GetOr(""),
        f.refreshToken.GetOr(""),
        f.expiresIn.GetOr(0),
        f.expiryTimestamp.GetOr(0)))
  }

  /** `_write_tokens`: every field is written, so reading it back gives the
      same record. */
  function WriteTokens(t: TokenData): (f: TokenFile)
    ensures ReadTokens(Some(f)) == Ok(t)
  {
    TokenFile(Some(t.accessToken), Some(t.refreshToken), Some(t.expiresIn), Some(t.expiryTimestamp))
  }

  /** The record `_refresh_token` builds from a successful answer. */
  function RefreshedData(oldRefresh: string, now: int, body: TokenBody): TokenData
  {
    var expiresIn := body.expiresIn.GetOr(0);
    TokenData(
      body.accessToken.GetOr(""),
      body.refreshToken.GetOr(oldRefresh),
      expiresIn,
      now + expiresIn - SafetyMargin)
  }

  /** `_refresh_token`: one refresh-grant POST; an error status raises,
      otherwise the new record expires `SafetyMargin` seconds before the
      server says it does, and a missing refresh token keeps the old one. */
  function RefreshToken(cfg: AuthConfig, oldRefresh: string, now: int, endpoint: TokenEndpoint)
    : (r: Result<TokenData, AuthError>)
    ensures var resp := endpoint(RefreshGrant(oldRefresh, cfg.clientId, cfg.clientSecret));
      && (r.Err? <==> RaisesForStatus(resp.status))
      && (r.Err? ==> r.error == HttpStatus(resp.status))
      && (r.Ok? ==>
            && r.value.expiryTimestamp == now + r.value.expiresIn - SafetyMargin
            && r.value.expiresIn == (if resp.body.expiresIn.Some? then resp.body.expiresIn.value else 0)
            && r.value.refreshToken == (if resp.body.refreshToken.Some? then resp.body.refreshToken.value else oldRefresh)
            && r.value.accessToken == (if resp.body.accessToken.Some? then resp.body.accessToken.value else ""))
  {
    var resp := endpoint(RefreshGrant(oldRefresh, cfg.clientId, cfg.clientSecret));
    if RaisesForStatus(resp.status) then Err(HttpStatus(resp.status))
    else Ok(RefreshedData(oldRefresh, now, resp.body))
  }

  /** The answer of `get_valid_token`, the request it posted (if any) and the
      token file afterwards. */
  datatype Outcome = Outcome(token: Result<string, AuthError>, request: Option<TokenRequest>, store: Store)

  /** True when the stored record must be refreshed: the boundary is
      inclusive, so a token expiring exactly now counts as expired. */
  predicate Expired(t: TokenData, now: int)
  {
    t.expiryTimestamp <= now
  }

  /** `get_valid_token`. */
  function GetValidToken(cfg: AuthConfig, store: Store, now: int, endpoint: TokenEndpoint): (r: Outcome)
    // no token file, or an empty token in it: fail without a request or a write
    ensures store.None? ==> r == Outcome(Err(TokenFileNotFound), None, store)
    ensures store.Some? && (ReadTokens(store).value.accessToken == "" || ReadTokens(store).value.refreshToken == "")
      ==> r == Outcome(Err(MissingTokens), None, store)
    // a refresh is requested exactly when both tokens are present and the record is expired
    ensures r.request.Some? <==>
      store.Some? && var t := ReadTokens(store).value;
      t.accessToken != "" && t.refreshToken != "" && Expired(t, now)
    ensures r.request.Some? ==> r.request.value == RefreshGrant(ReadTokens(store).value.refreshToken, cfg.clientId, cfg.clientSecret)
    // not expired: the cached access token, nothing written
    ensures r.request.None? && r.token.Ok? ==> r.token.value == ReadTokens(store).value.accessToken && r.store == store
    // a failed refresh writes nothing
    ensures r.token.Err? ==> r.store == store
    // a successful refresh stores the new record and returns its access token
    ensures r.request.Some? && r.token.Ok? ==>
      && r.store.Some?
      && var t := ReadTokens(r.store).value;
      && t.accessToken == r.token.value
      && t.expiryTimestamp == now + t.expiresIn - SafetyMargin
  {
    match ReadTokens(store)
    case Err(e) => Outcome(Err(e), None, store)
    case Ok(tokens) =>
      if tokens.accessToken == "" || tokens.refreshToken == "" then
        Outcome(Err(MissingTokens), None, store)
      else if Expired(tokens, now) then
        var req := RefreshGrant(tokens.refreshToken, cfg.clientId, cfg.clientSecret);
        match RefreshToken(cfg, tokens.refreshToken, now, endpoint)
        case Err(e) => Outcome(Err(e), Some(req), store)
        case Ok(refreshed) => Outcome(Ok(refreshed.accessToken), Some(req), Some(WriteTokens(refreshed)))
      else
        Outcome(Ok(tokens.accessToken), None, store)
  }

  /** A refreshed record is served from the file, without another request,
      until its stored expiry is reached, provided the answer carried an
      access token and a refresh token. */
  lemma RefreshedTokenIsCachedUntilExpiry(cfg: AuthConfig, store: Store, now: int, later: int, endpoint: TokenEndpoint, endpoint': TokenEndpoint, r1: Outcome)
    requires r1 == GetValidToken(cfg, store, now, endpoint) && r1.request.Some? && r1.token.Ok?
    requires r1.token.value != ""
    requires ReadTokens(r1.store).value.refreshToken != ""
    requires later < ReadTokens(r1.store).value.expiryTimestamp
    ensures GetValidToken(cfg, r1.store, later, endpoint') == Outcome(r1.token, None, r1.store)
  {
  }

  /** An answer without `expires_in` (or with a lifetime of at most the
      safety margin) is stored as already expired, so the very next call
      refreshes again. */
  lemma ShortLifetimeRefreshesAgain(cfg: AuthConfig, store: Store, now: int, endpoint: TokenEndpoint, endpoint': TokenEndpoint, r1: Outcome)
    requires r1 == GetValidToken(cfg, store, now, endpoint) && r1.request.Some? && r1.token.Ok?
    requires r1.token.value != ""
    requires ReadTokens(r1.store).value.refreshToken != ""
    requires ReadTokens(r1.store).value.expiresIn <= SafetyMargin
    ensures GetValidToken(cfg, r1.store, now, endpoint').request.Some?
  {
  }
}

=== FILE: models.dfy ===
/** The persisted `Client` row of the multi-tenant app (`models.py`), as the
    services read and update it. Datetimes are seconds; a stored expiry may
    come back from the database with or without its time zone. */
module Models {
  import opened Wrappers

  /** A stored `token_expires_at`: an aware instant (UTC seconds), or a naive
      wall-clock reading in São Paulo time, in seconds. */
  datatype Expiry = Aware(utc: int) | Naive(wall: int)

  /** São Paulo's UTC offset, in seconds, at a given wall-clock reading: the
      part of the time-zone database that `SP_TZ.localize` consults. */
  type Zone = int -> int

  /** The instant an expiry denotes; a naive reading is localized to
      São Paulo first. */
  function Instant(e: Expiry, zone: Zone): int
  {
    match e
    case Aware(t) => t
    case Naive(w) => w - zone(w)
  }

  datatype Client = Client(
    id: int,
    companyName: string,
    username: string,
    passwordHash: string,
    blingClientId: string,
    blingClientSecret: string,
    accessToken: Option<string>,
    refreshToken: Option<string>,
    tokenExpiresAt: Option<Expiry>,
    planSales: bool,
    planInventory: bool,
    planFinancial: bool,
    isActive: bool,
    lastLogin: Option<int>,
    loginCount: Option<int>)

  /** Two client rows that differ at most in their three token columns. */
  predicate SameButTokens(a: Client, b: Client)
  {
    a.(accessToken := b.accessToken, refreshToken := b.refreshToken, tokenExpiresAt := b.tokenExpiresAt) == b
  }
}

=== FILE: oauth.dfy ===
/** The vendor's OAuth2 token endpoint, seen from the client: the form posted
    to `/oauth/token` and the parsed JSON answer. The endpoint itself is an
    oracle supplied by the caller. */
module OAuth {
  import opened Wrappers

  /** The body of a POST to `/oauth/token`, with the HTTP Basic credentials. */
  datatype TokenRequest =
    | RefreshGrant(refreshToken: string, clientId: string, clientSecret: string)
    | CodeGrant(code: string, redirectUri: string, clientId: string, clientSecret: string)

  /** The JSON object returned by the endpoint; an absent key is `None`. */
  datatype TokenBody = TokenBody(
    accessToken: Option<string>,
    refreshToken: Option<string>,
    expiresIn: Option<int>)

  datatype TokenResponse = TokenResponse(status: int, body: TokenBody)

  /** What the vendor answers to each request. */
  type TokenEndpoint = TokenRequest -> TokenResponse

  /** Python's truthiness of an optional string: present and non-empty. */
  predicate Truthy(v: Option<string>)
  {
    v.Some? && v.value != ""
  }

  /** `requests.Response.raise_for_status` raises for client (4xx) and
      server (5xx) error statuses and for nothing else. */
  predicate RaisesForStatus(status: int)
  {
    400 <= status < 600
  }
}

=== FILE: paging.dfy ===
/** `BlingClient`: one page request retried on HTTP errors, and the loop that
    walks `pagina = 1, 2, 3, ...` until a page comes back empty. The server and
    the token source are an oracle indexed by the request parameters and the
    attempt number; waiting times are not modelled. */
module Paging {
  import opened Wrappers
  import opened OAuth
  import FileAuth

  /** `stop_after_attempt(5)`. */
  const MaxAttempts: nat := 5

  /** The name of the page-number query parameter. */
  const PageKey: string := "pagina"

  datatype Failure =
    | HttpError(status: int)   // requests.HTTPError: the only kind that is retried
    | OtherError(reason: FileAuth.AuthError)

  datatype Attempt<+T> = Done(value: T) | Raised(failure: Failure)

  /** `retry_if_exception_type(requests.HTTPError)`. */
  predicate Retryable<T>(a: Attempt<T>)
  {
    a.Raised? && a.failure.HttpError?
  }

  /** The retry decorator from attempt `i` on: the first attempt that does
      not raise an HTTP error ends the loop, and after the last allowed
      attempt its outcome (the last error, when it failed) is re-raised.
      Returns the outcome and the number of the attempt that produced it. */
  function RetryFrom<T>(attempt: nat -> Attempt<T>, i: nat): (r: (Attempt<T>, nat))
    requires 1 <= i <= MaxAttempts
    ensures i <= r.1 <= MaxAttempts
    ensures r.0 == attempt(r.1)
    ensures forall j :: i <= j < r.1 ==> Retryable(attempt(j))
    ensures r.1 < MaxAttempts ==> !Retryable(attempt(r.1))
    decreases MaxAttempts - i
  {
    var a := attempt(i);
    if Retryable(a) && i < MaxAttempts then RetryFrom(attempt, i + 1) else (a, i)
  }

  /** A query-string value. */
  datatype ParamValue = Text(s: string) | Number(n: int)

  type Params = map<string, ParamValue>

  /** The JSON body of a page: a dict whose `data` key may be absent, or any
      other JSON value. */
  datatype Body<+T> = NotDict | Dict(data: Option<seq<T>>)

  /** What one attempt at `_get` meets: the token lookup, then the status and
      body of the GET. */
  datatype Exchange<+T> = Exchange(token: Result<string, FileAuth.AuthError>, status: int, body: Body<T>)

  /** The server, as seen by attempt number `i` of a request with the given
      parameters. */
  type Server<!T> = (Params, nat) -> Exchange<T>

  /** The two status checks of `_get`: a 429 is raised by the first, every
      other error status by the second, with the same exception. */
  function CheckStatus<T>(status: int, body: T): (r: Attempt<T>)
    ensures r.Raised? <==> RaisesForStatus(status)
    ensures r.Raised? ==> r.failure == HttpError(status)
    ensures r.Done? ==> r.value == body
  {
    if status == 429 && RaisesForStatus(status) then Raised(HttpError(status))
    else if RaisesForStatus(status) then Raised(HttpError(status))
    else Done(body)
  }

  /** One attempt at `_get`. A token refresh rejected with an error status
      raises `requests.HTTPError` from inside `get_valid_token`, so it is
      retried like a failed GET; the other token errors are not. */
  function GetAttempt<T>(x: Exchange<T>): (r: Attempt<Body<T>>)
    ensures Retryable(r) <==>
      (x.token.Err? && x.token.error.HttpStatus?) || (x.token.Ok? && RaisesForStatus(x.status))
    ensures r.Done? <==> x.token.Ok? && !RaisesForStatus(x.status)
    ensures r.Done? ==> r.value == x.body
  {
    match x.token
    case Err(e) => if e.HttpStatus? then Raised(HttpError(e.status)) else Raised(OtherError(e))
    case Ok(_) => CheckStatus(x.status, x.body)
  }

  /** `_get(endpoint, params)` with its retry decorator: the outcome and the
      number of attempts made. */
  function GetPage<T>(server: Server<T>, params: Params): (r: (Attempt<Body<T>>, nat))
    ensures 1 <= r.1 <= MaxAttempts
    ensures r.0 == GetAttempt(server(params, r.1))
    ensures forall j :: 1 <= j < r.1 ==> Retryable(GetAttempt(server(params, j)))
    ensures r.1 < MaxAttempts ==> !Retryable(r.0)
  {
    RetryFrom((i: nat) => GetAttempt(server(params, i)), 1)
  }

  /** `params.copy() if params else {}`: the loop works on its own copy. */
  function BaseParams(params: Option<Params>): Params
  {
    if params.Some? then params.value else map[]
  }

  /** The parameters sent for page `page`. */
  function WithPage(base: Params, page: nat): Params
  {
    base[PageKey := Number(page)]
  }

  /** Each page request carries the caller's parameters with `pagina` set to
      the page number (overriding a caller-supplied `pagina`), and the
      caller's own map is left as it was: values are immutable here. */
  lemma WithPageKeepsCallerParams(base: Params, page: nat)
    ensures WithPage(base, page).Keys == base.Keys + {PageKey}
    ensures WithPage(base, page)[PageKey] == Number(page)
    ensures forall k :: k in base && k != PageKey ==> WithPage(base, page)[k] == base[k]
  {
  }

  /** `data.get("data", []) if isinstance(data, dict) else []`. */
  function Items<T>(b: Body<T>): seq<T>
  {
    match b
    case NotDict => []
    case Dict(d) => d.GetOr([])
  }

  /** The outcome of the request for page `page`. */
  function PageResult<T>(server: Server<T>, base: Params, page: nat): Attempt<Body<T>>
  {
    GetPage(server, WithPage(base, page)).0
  }

  /** The outcome of each page request, by page number. */
  type Pages<!T> = nat -> Attempt<Body<T>>

  /** Page `n` is requested with the caller's parameters and `pagina = n`. */
  function PagesOf<T>(server: Server<T>, base: Params): Pages<T>
  {
    (n: nat) => PageResult(server, base, n)
  }

  /** The loop ends at a page that raised or whose item list is empty. */
  predicate Stops<T>(a: Attempt<Body<T>>)
  {
    a.Raised? || |Items(a.value)| == 0
  }

  /** The items of pages 1..n, in page order. */
  function Collected<T>(pages: Pages<T>, n: nat): seq<T>
  {
    if n == 0 then []
    else
      var a := pages(n);
      Collected(pages, n - 1) + (if a.Done? then Items(a.value) else [])
  }

  /** The `while True` loop of `get_all_data` over pages whose outcomes are
      given: `last` is a page at which it is known to stop. Returns the
      outcome and the parameters of each page requested, in order. */
  method Walk<T>(pages: Pages<T>, base: Params, ghost last: nat)
    returns (r: Attempt<seq<T>>, requested: seq<Params>)
    requires 1 <= last && Stops(pages(last))
    ensures 1 <= |requested| <= last
    ensures forall i :: 0 <= i < |requested| ==> requested[i] == WithPage(base, i + 1)
    ensures forall q :: 1 <= q < |requested| ==> !Stops(pages(q))
    ensures Stops(pages(|requested|))
    ensures pages(|requested|).Raised? ==> r == Raised(pages(|requested|).failure)
    ensures pages(|requested|).Done? ==> r == Done(Collected(pages, |requested| - 1))
  {
    var items: seq<T> := [];
    var page: nat := 1;
    requested := [WithPage(base, 1)];
    var res := pages(1);
    while !Stops(res)
      invariant 1 <= page <= last
      invariant |requested| == page
      invariant forall i :: 0 <= i < |requested| ==> requested[i] == WithPage(base, i + 1)
      invariant res == pages(page)
      invariant forall q :: 1 <= q < page ==> !Stops(pages(q))
      invariant items == Collected(pages, page - 1)
      decreases last - page
    {
      assert page != last;
      items := items + Items(res.value);
      page := page + 1;
      requested := requested + [WithPage(base, page)];
      res := pages(page);
    }
    r := if res.Raised? then Raised(res.failure) else Done(items);
  }

  /** `get_all_data`. The source loops for ever on a server that never returns
      an empty page; `last` is a page at which the loop is known to stop,
      which bounds it. Returns the outcome and the parameters of each page
      requested, in order. */
  method GetAllData<T>(server: Server<T>, params: Option<Params>, ghost last: nat)
    returns (r: Attempt<seq<T>>, requested: seq<Params>)
    requires 1 <= last && Stops(PagesOf(server, BaseParams(params))(last))
    // pages 1, 2, 3, ... are requested consecutively, each with the caller's parameters plus its number
    ensures 1 <= |requested| <= last
    ensures forall i :: 0 <= i < |requested| ==> requested[i] == WithPage(BaseParams(params), i + 1)
    // the last page requested is the first one that stops the loop
    ensures forall q :: 1 <= q < |requested| ==> !Stops(PagesOf(server, BaseParams(params))(q))
    ensures Stops(PagesOf(server, BaseParams(params))(|requested|))
    // an exhausted retry aborts the whole fetch; otherwise the pages before the stopping one, concatenated
    ensures PagesOf(server, BaseParams(params))(|requested|).Raised? ==>
      r == Raised(PagesOf(server, BaseParams(params))(|requested|).failure)
    ensures PagesOf(server, BaseParams(params))(|requested|).Done? ==>
      r == Done(Collected(PagesOf(server, BaseParams(params)), |requested| - 1))
  {
    r, requested := Walk(PagesOf(server, BaseParams(params)), BaseParams(params), last);
  }

  /** Page `n` appends its items, when it succeeded, to those of the pages
      before it. */
  lemma CollectedStep<T>(pages: Pages<T>, n: nat)
    requires n >= 1
    ensures pages(n).Done? ==> Collected(pages, n) == Collected(pages, n - 1) + Items(pages(n).value)
    ensures pages(n).Raised? ==> Collected(pages, n) == Collected(pages, n - 1)
    ensures Collected(pages, n - 1) <= Collected(pages, n)
  {
    var before := Collected(pages, n - 1);
    var a := pages(n);
    var added := if a.Done? then Items(a.value) else [];
    assert Collected(pages, n) == before + added;
    assert (before + added)[..|before|] == before;
  }

  /** Later pages only extend what earlier pages collected: the items of
      pages 1..m come first, in order, in the items of pages 1..n. */
  lemma {:induction false} CollectedGrows<T>(pages: Pages<T>, m: nat, n: nat)
    requires m <= n
    ensures Collected(pages, m) <= Collected(pages, n)
    decreases n - m
  {
    if m < n {
      CollectedGrows(pages, m, n - 1);
      CollectedStep(pages, n);
    }
  }
}

=== FILE: processor.dfy ===
/** `DataProcessor`: sales orders exploded into line items, left-joined with
    product cost and stock balance, enriched with totals and margins, the
    observed-day sales average and the coverage in days; and the dead-stock
    filter over the result. Both copies of the processor share this model;
    they differ only in the metadata copied onto line items, the empty-sales
    schema and the dead-stock window, which are parameters here. */
module Processor {
  import opened Wrappers
  import opened Tables
  import opened Seqs

  /** An order from `/pedidos/vendas`: its own keys and its line items (each
      already flattened to dotted keys). */
  datatype Order = Order(fields: Record, itens: seq<Record>)

  /** Order keys copied onto every line item, and the empty-sales schema, in
      the single-file dashboard ... */
  const ProductionMeta: seq<string> := ["id", "data", "numero", "total", "canalVenda", "loja.nome"]
  const ProductionSalesSchema: seq<string> :=
    ["id", "data", "numero", "total", "produto.id", "produto.nome", "quantidade", "valor", "canalVenda"]
  /** ... and in the modular one. */
  const ModularMeta: seq<string> := ["id", "data", "numero", "total"]
  const ModularSalesSchema: seq<string> :=
    ["id", "data", "numero", "total", "produto.id", "produto.nome", "quantidade", "valor"]
  const ProductsSchema: seq<string> := ["id", "precoCusto", "nome"]
  const StockSchema: seq<string> := ["produto.id", "saldoFisico"]

  /** Candidate columns for the channel and the product name, in priority order. */
  const ChannelCandidates: seq<string> :=
    ["canalVenda", "canalVenda.descricao", "canalVenda.nome", "loja.nome", "loja", "marketplace"]
  const ProductNameCandidates: seq<string> := ["produto.nome", "produto.descricao", "descricao"]
  const ChannelDefault: string := "Indefinido"
  const ProductNameDefault: string := "Produto"

  /** Length of the trailing window of the daily average. */
  const WindowDays: int := 90

  datatype ProcessError =
    | ConflictingMetadata(name: string)          // ValueError raised by json_normalize
    | MissingColumn(table: string, name: string) // binder error raised by the SQL join
    | NoSuchColumn(name: string)                 // AttributeError: `df.get(name)` is None, which has no `fillna`

  // ---------------------------------------------------------------- normalise

  /** One line item with its order's metadata keys added (null when the order
      lacks one). */
  function WithMeta(item: Record, order: Record, meta: seq<string>): (r: Record)
    ensures r.Keys == item.Keys + (set m | m in meta)
    ensures forall m :: m in meta ==> r[m] == Cell(order, m)
    ensures forall k :: k in item && k !in meta ==> r[k] == item[k]
  {
    item + map m | m in meta :: Cell(order, m)
  }

  /** The line items of all orders, order by order. */
  function AllItems(orders: seq<Order>): seq<Record>
  {
    if |orders| == 0 then [] else AllItems(orders[..|orders| - 1]) + orders[|orders| - 1].itens
  }

  /** The fields of the order each line item comes from, item by item. */
  function Owners(orders: seq<Order>): (os: seq<Record>)
    ensures |os| == |AllItems(orders)|
  {
    if |orders| == 0 then []
    else
      var o := orders[|orders| - 1];
      Owners(orders[..|orders| - 1]) + seq(|o.itens|, i requires 0 <= i < |o.itens| => o.fields)
  }

  /** Line item `k` and its owner come from one order of the list. */
  lemma {:induction false} OwnerHoldsItem(orders: seq<Order>, k: nat)
    requires k < |AllItems(orders)|
    ensures exists n :: 0 <= n < |orders| && AllItems(orders)[k] in orders[n].itens && Owners(orders)[k] == orders[n].fields
  {
    var init := orders[..|orders| - 1];
    var o := orders[|orders| - 1];
    if k < |AllItems(init)| {
      OwnerHoldsItem(init, k);
      var n :| 0 <= n < |init| && AllItems(init)[k] in init[n].itens && Owners(init)[k] == init[n].fields;
      assert orders[n] == init[n];
    } else {
      var i := k - |AllItems(init)|;
      assert AllItems(orders)[k] == o.itens[i];
    }
  }

  /** `json_normalize(orders, record_path=["itens"], meta=meta)`: one row per
      line item, in order, each being its item with its order's metadata. */
  function Explode(orders: seq<Order>, meta: seq<string>): (rows: seq<Record>)
    ensures |rows| == |AllItems(orders)|
    ensures forall k :: 0 <= k < |rows| ==> rows[k] == WithMeta(AllItems(orders)[k], Owners(orders)[k], meta)
    ensures forall i, m :: 0 <= i < |rows| && m in meta ==> m in rows[i]
  {
    if |orders| == 0 then []
    else
      var o := orders[|orders| - 1];
      var init := orders[..|orders| - 1];
      var before := Explode(init, meta);
      var rows := before + seq(|o.itens|, i requires 0 <= i < |o.itens| => WithMeta(o.itens[i], o.fields, meta));
      forall k | 0 <= k < |rows|
        ensures rows[k] == WithMeta(AllItems(orders)[k], Owners(orders)[k], meta)
      {
        ItemOwnerSnoc(orders, k);
      }
      rows
  }

  /** Line item `k` of a list of orders, and its owner, come from the last
      order when `k` is past the items of the others. */
  lemma ItemOwnerSnoc(orders: seq<Order>, k: nat)
    requires |orders| > 0 && k < |AllItems(orders)|
    ensures var init := orders[..|orders| - 1];
      var n := |AllItems(init)|;
      if k < n then AllItems(orders)[k] == AllItems(init)[k] && Owners(orders)[k] == Owners(init)[k]
      else (k - n < |orders[|orders| - 1].itens|
        && AllItems(orders)[k] == orders[|orders| - 1].itens[k - n] && Owners(orders)[k] == orders[|orders| - 1].fields)
  {
  }

  /** The first name of `names` that is in `keys`. */
  function FirstIn(names: seq<string>, keys: set<string>): (r: Option<string>)
    ensures r.None? <==> forall n :: n in names ==> n !in keys
    ensures r.Some? ==> r.value in names && r.value in keys
    ensures r.Some? ==> exists i :: 0 <= i < |names| && names[i] == r.value && forall j :: 0 <= j < i ==> names[j] !in keys
  {
    if |names| == 0 then None
    else if names[0] in keys then Some(names[0])
    else
      var r := FirstIn(names[1..], keys);
      assert forall n :: n in names ==> n == names[0] || n in names[1..];
      if r.Some? then
        var i :| 0 <= i < |names[1..]| && names[1..][i] == r.value && forall j :: 0 <= j < i ==> names[1..][j] !in keys;
        assert names[i + 1] == r.value && forall j :: 0 <= j < i + 1 ==> names[j] !in keys;
        r
      else r
  }

  /** `_normalize_sales`: the declared schema with no rows for an empty order
      list; otherwise the exploded items, unless a line item already has a
      key named like a metadata key, which `json_normalize` refuses. */
  function NormalizeSales(orders: seq<Order>, meta: seq<string>, schema: seq<string>): (r: Result<Table, ProcessError>)
    ensures |orders| == 0 ==> r == Ok(EmptyWithSchema(schema))
    ensures r.Err? ==> r.error.ConflictingMetadata? && r.error.name in meta && r.error.name in AllKeys(AllItems(orders))
    ensures r.Err? <==> |orders| > 0 && exists m :: m in meta && m in AllKeys(AllItems(orders))
    ensures |orders| > 0 && r.Ok? ==>
      && r.value.rows == Explode(orders, meta)
      && r.value.columns == AllKeys(AllItems(orders)) + (set m | m in meta)
  {
    if |orders| == 0 then Ok(EmptyWithSchema(schema))
    else
      var keys := AllKeys(AllItems(orders));
      match FirstIn(meta, keys)
      case Some(m) => Err(ConflictingMetadata(m))
      case None => Ok(Table(keys + (set m | m in meta), Explode(orders, meta)))
  }

  /** `_normalize_products` / `_normalize_stock`: the records as a table, or
      the declared schema with no rows when that table would be empty.
      Records are flat here, a nested field arriving under its dotted name
      (`produto.id`), as `json_normalize` produces it. The modular copy builds
      these tables with `pd.DataFrame(...)`, which does not flatten: this
      definition covers it only for records that are already flat. */
  function NormalizeRecords(rs: seq<Record>, schema: seq<string>): (t: Table)
    ensures IsEmpty(Table(AllKeys(rs), rs)) ==> t == EmptyWithSchema(schema)
    ensures !IsEmpty(Table(AllKeys(rs), rs)) ==> t == Table(AllKeys(rs), rs)
  {
    var t := Table(AllKeys(rs), rs);
    if IsEmpty(t) then EmptyWithSchema(schema) else t
  }

  // ---------------------------------------------------------------- join

  /** SQL `=` on join keys: NULL equals nothing. */
  predicate SqlEq(a: Value, b: Value)
  {
    a != Null && a == b
  }

  /** The rows of `rows` whose `key` equals `id` under SQL `=`, in order. */
  function Matches(rows: seq<Record>, key: string, id: Value): (hits: seq<Record>)
    ensures forall r :: r in hits <==> r in rows && SqlEq(id, Cell(r, key))
  {
    Filter(rows, (r: Record) => SqlEq(id, Cell(r, key)))
  }

  /** The right side of one `LEFT JOIN ... ON id = key`: the `col` value of
      every matching row, in order, or a single NULL when no row matches. */
  function Lookup(rows: seq<Record>, key: string, id: Value, col: string): (vs: seq<Value>)
    ensures |vs| >= 1
    ensures |Matches(rows, key, id)| == 0 ==> vs == [Null]
    ensures |Matches(rows, key, id)| > 0 ==>
      |vs| == |Matches(rows, key, id)| && forall i :: 0 <= i < |vs| ==> vs[i] == Cell(Matches(rows, key, id)[i], col)
    ensures (forall r :: r in rows ==> !SqlEq(id, Cell(r, key))) ==> vs == [Null]
  {
    var hits := Matches(rows, key, id);
    if |hits| == 0 then
      assert forall r :: r in rows ==> !SqlEq(id, Cell(r, key));
      [Null]
    else
      assert hits[0] in rows && SqlEq(id, Cell(hits[0], key));
      seq(|hits|, i requires 0 <= i < |hits| => Cell(hits[i], col))
  }

  /** A match is found: every matching row's value is looked up, and every
      non-NULL value looked up belongs to a matching row. */
  lemma LookupFindsMatches(rows: seq<Record>, key: string, id: Value, col: string)
    ensures forall r :: r in rows && SqlEq(id, Cell(r, key)) ==> Cell(r, col) in Lookup(rows, key, id, col)
    ensures forall v :: v in Lookup(rows, key, id, col) && v != Null ==>
      exists r :: r in rows && SqlEq(id, Cell(r, key)) && Cell(r, col) == v
  {
    var hits := Matches(rows, key, id);
    var vs := Lookup(rows, key, id, col);
    forall r | r in rows && SqlEq(id, Cell(r, key))
      ensures Cell(r, col) in vs
    {
      assert r in hits;
      var i :| 0 <= i < |hits| && hits[i] == r;
      assert vs[i] == Cell(r, col);
    }
    forall v | v in vs && v != Null
      ensures exists r :: r in rows && SqlEq(id, Cell(r, key)) && Cell(r, col) == v
    {
      var i :| 0 <= i < |vs| && vs[i] == v;
      assert hits[i] in hits;
    }
  }

  /** A sales row after both joins: `s.*`, `p.precoCusto`, `st.saldoFisico`. */
  datatype Joined = Joined(sale: Record, cost: Value, balance: Value)

  /** Every pairing of the sale with one cost and one balance. */
  function Pairings(s: Record, cs: seq<Value>, bs: seq<Value>): (js: seq<Joined>)
    ensures |js| == |cs| * |bs|
    ensures |cs| > 0 && |bs| > 0 ==> |js| > 0
    ensures forall j :: j in js ==> j.sale == s && j.cost in cs && j.balance in bs
    ensures forall c, b :: c in cs && b in bs ==> Joined(s, c, b) in js
  {
    if |cs| == 0 then []
    else
      var init := Pairings(s, cs[..|cs| - 1], bs);
      var row := seq(|bs|, i requires 0 <= i < |bs| => Joined(s, cs[|cs| - 1], bs[i]));
      var js := init + row;
      assert |js| == (|cs| - 1) * |bs| + |bs| == |cs| * |bs|;
      forall c, b | c in cs && b in bs
        ensures Joined(s, c, b) in js
      {
        if c == cs[|cs| - 1] {
          var i :| 0 <= i < |bs| && bs[i] == b;
          assert row[i] == Joined(s, c, b);
        } else {
          assert c in cs[..|cs| - 1] by {
            var k :| 0 <= k < |cs| && cs[k] == c;
            assert k < |cs| - 1;
            assert cs[..|cs| - 1][k] == c;
          }
        }
      }
      js
  }

  /** The number of rows one sales row becomes: matching products times
      matching stock rows, an unmatched side counting once. */
  function JoinWidth(s: Record, products: seq<Record>, stock: seq<Record>): nat
  {
    var pid := Cell(s, "produto.id");
    var p := |Matches(products, "id", pid)|;
    var st := |Matches(stock, "produto.id", pid)|;
    (if p == 0 then 1 else p) * (if st == 0 then 1 else st)
  }

  /** The rows one sales row becomes after the two left joins: one for every
      matching product paired with every matching stock row, NULL standing
      for a side with no match. */
  function JoinRow(s: Record, products: seq<Record>, stock: seq<Record>): (js: seq<Joined>)
    ensures |js| >= 1
    ensures forall j :: j in js ==> j.sale == s
  {
    var pid := Cell(s, "produto.id");
    Pairings(s, Lookup(products, "id", pid, "precoCusto"), Lookup(stock, "produto.id", pid, "saldoFisico"))
  }

  /** A sales row becomes as many rows as its matching products times its
      matching stock rows, an unmatched side counting once. */
  lemma JoinRowWidth(s: Record, products: seq<Record>, stock: seq<Record>)
    ensures |JoinRow(s, products, stock)| == JoinWidth(s, products, stock)
  {
    var pid := Cell(s, "produto.id");
    var cs := Lookup(products, "id", pid, "precoCusto");
    var bs := Lookup(stock, "produto.id", pid, "saldoFisico");
    assert |cs| == (if |Matches(products, "id", pid)| == 0 then 1 else |Matches(products, "id", pid)|);
    assert |bs| == (if |Matches(stock, "produto.id", pid)| == 0 then 1 else |Matches(stock, "produto.id", pid)|);
  }

  /** Each joined row carries one of the sale's looked-up costs and one of
      its looked-up balances. */
  lemma JoinRowValues(s: Record, products: seq<Record>, stock: seq<Record>, j: Joined)
    requires j in JoinRow(s, products, stock)
    ensures j.cost in Lookup(products, "id", Cell(s, "produto.id"), "precoCusto")
    ensures j.balance in Lookup(stock, "produto.id", Cell(s, "produto.id"), "saldoFisico")
  {
  }

  /** Every matching product meets every matching stock row: each such pair
      gives a joined row carrying that product's cost and that stock row's
      balance. */
  lemma MatchedPairIsJoined(s: Record, products: seq<Record>, stock: seq<Record>, p: Record, st: Record)
    requires p in products && SqlEq(Cell(s, "produto.id"), Cell(p, "id"))
    requires st in stock && SqlEq(Cell(s, "produto.id"), Cell(st, "produto.id"))
    ensures Joined(s, Cell(p, "precoCusto"), Cell(st, "saldoFisico")) in JoinRow(s, products, stock)
  {
    LookupFindsMatches(products, "id", Cell(s, "produto.id"), "precoCusto");
    LookupFindsMatches(stock, "produto.id", Cell(s, "produto.id"), "saldoFisico");
  }

  /** A sales row whose product matches no product row gets a NULL cost on
      every joined row, and one that matches no stock row a NULL balance. */
  lemma UnmatchedSideIsNull(s: Record, products: seq<Record>, stock: seq<Record>, j: Joined)
    requires j in JoinRow(s, products, stock)
    ensures (forall p :: p in products ==> !SqlEq(Cell(s, "produto.id"), Cell(p, "id"))) ==> j.cost == Null
    ensures (forall st :: st in stock ==> !SqlEq(Cell(s, "produto.id"), Cell(st, "produto.id"))) ==> j.balance == Null
  {
    JoinRowValues(s, products, stock, j);
  }

  /** The SQL query: every sales row, in order, each multiplied by its
      matches. */
  function Join(sales: seq<Record>, products: seq<Record>, stock: seq<Record>): seq<Joined>
  {
    if |sales| == 0 then [] else Join(sales[..|sales| - 1], products, stock) + JoinRow(sales[|sales| - 1], products, stock)
  }

  /** Every joined row comes from a sales row and is one of the rows that
      sales row becomes. */
  lemma {:induction false} JoinedRowsFromSales(sales: seq<Record>, products: seq<Record>, stock: seq<Record>)
    ensures forall j :: j in Join(sales, products, stock) ==> j.sale in sales && j in JoinRow(j.sale, products, stock)
  {
    if |sales| > 0 {
      var init := sales[..|sales| - 1];
      JoinedRowsFromSales(init, products, stock);
      assert forall s :: s in init ==> s in sales;
    }
  }

  /** No sales row is dropped: each gives at least one joined row. */
  lemma {:induction false} EverySaleJoined(sales: seq<Record>, products: seq<Record>, stock: seq<Record>)
    ensures |Join(sales, products, stock)| >= |sales|
    ensures forall k :: 0 <= k < |sales| ==> exists j :: j in Join(sales, products, stock) && j.sale == sales[k]
  {
    if |sales| > 0 {
      var init := sales[..|sales| - 1];
      var before := Join(init, products, stock);
      var row := JoinRow(sales[|sales| - 1], products, stock);
      EverySaleJoined(init, products, stock);
      assert Join(sales, products, stock) == before + row;
      forall k | 0 <= k < |sales|
        ensures exists j: Joined :: j in before + row && j.sale == sales[k]
      {
        if k == |sales| - 1 {
          assert row[0] in before + row;
        } else {
          assert init[k] == sales[k];
          var j :| j in before && j.sale == init[k];
          assert j in before + row;
        }
      }
    }
  }

  /** The left join, with what it keeps of the sales table. */
  function LeftJoin(sales: seq<Record>, products: seq<Record>, stock: seq<Record>): (js: seq<Joined>)
    ensures |js| >= |sales|
    ensures forall j :: j in js ==> j.sale in sales && j in JoinRow(j.sale, products, stock)
    ensures forall s :: s in sales ==> exists j :: j in js && j.sale == s
  {
    JoinedRowsFromSales(sales, products, stock);
    EverySaleJoined(sales, products, stock);
    var js := Join(sales, products, stock);
    forall s | s in sales
      ensures exists j :: j in js && j.sale == s
    {
      var k :| 0 <= k < |sales| && sales[k] == s;
    }
    js
  }

  /** The join distributes over the sales table: the rows of `a + b` are
      those of `a` followed by those of `b`. */
  lemma {:induction false} LeftJoinAppend(a: seq<Record>, b: seq<Record>, products: seq<Record>, stock: seq<Record>)
    ensures LeftJoin(a + b, products, stock) == LeftJoin(a, products, stock) + LeftJoin(b, products, stock)
  {
    JoinAppend(a, b, products, stock);
  }

  lemma {:induction false} JoinAppend(a: seq<Record>, b: seq<Record>, products: seq<Record>, stock: seq<Record>)
    ensures Join(a + b, products, stock) == Join(a, products, stock) + Join(b, products, stock)
    decreases |b|
  {
    if |b| == 0 {
      assert a + b == a;
    } else {
      var bi := b[..|b| - 1];
      var last := b[|b| - 1];
      SplitLast(a, b);
      JoinSnoc(a + bi, last, products, stock);
      JoinSnoc(bi, last, products, stock);
      JoinAppend(a, bi, products, stock);
      AppendAssoc(Join(a, products, stock), Join(bi, products, stock), JoinRow(last, products, stock));
    }
  }

  /** One more sales row adds its own joined rows at the end. */
  lemma JoinSnoc(sales: seq<Record>, s: Record, products: seq<Record>, stock: seq<Record>)
    ensures Join(sales + [s], products, stock) == Join(sales, products, stock) + JoinRow(s, products, stock)
  {
    assert (sales + [s])[..|sales|] == sales;
  }

  /** A single sales row gives exactly its own `JoinRow`; with
      `LeftJoinAppend` this fixes the join of every table. */
  lemma LeftJoinSingle(s: Record, products: seq<Record>, stock: seq<Record>)
    ensures LeftJoin([s], products, stock) == JoinRow(s, products, stock)
  {
    assert [s][..0] == [];
    assert LeftJoin([s], products, stock) == Join([s], products, stock) == Join([], products, stock) + JoinRow(s, products, stock);
  }

  /** The binder check of the query: every column it names must exist. */
  function CheckColumns(sales: Table, products: Table, stock: Table): (r: Option<ProcessError>)
    ensures r.None? <==>
      "produto.id" in sales.columns && "id" in products.columns && "precoCusto" in products.columns
      && "produto.id" in stock.columns && "saldoFisico" in stock.columns
  {
    if "produto.id" !in sales.columns then Some(MissingColumn("sales", "produto.id"))
    else if "id" !in products.columns then Some(MissingColumn("products", "id"))
    else if "precoCusto" !in products.columns then Some(MissingColumn("products", "precoCusto"))
    else if "produto.id" !in stock.columns then Some(MissingColumn("stock", "produto.id"))
    else if "saldoFisico" !in stock.columns then Some(MissingColumn("stock", "saldoFisico"))
    else None
  }

  // ---------------------------------------------------------------- enrich

  /** `_derive_channel` / `_derive_product_name` on one row: the first
      candidate that is a COLUMN of the frame decides, with its nulls filled
      by the default; a later candidate is never consulted, even on rows
      where the chosen column is null. */
  function Derive(candidates: seq<string>, default: string, columns: set<string>, row: Record): (v: Value)
    ensures FirstIn(candidates, columns).None? ==> v == Text(default)
    ensures FirstIn(candidates, columns).Some? ==>
      var c := FirstIn(candidates, columns).value;
      v == (if Cell(row, c) == Null then Text(default) else Cell(row, c))
  {
    match FirstIn(candidates, columns)
    case None => Text(default)
    case Some(c) => if Cell(row, c) == Null then Text(default) else Cell(row, c)
  }

  /** One row of the enriched table. */
  datatype SaleRow = SaleRow(
    sale: Record,
    productId: Value,
    when: Option<int>,
    productName: Value,
    channel: Value,
    valorVenda: real,
    quantidade: real,
    precoCusto: real,
    saldoFisico: real,
    itemTotal: real,
    margemUnitaria: real,
    margemTotal: real,
    mediaVendaDiaria: real,
    diasCobertura: Option<real>)

  /** The row's derived money columns agree with its price, cost and
      quantity: `item_total`, `margem_unitaria`, `margem_total`. */
  predicate Totals(r: SaleRow)
  {
    && r.itemTotal == r.valorVenda * r.quantidade
    && r.margemUnitaria == r.valorVenda - r.precoCusto
    && r.margemTotal == r.margemUnitaria * r.quantidade
  }

  /** Merging in the average leaves the money columns as they were. */
  lemma TotalsKept(r: SaleRow, m: real, c: Option<real>)
    requires Totals(r)
    ensures Totals(r.(mediaVendaDiaria := m, diasCobertura := c))
  {
  }

  /** The columns a row takes from its sales row: the product id, the
      parsed date, the coerced price and quantity, and the derived name and
      channel. */
  predicate FromSale(r: SaleRow, sale: Record, columns: set<string>)
  {
    && r.sale == sale
    && r.productId == Cell(sale, "produto.id")
    && r.when == ToTime(Cell(sale, "data"))
    && r.valorVenda == ToNumber(Cell(sale, "valor"))
    && r.quantidade == ToNumber(Cell(sale, "quantidade"))
    && r.productName == Derive(ProductNameCandidates, ProductNameDefault, columns, sale)
    && r.channel == Derive(ChannelCandidates, ChannelDefault, columns, sale)
  }

  /** A row whose money columns are computed from its price, quantity and
      cost, with no daily average yet. */
  function Priced(sale: Record, productId: Value, when: Option<int>, name: Value, channel: Value,
                  valor: real, qty: real, cost: real, balance: real): (r: SaleRow)
    ensures Totals(r)
    ensures r.sale == sale && r.productId == productId && r.when == when
    ensures r.productName == name && r.channel == channel
    ensures r.valorVenda == valor && r.quantidade == qty && r.precoCusto == cost && r.saldoFisico == balance
  {
    SaleRow(sale, productId, when, name, channel, valor, qty, cost, balance,
            valor * qty, valor - cost, (valor - cost) * qty, 0.0, None)
  }

  /** The per-row columns, before the daily average is merged in: price,
      quantity and date come from the sale, cost and balance from the join
      (0 for NULL), name and channel from the first candidate column. */
  function Enrich(j: Joined, columns: set<string>): (r: SaleRow)
    ensures FromSale(r, j.sale, columns)
    ensures r.precoCusto == ToNumber(j.cost) && r.saldoFisico == ToNumber(j.balance)
    ensures j.cost == Null ==> r.precoCusto == 0.0
    ensures j.balance == Null ==> r.saldoFisico == 0.0
    ensures Totals(r)
  {
    Priced(
      j.sale,
      Cell(j.sale, "produto.id"),
      ToTime(Cell(j.sale, "data")),
      Derive(ProductNameCandidates, ProductNameDefault, columns, j.sale),
      Derive(ChannelCandidates, ChannelDefault, columns, j.sale),
      ToNumber(Cell(j.sale, "valor")),
      ToNumber(Cell(j.sale, "quantidade")),
      ToNumber(j.cost),
      ToNumber(j.balance))
  }

  // ---------------------------------------------------------------- daily average

  /** One row of the 90-day window, reduced to its calendar day and quantity. */
  datatype DayQty = DayQty(day: int, qty: real)

  function TotalQty(ps: seq<DayQty>): real
  {
    if |ps| == 0 then 0.0 else TotalQty(ps[..|ps| - 1]) + ps[|ps| - 1].qty
  }

  /** The summed quantity of day `d` (one group of `groupby([id, date]).sum()`). */
  function DayTotal(ps: seq<DayQty>, d: int): real
  {
    if |ps| == 0 then 0.0
    else DayTotal(ps[..|ps| - 1], d) + (if ps[|ps| - 1].day == d then ps[|ps| - 1].qty else 0.0)
  }

  predicate Distinct(ds: seq<int>)
  {
    forall i, j :: 0 <= i < j < |ds| ==> ds[i] != ds[j]
  }

  /** Some row of `ps` falls on day `d`. */
  predicate HasDay(ps: seq<DayQty>, d: int)
  {
    exists i :: 0 <= i < |ps| && ps[i].day == d
  }

  lemma HasDaySnoc(qs: seq<DayQty>, x: DayQty, d: int)
    ensures HasDay(qs + [x], d) <==> HasDay(qs, d) || x.day == d
  {
    var ps := qs + [x];
    if HasDay(ps, d) && x.day != d {
      var i :| 0 <= i < |ps| && ps[i].day == d;
      assert qs[i].day == d;
    }
    if HasDay(qs, d) {
      var i :| 0 <= i < |qs| && qs[i].day == d;
      assert ps[i].day == d;
    }
    if x.day == d {
      assert ps[|qs|].day == d;
    }
  }

  /** The days with at least one row, each once, in order of first appearance. */
  function SellingDays(ps: seq<DayQty>): (ds: seq<int>)
    ensures Distinct(ds)
    ensures forall d :: d in ds <==> HasDay(ps, d)
    ensures |ds| == 0 <==> |ps| == 0
  {
    if |ps| == 0 then []
    else
      var qs := ps[..|ps| - 1];
      var init := SellingDays(qs);
      var d := ps[|ps| - 1].day;
      assert ps == qs + [ps[|ps| - 1]];
      forall e
        ensures HasDay(ps, e) <==> HasDay(qs, e) || e == d
      {
        HasDaySnoc(qs, ps[|ps| - 1], e);
      }
      if d in init then init else init + [d]
  }

  /** The sum of the day totals of `ds`. */
  function SumOverDays(ps: seq<DayQty>, ds: seq<int>): real
  {
    if |ds| == 0 then 0.0 else SumOverDays(ps, ds[..|ds| - 1]) + DayTotal(ps, ds[|ds| - 1])
  }

  lemma {:induction false} DayTotalAbsent(ps: seq<DayQty>, d: int)
    requires forall i :: 0 <= i < |ps| ==> ps[i].day != d
    ensures DayTotal(ps, d) == 0.0
  {
    if |ps| > 0 {
      DayTotalAbsent(ps[..|ps| - 1], d);
    }
  }

  /** Adding one row to the data adds its quantity to the sum over a list of
      distinct days exactly when its day is listed. */
  lemma {:induction false} SumOverDaysStep(qs: seq<DayQty>, x: DayQty, ds: seq<int>)
    requires Distinct(ds)
    ensures SumOverDays(qs + [x], ds) == SumOverDays(qs, ds) + (if x.day in ds then x.qty else 0.0)
  {
    var ps := qs + [x];
    if |ds| > 0 {
      var init := ds[..|ds| - 1];
      assert Distinct(init);
      SumOverDaysStep(qs, x, init);
      assert ps[..|ps| - 1] == qs;
      assert x.day in ds <==> x.day in init || x.day == ds[|ds| - 1];
      assert x.day == ds[|ds| - 1] ==> x.day !in init;
    }
  }

  /** Summing the per-day totals over the selling days gives the total
      quantity: grouping by day loses and duplicates nothing. */
  lemma {:induction false} SumOverSellingDays(ps: seq<DayQty>)
    ensures SumOverDays(ps, SellingDays(ps)) == TotalQty(ps)
  {
    if |ps| > 0 {
      var qs := ps[..|ps| - 1];
      var x := ps[|ps| - 1];
      assert ps == qs + [x];
      var ds := SellingDays(qs);
      SumOverSellingDays(qs);
      SumOverDaysStep(qs, x, ds);
      if x.day !in ds {
        assert forall i :: 0 <= i < |qs| ==> qs[i].day != x.day;
        DayTotalAbsent(qs, x.day);
        assert SellingDays(ps) == ds + [x.day];
        assert (ds + [x.day])[..|ds + [x.day]| - 1] == ds;
      }
    }
  }

  /** The average quantity per OBSERVED selling day: the mean over the days
      with at least one row of that day's summed quantity, and 0 with no
      such day. Days without sales are not counted as zero. */
  function ObservedMean(ps: seq<DayQty>): (m: real)
    ensures |ps| == 0 ==> m == 0.0
    ensures |ps| > 0 ==> m == TotalQty(ps) / (|SellingDays(ps)| as real)
  {
    var days := SellingDays(ps);
    if |days| == 0 then 0.0
    else
      SumOverSellingDays(ps);
      SumOverDays(ps, days) / (|days| as real)
  }

  /** The instant at which the trailing window opens. */
  function WindowStart(now: int): int
  {
    now - WindowDays * SecondsPerDay
  }

  /** The window rows of product `id`, as (day, quantity). A row whose date
      did not parse is outside every window. */
  function DailyPoints(rows: seq<SaleRow>, id: Value, start: int): seq<DayQty>
  {
    if |rows| == 0 then []
    else
      var r := rows[|rows| - 1];
      DailyPoints(rows[..|rows| - 1], id, start)
        + (if r.productId == id && r.when.Some? && r.when.value >= start then [DayQty(DayOf(r.when.value), r.quantidade)] else [])
  }

  /** `media_venda_diaria` of product `id`: rows without a product id form no
      group and get 0. */
  function MediaVendaDiaria(rows: seq<SaleRow>, id: Value, start: int): real
  {
    if id == Null then 0.0 else ObservedMean(DailyPoints(rows, id, start))
  }

  /** `dias_cobertura`: stock over daily sales when the average is positive,
      otherwise no estimate at all (not an infinite one). */
  function Coverage(saldo: real, media: real): (c: Option<real>)
    ensures c.Some? <==> media > 0.0
    ensures c.Some? ==> c.value * media == saldo
  {
    if media > 0.0 then Some(saldo / media) else None
  }

  /** The columns a row shares with its enrichment: the ones the average reads. */
  predicate SameBasis(a: SaleRow, b: SaleRow)
  {
    a.productId == b.productId && a.when == b.when && a.quantidade == b.quantidade
  }

  lemma {:induction false} DailyPointsSameBasis(a: seq<SaleRow>, b: seq<SaleRow>, id: Value, start: int)
    requires |a| == |b| && forall i :: 0 <= i < |a| ==> SameBasis(a[i], b[i])
    ensures DailyPoints(a, id, start) == DailyPoints(b, id, start)
  {
    if |a| > 0 {
      DailyPointsSameBasis(a[..|a| - 1], b[..|b| - 1], id, start);
    }
  }

  /** Merging the per-product average into every row and deriving coverage. */
  function WithAverages(base: seq<SaleRow>, start: int): (rows: seq<SaleRow>)
    ensures |rows| == |base|
    ensures forall i :: 0 <= i < |rows| ==> SameBasis(rows[i], base[i])
    ensures forall i :: 0 <= i < |rows| ==>
      rows[i] == base[i].(mediaVendaDiaria := rows[i].mediaVendaDiaria, diasCobertura := rows[i].diasCobertura)
    ensures forall i :: 0 <= i < |rows| ==>
      && rows[i].mediaVendaDiaria == MediaVendaDiaria(rows, rows[i].productId, start)
      && rows[i].diasCobertura == Coverage(rows[i].saldoFisico, rows[i].mediaVendaDiaria)
  {
    var rows := seq(|base|, i requires 0 <= i < |base| =>
      var m := MediaVendaDiaria(base, base[i].productId, start);
      base[i].(mediaVendaDiaria := m, diasCobertura := Coverage(base[i].saldoFisico, m)));
    forall id: Value
      ensures DailyPoints(rows, id, start) == DailyPoints(base, id, start)
    {
      DailyPointsSameBasis(rows, base, id, start);
    }
    rows
  }

  // ---------------------------------------------------------------- process

  /** The output of `process`: the empty frame, or the enriched rows. */
  datatype Processed = NoRows | Rows(rows: seq<SaleRow>)

  /** The row's cost and balance are those of one of the rows its sale
      became in the join. */
  predicate CostFromJoin(r: SaleRow, prods: Table, stk: Table)
  {
    exists j :: j in JoinRow(r.sale, prods.rows, stk.rows) && r.precoCusto == ToNumber(j.cost) && r.saldoFisico == ToNumber(j.balance)
  }

  /** What `process` promises of each output row: it comes from a sales
      row, whose price, quantity, date, name and channel it carries; its
      cost and balance come from the join; its money columns agree; its
      average is the observed-day average of its product over the whole
      output, and its coverage is derived from that average. */
  predicate Enriched(rows: seq<SaleRow>, sales: Table, prods: Table, stk: Table, now: int)
  {
    var columns := sales.columns + {"preco_custo", "saldo_fisico"};
    forall i :: 0 <= i < |rows| ==>
      && rows[i].sale in sales.rows
      && FromSale(rows[i], rows[i].sale, columns)
      && CostFromJoin(rows[i], prods, stk)
      && Totals(rows[i])
      && rows[i].mediaVendaDiaria == MediaVendaDiaria(rows, rows[i].productId, WindowStart(now))
      && rows[i].diasCobertura == Coverage(rows[i].saldoFisico, rows[i].mediaVendaDiaria)
  }

  /** The rows are the joined rows, one for one and in order: each carries
      its joined row's sale, cost and balance. */
  predicate FollowsJoin(rows: seq<SaleRow>, joined: seq<Joined>)
  {
    && |rows| == |joined|
    && forall i :: 0 <= i < |rows| ==>
         && rows[i].sale == joined[i].sale
         && rows[i].precoCusto == ToNumber(joined[i].cost) && rows[i].saldoFisico == ToNumber(joined[i].balance)
  }

  /** Every sales row has at least one output row. */
  predicate CoversSales(rows: seq<SaleRow>, sales: Table)
  {
    forall s :: s in sales.rows ==> exists i :: 0 <= i < |rows| && rows[i].sale == s
  }

  /** `Enrich` on every joined row, in order. */
  function EnrichJoined(joined: seq<Joined>, columns: set<string>): (base: seq<SaleRow>)
    ensures |base| == |joined|
    ensures forall i :: 0 <= i < |base| ==>
      && FromSale(base[i], joined[i].sale, columns) && Totals(base[i])
      && base[i].precoCusto == ToNumber(joined[i].cost) && base[i].saldoFisico == ToNumber(joined[i].balance)
  {
    seq(|joined|, i requires 0 <= i < |joined| => Enrich(joined[i], columns))
  }

  /** Merging in the average keeps what a row took from its sale and its
      join. */
  lemma AverageKeepsRow(e: SaleRow, r: SaleRow, j: Joined, columns: set<string>, prods: Table, stk: Table)
    requires r == e.(mediaVendaDiaria := r.mediaVendaDiaria, diasCobertura := r.diasCobertura)
    requires FromSale(e, j.sale, columns) && Totals(e)
    requires j in JoinRow(j.sale, prods.rows, stk.rows)
    requires e.precoCusto == ToNumber(j.cost) && e.saldoFisico == ToNumber(j.balance)
    ensures FromSale(r, j.sale, columns) && Totals(r) && CostFromJoin(r, prods, stk)
  {
    TotalsKept(e, r.mediaVendaDiaria, r.diasCobertura);
  }

  /** Rows made one for one from the joined rows keep every sales row the
      join kept. */
  lemma SalesKeptInOrder(sales: seq<Record>, joined: seq<Joined>, rows: seq<SaleRow>)
    requires forall s :: s in sales ==> exists j :: j in joined && j.sale == s
    requires |rows| == |joined| && forall i :: 0 <= i < |rows| ==> rows[i].sale == joined[i].sale
    ensures forall s :: s in sales ==> exists i :: 0 <= i < |rows| && rows[i].sale == s
  {
    forall s | s in sales
      ensures exists i :: 0 <= i < |rows| && rows[i].sale == s
    {
      var j :| j in joined && j.sale == s;
      var i :| 0 <= i < |joined| && joined[i] == j;
      assert rows[i].sale == s;
    }
  }

  /** The joined and enriched rows of a non-empty sales table. */
  function EnrichAll(sales: Table, prods: Table, stk: Table, now: int): (rows: seq<SaleRow>)
    ensures |rows| >= |sales.rows|
    ensures FollowsJoin(rows, LeftJoin(sales.rows, prods.rows, stk.rows))
    ensures Enriched(rows, sales, prods, stk, now)
    ensures CoversSales(rows, sales)
  {
    var joined := LeftJoin(sales.rows, prods.rows, stk.rows);
    var columns := sales.columns + {"preco_custo", "saldo_fisico"};
    var base := EnrichJoined(joined, columns);
    var rows := WithAverages(base, WindowStart(now));
    forall i | 0 <= i < |rows|
      ensures rows[i].sale == joined[i].sale && rows[i].sale in sales.rows
      ensures rows[i].precoCusto == ToNumber(joined[i].cost) && rows[i].saldoFisico == ToNumber(joined[i].balance)
      ensures FromSale(rows[i], rows[i].sale, columns) && CostFromJoin(rows[i], prods, stk) && Totals(rows[i])
    {
      assert joined[i] in joined;
      AverageKeepsRow(base[i], rows[i], joined[i], columns, prods, stk);
    }
    SalesKeptInOrder(sales.rows, joined, rows);
    rows
  }

  /** One sale gives one enriched row per joined row: as many as its
      matching products times its matching stock rows, an unmatched side
      counting once. */
  lemma OneSaleRowCount(s: Record, sales: Table, prods: Table, stk: Table, now: int)
    requires sales.rows == [s]
    ensures |EnrichAll(sales, prods, stk, now)| == JoinWidth(s, prods.rows, stk.rows)
  {
    LeftJoinSingle(s, prods.rows, stk.rows);
    JoinRowWidth(s, prods.rows, stk.rows);
  }

  /** `process(sales, products, stock)` at instant `now`. */
  function Process(orders: seq<Order>, products: seq<Record>, stock: seq<Record>,
                   meta: seq<string>, schema: seq<string>, now: int): (r: Result<Processed, ProcessError>)
    ensures |orders| == 0 ==> r == Ok(NoRows)
    // it fails iff normalising fails or, with some sales, the query names a
    // missing column or the sales have no `valor` or no `quantidade` column
    ensures r.Err? <==>
      || NormalizeSales(orders, meta, schema).Err?
      || (&& !IsEmpty(NormalizeSales(orders, meta, schema).value)
          && (|| CheckColumns(NormalizeSales(orders, meta, schema).value,
                              NormalizeRecords(products, ProductsSchema), NormalizeRecords(stock, StockSchema)).Some?
              || "valor" !in NormalizeSales(orders, meta, schema).value.columns
              || "quantidade" !in NormalizeSales(orders, meta, schema).value.columns))
    // the empty frame comes back exactly for an empty sales frame
    ensures r.Ok? && r.value.NoRows? <==> NormalizeSales(orders, meta, schema).Ok? && IsEmpty(NormalizeSales(orders, meta, schema).value)
    ensures r.Ok? && r.value.Rows? ==>
      && NormalizeSales(orders, meta, schema).Ok?
      && |r.value.rows| >= |NormalizeSales(orders, meta, schema).value.rows| > 0
      && FollowsJoin(r.value.rows, LeftJoin(NormalizeSales(orders, meta, schema).value.rows,
                                            NormalizeRecords(products, ProductsSchema).rows, NormalizeRecords(stock, StockSchema).rows))
      && Enriched(r.value.rows, NormalizeSales(orders, meta, schema).value,
                  NormalizeRecords(products, ProductsSchema), NormalizeRecords(stock, StockSchema), now)
      && CoversSales(r.value.rows, NormalizeSales(orders, meta, schema).value)
  {
    match NormalizeSales(orders, meta, schema)
    case Err(e) => Err(e)
    case Ok(sales) =>
      var prods := NormalizeRecords(products, ProductsSchema);
      var stk := NormalizeRecords(stock, StockSchema);
      if IsEmpty(sales) then Ok(NoRows)
      else
        match CheckColumns(sales, prods, stk)
        case Some(e) => Err(e)
        case None =>
          match CheckCoerced(sales)
          case Some(e) => Err(e)
          case None => Ok(Rows(EnrichAll(sales, prods, stk, now)))
  }

  /** `pd.to_numeric(df.get(c), errors="coerce").fillna(0)` needs the joined
      frame to have column `c`: `valor` and `quantidade` come only from the
      sales rows, while `preco_custo` and `saldo_fisico` are named by the
      query itself. */
  function CheckCoerced(sales: Table): (r: Option<ProcessError>)
    ensures r.None? <==> "valor" in sales.columns && "quantidade" in sales.columns
    ensures r.Some? ==> r.value.NoSuchColumn? && r.value.name in {"valor", "quantidade"} && r.value.name !in sales.columns
  {
    if "valor" !in sales.columns then Some(NoSuchColumn("valor"))
    else if "quantidade" !in sales.columns then Some(NoSuchColumn("quantidade"))
    else None
  }

  /** The declared schemas of empty product and stock lists carry the join
      columns, so empty products or stock never make the query fail. */
  lemma EmptyLookupsBindColumns(sales: Table)
    requires "produto.id" in sales.columns
    ensures CheckColumns(sales, NormalizeRecords([], ProductsSchema), NormalizeRecords([], StockSchema)).None?
  {
  }

  // ---------------------------------------------------------------- dead stock

  /** The date window of the dead-stock filter; `end` absent means open-ended. */
  datatype Window = Window(start: int, end: Option<int>)

  predicate InWindow(t: Option<int>, w: Window)
  {
    t.Some? && w.start <= t.value && (w.end.None? || t.value <= w.end.value)
  }

  /** The modular copy's window: the trailing 90 days, with no upper end. */
  function Trailing90(now: int): Window
  {
    Window(WindowStart(now), None)
  }

  /** `qtde_vendida`: the quantity sold of product `id` inside the window;
      rows without a product id form no group and count 0. */
  function QtySold(rows: seq<SaleRow>, id: Value, w: Window): real
  {
    if id == Null then 0.0
    else SumOf(Filter(rows, (r: SaleRow) => r.productId == id && InWindow(r.when, w)), (r: SaleRow) => r.quantidade)
  }

  /** The dead-stock test on a row of `rows`: stock on hand, and nothing of
      its product sold in the window. */
  function Dead(rows: seq<SaleRow>, w: Window): SaleRow -> bool
  {
    (x: SaleRow) => x.saldoFisico > 0.0 && QtySold(rows, x.productId, w) == 0.0
  }

  /** `estoque_parado`: the rows with stock on hand and nothing sold in the
      window, each as often as it occurs; an empty frame is returned as it is. */
  function EstoqueParado(p: Processed, w: Window): (r: Processed)
    ensures p.NoRows? ==> r == p
    ensures p.Rows? ==> r.Rows? && forall x :: x in r.rows <==>
      x in p.rows && x.saldoFisico > 0.0 && QtySold(p.rows, x.productId, w) == 0.0
    // every copy of a dead row is kept, and no copy of a live one
    ensures p.Rows? ==> forall x ::
      multiset(r.rows)[x] == if x.saldoFisico > 0.0 && QtySold(p.rows, x.productId, w) == 0.0 then multiset(p.rows)[x] else 0
    ensures p.Rows? ==> |r.rows| == Count(p.rows, Dead(p.rows, w))
  {
    match p
    case NoRows => NoRows
    case Rows(rows) =>
      var dead := Filter(rows, Dead(rows, w));
      forall x
        ensures multiset(dead)[x] == (if x.saldoFisico > 0.0 && QtySold(rows, x.productId, w) == 0.0 then multiset(rows)[x] else 0)
      {
        FilterMultiplicity(rows, Dead(rows, w), x);
      }
      Rows(dead)
  }

  // ---------------------------------------------------------------- properties

  /** With non-negative quantities, a product that sold a positive quantity
      inside the window has no row in the dead-stock result. */
  lemma SoldInWindowIsNotDead(p: Processed, w: Window, sold: SaleRow, x: SaleRow)
    requires p.Rows? && sold in p.rows && sold.productId != Null
    requires sold.quantidade > 0.0 && InWindow(sold.when, w)
    requires forall r :: r in p.rows ==> r.quantidade >= 0.0
    requires x.productId == sold.productId
    ensures x !in EstoqueParado(p, w).rows
  {
    var hits := Filter(p.rows, (r: SaleRow) => r.productId == sold.productId && InWindow(r.when, w));
    assert sold in hits;
    var k :| 0 <= k < |hits| && hits[k] == sold;
    SumOfPositive(hits, (r: SaleRow) => r.quantidade, k);
  }

  /** A product whose window rows all have quantity 0 and that has stock is
      dead stock, row by row. */
  lemma UnsoldWithStockIsDead(p: Processed, w: Window, x: SaleRow)
    requires p.Rows? && x in p.rows && x.saldoFisico > 0.0
    requires forall r :: r in p.rows && r.productId == x.productId && InWindow(r.when, w) ==> r.quantidade == 0.0
    ensures x in EstoqueParado(p, w).rows
  {
    if x.productId != Null {
      var hits := Filter(p.rows, (r: SaleRow) => r.productId == x.productId && InWindow(r.when, w));
      assert forall i :: 0 <= i < |hits| ==> hits[i] in hits;
      SumOfZero(hits, (r: SaleRow) => r.quantidade);
    }
  }

  /** In the single-file dashboard `canalVenda` is copied from every order
      into the sales table, so it is always one of its columns. */
  lemma ProductionSalesCarryCanalVenda(orders: seq<Order>)
    requires NormalizeSales(orders, ProductionMeta, ProductionSalesSchema).Ok?
    ensures "canalVenda" in NormalizeSales(orders, ProductionMeta, ProductionSalesSchema).value.columns
  {
    assert "canalVenda" in ProductionMeta;
    assert "canalVenda" in ProductionSalesSchema;
  }

  /** With `canalVenda` a column of the sales table, the channel of every
      enriched row is that value or "Indefinido": the store name and
      marketplace columns are never consulted. */
  lemma ChannelComesFromCanalVenda(sales: Table, prods: Table, stk: Table, now: int)
    requires "canalVenda" in sales.columns
    ensures var rows := EnrichAll(sales, prods, stk, now);
      forall i :: 0 <= i < |rows| ==>
        rows[i].channel ==
          (if Cell(rows[i].sale, "canalVenda") == Null then Text(ChannelDefault) else Cell(rows[i].sale, "canalVenda"))
  {
    assert FirstIn(ChannelCandidates, sales.columns + {"preco_custo", "saldo_fisico"}) == Some("canalVenda");
  }

  /** A sale whose product matches no product row gets cost 0, and one that
      matches no stock row gets balance 0 (never null). */
  lemma UnmatchedSaleGetsZero(s: Record, products: seq<Record>, stock: seq<Record>, columns: set<string>, j: Joined)
    requires j in JoinRow(s, products, stock)
    requires forall p :: p in products ==> !SqlEq(Cell(s, "produto.id"), Cell(p, "id"))
    requires forall st :: st in stock ==> !SqlEq(Cell(s, "produto.id"), Cell(st, "produto.id"))
    ensures Enrich(j, columns).precoCusto == 0.0 && Enrich(j, columns).saldoFisico == 0.0
  {
    UnmatchedSideIsNull(s, products, stock, j);
  }

  /** Three sales of quantities 2, 3 and 5 on three different days average
      10/3 per observed day, not 10/90. */
  lemma ThreeSellingDays()
    ensures ObservedMean([DayQty(1, 2.0), DayQty(2, 3.0), DayQty(3, 5.0)]) == 10.0 / 3.0
  {
    var ps := [DayQty(1, 2.0), DayQty(2, 3.0), DayQty(3, 5.0)];
    assert ps[..2] == [DayQty(1, 2.0), DayQty(2, 3.0)];
    assert ps[..2][..1] == [DayQty(1, 2.0)];
    assert SellingDays(ps) == [1, 2, 3];
    assert TotalQty(ps[..2][..1]) == 2.0;
    assert TotalQty(ps[..2]) == 5.0;
    assert TotalQty(ps) == 10.0;
  }
}

=== FILE: seqs.dfy ===
/** Sums, counts and filters over sequences: the column reductions
    (`.sum()`, `.shape[0]`, boolean masks) the analytics code applies to its
    tables. */
module Seqs {

  /** The sum of `f` over `xs` (`df[col].sum()`; 0 on an empty table). */
  function SumOf<T>(xs: seq<T>, f: T -> real): real
  {
    if |xs| == 0 then 0.0 else SumOf(xs[..|xs| - 1], f) + f(xs[|xs| - 1])
  }

  /** The rows of `xs` that satisfy `p`, in their original order. */
  function Filter<T(!new)>(xs: seq<T>, p: T -> bool): (r: seq<T>)
    ensures |r| <= |xs|
    ensures forall x :: x in r <==> x in xs && p(x)
  {
    if |xs| == 0 then []
    else
      var init := Filter(xs[..|xs| - 1], p);
      assert forall x :: x in xs <==> x in xs[..|xs| - 1] || x == xs[|xs| - 1];
      if p(xs[|xs| - 1]) then init + [xs[|xs| - 1]] else init
  }

  /** The number of rows of `xs` that satisfy `p`. */
  function Count<T(!new)>(xs: seq<T>, p: T -> bool): nat
  {
    |Filter(xs, p)|
  }

  /** Filters that agree on every element of `xs` keep the same rows. */
  lemma {:induction false} FilterCongruent<T(!new)>(xs: seq<T>, p: T -> bool, q: T -> bool)
    requires forall i :: 0 <= i < |xs| ==> p(xs[i]) == q(xs[i])
    ensures Filter(xs, p) == Filter(xs, q)
  {
    if |xs| > 0 {
      FilterCongruent(xs[..|xs| - 1], p, q);
    }
  }

  /** No row satisfies `p`: the count is 0. */
  lemma {:induction false} CountNone<T(!new)>(xs: seq<T>, p: T -> bool)
    requires forall i :: 0 <= i < |xs| ==> !p(xs[i])
    ensures Count(xs, p) == 0
  {
    if |xs| > 0 {
      CountNone(xs[..|xs| - 1], p);
    }
  }

  lemma {:induction false} SumOfAppend<T>(a: seq<T>, b: seq<T>, f: T -> real)
    ensures SumOf(a + b, f) == SumOf(a, f) + SumOf(b, f)
    decreases |b|
  {
    if |b| == 0 {
      assert a + b == a;
    } else {
      assert (a + b)[..|a + b| - 1] == a + b[..|b| - 1];
      SumOfAppend(a, b[..|b| - 1], f);
    }
  }

  /** A sum of non-negative terms is non-negative. */
  lemma {:induction false} SumOfNonNegative<T>(xs: seq<T>, f: T -> real)
    requires forall i :: 0 <= i < |xs| ==> f(xs[i]) >= 0.0
    ensures SumOf(xs, f) >= 0.0
  {
    if |xs| > 0 {
      SumOfNonNegative(xs[..|xs| - 1], f);
    }
  }

  /** Every row satisfies `p`: all are kept. */
  lemma {:induction false} FilterAll<T(!new)>(xs: seq<T>, p: T -> bool)
    requires forall i :: 0 <= i < |xs| ==> p(xs[i])
    ensures Filter(xs, p) == xs
  {
    if |xs| > 0 {
      FilterAll(xs[..|xs| - 1], p);
      assert xs[..|xs| - 1] + [xs[|xs| - 1]] == xs;
    }
  }

  /** A sum of non-negative terms that includes a positive one is positive. */
  lemma {:induction false} SumOfPositive<T>(xs: seq<T>, f: T -> real, k: nat)
    requires k < |xs| && f(xs[k]) > 0.0
    requires forall i :: 0 <= i < |xs| ==> f(xs[i]) >= 0.0
    ensures SumOf(xs, f) > 0.0
  {
    if k == |xs| - 1 {
      SumOfNonNegative(xs[..|xs| - 1], f);
    } else {
      SumOfPositive(xs[..|xs| - 1], f, k);
    }
  }

  /** Dropping rows with non-negative terms never increases the sum. */
  lemma {:induction false} SumOfFilterAtMost<T(!new)>(xs: seq<T>, p: T -> bool, f: T -> real)
    requires forall i :: 0 <= i < |xs| ==> f(xs[i]) >= 0.0
    ensures 0.0 <= SumOf(Filter(xs, p), f) <= SumOf(xs, f)
  {
    if |xs| > 0 {
      var init := xs[..|xs| - 1];
      SumOfFilterAtMost(init, p, f);
      if p(xs[|xs| - 1]) {
        SumOfAppend(Filter(init, p), [xs[|xs| - 1]], f);
      }
    }
  }

  /** A sum over rows none of which has a non-zero term is 0. */
  lemma {:induction false} SumOfZero<T>(xs: seq<T>, f: T -> real)
    requires forall i :: 0 <= i < |xs| ==> f(xs[i]) == 0.0
    ensures SumOf(xs, f) == 0.0
  {
    if |xs| > 0 {
      SumOfZero(xs[..|xs| - 1], f);
    }
  }

  /** Filtering a concatenation filters each part: the kept rows keep
      their order. */
  lemma {:induction false} FilterAppend<T(!new)>(a: seq<T>, b: seq<T>, p: T -> bool)
    ensures Filter(a + b, p) == Filter(a, p) + Filter(b, p)
    decreases |b|
  {
    if |b| == 0 {
      assert a + b == a;
    } else {
      var last := b[|b| - 1];
      assert (a + b)[..|a + b| - 1] == a + b[..|b| - 1];
      FilterAppend(a, b[..|b| - 1], p);
      if p(last) {
        assert Filter(a, p) + Filter(b[..|b| - 1], p) + [last] == Filter(a, p) + (Filter(b[..|b| - 1], p) + [last]);
      }
    }
  }

  /** A concatenation with a non-empty right part ends with that part's last row. */
  lemma SplitLast<T>(a: seq<T>, b: seq<T>)
    requires |b| > 0
    ensures b == b[..|b| - 1] + [b[|b| - 1]]
    ensures a + b == (a + b[..|b| - 1]) + [b[|b| - 1]]
  {
  }

  lemma AppendAssoc<T>(x: seq<T>, y: seq<T>, z: seq<T>)
    ensures x + y + z == x + (y + z)
  {
  }

  /** A filter keeps every copy of a row that satisfies `p` and no copy of
      one that does not. */
  lemma {:induction false} FilterMultiplicity<T(!new)>(xs: seq<T>, p: T -> bool, x: T)
    ensures multiset(Filter(xs, p))[x] == if p(x) then multiset(xs)[x] else 0
    decreases |xs|
  {
    if |xs| > 0 {
      var init := xs[..|xs| - 1];
      FilterMultiplicity(init, p, x);
      assert xs == init + [xs[|xs| - 1]];
    }
  }

  /** One row is kept exactly when it satisfies `p`. */
  lemma FilterSingle<T(!new)>(x: T, p: T -> bool)
    ensures Filter([x], p) == if p(x) then [x] else []
  {
    assert [x][..0] == [];
  }

  /** Taking out the row at `p` takes one copy of it out of the multiset. */
  lemma RemoveOne<T>(b: seq<T>, p: nat)
    requires p < |b|
    ensures multiset(b[..p] + b[p + 1..]) == multiset(b) - multiset{b[p]}
  {
    assert b == b[..p] + [b[p]] + b[p + 1..];
  }

  /** Row `m` of `b` without its row `p` is row `m` or `m + 1` of `b`. */
  lemma SkipIndex<T>(b: seq<T>, p: nat, m: nat)
    requires p < |b| && m < |b| - 1
    ensures (b[..p] + b[p + 1..])[m] == if m < p then b[m] else b[m + 1]
  {
  }

  /** The sum is the sum without row `p`, plus row `p`. */
  lemma SumOfRemoveAt<T>(b: seq<T>, p: nat, f: T -> real)
    requires p < |b|
    ensures SumOf(b, f) == SumOf(b[..p] + b[p + 1..], f) + f(b[p])
  {
    assert b == b[..p] + [b[p]] + b[p + 1..];
    SumOfMiddle(b[..p], b[p], b[p + 1..], f);
  }

  /** A row between two parts adds its value to the sum of the parts. */
  lemma SumOfMiddle<T>(l: seq<T>, x: T, r: seq<T>, f: T -> real)
    ensures SumOf(l + [x] + r, f) == SumOf(l + r, f) + f(x)
  {
    SumOfAppend(l + [x], r, f);
    SumOfAppend(l, r, f);
    assert (l + [x])[..|l|] == l;
  }

  /** Rearranging the rows does not change the sum. */
  lemma {:induction false} SumOfPermutation<T>(a: seq<T>, b: seq<T>, f: T -> real)
    requires multiset(a) == multiset(b)
    ensures SumOf(a, f) == SumOf(b, f)
    decreases |a|
  {
    if |a| == 0 {
      assert |b| == |multiset(b)| == 0;
    } else {
      var x := a[|a| - 1];
      var init := a[..|a| - 1];
      assert a == init + [x];
      assert x in multiset(b);
      var p :| 0 <= p < |b| && b[p] == x;
      var rest := b[..p] + b[p + 1..];
      RemoveOne(b, p);
      SumOfPermutation(init, rest, f);
      SumOfRemoveAt(b, p, f);
    }
  }
}

=== FILE: strings.dfy ===
/** The few string operations the services rely on: prefix tests, splitting
    on a separator, ASCII lower-casing and Python's `readlines`. */
module Strings {

  /** `s.startswith(prefix)`. */
  predicate StartsWith(s: string, prefix: string)
  {
    |prefix| <= |s| && s[..|prefix|] == prefix
  }

  /** `s.split(sep)`: the pieces between separators, always at least one. */
  function Split(s: string, sep: char): (parts: seq<string>)
    ensures |parts| >= 1
    decreases |s|
  {
    if |s| == 0 then [""]
    else
      var rest := Split(s[1..], sep);
      if s[0] == sep then [""] + rest else [[s[0]] + rest[0]] + rest[1..]
  }

  /** A string without the separator is one piece. */
  lemma {:induction false} SplitNoSep(p: string, sep: char)
    requires sep !in p
    ensures Split(p, sep) == [p]
    decreases |p|
  {
    if |p| > 0 {
      assert sep !in p[1..] by {
        assert forall k :: 0 <= k < |p[1..]| ==> p[1..][k] == p[k + 1];
      }
      SplitNoSep(p[1..], sep);
      assert [p[0]] + p[1..] == p;
    }
  }

  /** A separator-free piece followed by the separator splits off first. */
  lemma {:induction false} SplitCons(p: string, t: string, sep: char)
    requires sep !in p
    ensures Split(p + [sep] + t, sep) == [p] + Split(t, sep)
    decreases |p|
  {
    var s := p + [sep] + t;
    if |p| == 0 {
      assert s[1..] == t;
    } else {
      assert s[1..] == p[1..] + [sep] + t;
      assert sep !in p[1..] by {
        assert forall k :: 0 <= k < |p[1..]| ==> p[1..][k] == p[k + 1];
      }
      SplitCons(p[1..], t, sep);
      assert [p[0]] + p[1..] == p;
    }
  }

  /** The position of the first `c` in `s`. */
  function IndexOf(s: string, c: char): (i: nat)
    requires c in s
    ensures i < |s| && s[i] == c && c !in s[..i]
  {
    if s[0] == c then 0
    else
      assert c in s[1..] by {
        var k :| 0 <= k < |s| && s[k] == c;
        assert s[1..][k - 1] == c;
      }
      var j := IndexOf(s[1..], c);
      assert s[..j + 1] == [s[0]] + s[1..][..j];
      j + 1
  }

  lemma IndexOfAfterPrefix(p: string, c: char, t: string)
    requires c !in p
    ensures IndexOf(p + [c] + t, c) == |p|
  {
    var s := p + [c] + t;
    assert s[|p|] == c;
    assert forall k :: 0 <= k < |p| ==> s[k] == p[k];
  }

  /** ASCII `str.lower()`. */
  function Lower(s: string): (r: string)
    ensures |r| == |s|
  {
    seq(|s|, i requires 0 <= i < |s| => if 'A' <= s[i] <= 'Z' then (s[i] as int + 32) as char else s[i])
  }

  /** `file.readlines()` on a file's text: each line keeps its "\n", and a
      final piece without one is a line too. */
  function ReadLines(text: string): (lines: seq<string>)
    decreases |text|
  {
    if |text| == 0 then []
    else if '\n' !in text then [text]
    else
      var i := IndexOf(text, '\n');
      [text[..i + 1]] + ReadLines(text[i + 1..])
  }

  /** A file's text as a text-mode read sees it (universal newlines): each
      "\r\n" and each lone "\r" becomes "\n". */
  function UniversalNewlines(text: string): (t: string)
    ensures |t| <= |text|
    ensures '\r' !in t
    ensures '\r' !in text ==> t == text
    decreases |text|
  {
    if |text| == 0 then ""
    else if text[0] == '\r' then
      "\n" + UniversalNewlines(if |text| > 1 && text[1] == '\n' then text[2..] else text[1..])
    else
      assert text == [text[0]] + text[1..];
      [text[0]] + UniversalNewlines(text[1..])
  }

  /** Text without a carriage return passes through unchanged in front of
      whatever follows it. */
  lemma {:induction false} UniversalNewlinesPlainPrefix(p: string, rest: string)
    requires '\r' !in p
    ensures UniversalNewlines(p + rest) == p + UniversalNewlines(rest)
    decreases |p|
  {
    if |p| > 0 {
      assert (p + rest)[1..] == p[1..] + rest;
      UniversalNewlinesPlainPrefix(p[1..], rest);
    } else {
      assert p + rest == rest;
    }
  }

  /** Both Windows and old Mac line ends read as "\n": a line ended by
      "\r\n" followed by one ended by a lone "\r". */
  lemma CarriageReturnsReadAsNewlines(a: string, b: string)
    requires '\r' !in a && '\r' !in b
    ensures UniversalNewlines(a + "\r\n" + b + "\r") == a + "\n" + b + "\n"
  {
    var tail := b + "\r";
    assert UniversalNewlines(tail) == b + "\n" by {
      UniversalNewlinesPlainPrefix(b, "\r");
      assert "\r"[1..] == "";
    }
    assert UniversalNewlines("\r\n" + tail) == "\n" + UniversalNewlines(tail) by {
      assert ("\r\n" + tail)[2..] == tail;
    }
    UniversalNewlinesPlainPrefix(a, "\r\n" + tail);
    AppendRight(a, "\r\n", b, "\r");
    AppendRight(a, "\n", b, "\n");
  }

  lemma AppendRight(w: string, x: string, y: string, z: string)
    ensures w + x + y + z == w + (x + (y + z))
  {
  }

  /** `"".join(lines)`: what `file.writelines(lines)` writes. */
  function Concat(lines: seq<string>): string
  {
    if |lines| == 0 then "" else lines[0] + Concat(lines[1..])
  }

  /** One line as `readlines` returns it: non-empty, a newline only at its end. */
  predicate IsLine(l: string)
  {
    |l| > 0 && '\n' !in l[..|l| - 1]
  }

  /** Lines that all end in "\n" are read back unchanged after writing. */
  lemma {:induction false} ReadLinesConcat(lines: seq<string>)
    requires forall k :: 0 <= k < |lines| ==> IsLine(lines[k]) && lines[k][|lines[k]| - 1] == '\n'
    ensures ReadLines(Concat(lines)) == lines
  {
    if |lines| > 0 {
      var l := lines[0];
      var p := l[..|l| - 1];
      var rest := Concat(lines[1..]);
      assert l == p + ['\n'];
      assert Concat(lines) == p + ['\n'] + rest;
      IndexOfAfterPrefix(p, '\n', rest);
      assert '\n' in Concat(lines) by {
        assert Concat(lines)[|p|] == '\n';
      }
      assert Concat(lines)[..|p| + 1] == l;
      assert Concat(lines)[|p| + 1..] == rest;
      ReadLinesConcat(lines[1..]);
    }
  }
}

=== FILE: tables.dfy ===
/** Flat tables as pandas builds them from JSON: a row is a map from column
    name to scalar, and a key missing from a row reads as null (NaN/None). */
module Tables {
  import opened Wrappers

  /** A cell. `Stamp` is an instant already parsed to seconds since the epoch. */
  datatype Value = Null | Text(s: string) | Number(x: real) | Stamp(t: int)

  type Record = map<string, Value>

  /** `columns` is the column index; rows may lack some of those keys. */
  datatype Table = Table(columns: set<string>, rows: seq<Record>)

  const SecondsPerDay: int := 86400

  /** `row[c]`, null when the row lacks the key. */
  function Cell(r: Record, c: string): Value
  {
    if c in r then r[c] else Null
  }

  /** `DataFrame.empty`: no rows or no columns. */
  predicate IsEmpty(t: Table)
  {
    |t.rows| == 0 || |t.columns| == 0
  }

  /** A frame with the given column names and no rows (`pd.DataFrame(columns=...)`). */
  function EmptyWithSchema(schema: seq<string>): (t: Table)
    ensures t.rows == [] && t.columns == set c | c in schema
  {
    Table(set c | c in schema, [])
  }

  /** `pd.to_numeric(col, errors="coerce").fillna(0)` on one cell: a number
      is kept and a null becomes 0. Any text also becomes 0; pandas would
      parse numeric text such as "12.5", so numbers are taken to arrive as
      `Number` cells. */
  function ToNumber(v: Value): real
  {
    if v.Number? then v.x else 0.0
  }

  /** `pd.to_datetime(col, errors="coerce")` on one cell; `None` is NaT. */
  function ToTime(v: Value): Option<int>
  {
    if v.Stamp? then Some(v.t) else None
  }

  /** `.dt.date`: the calendar day (UTC) holding an instant. */
  function DayOf(t: int): int
  {
    t / SecondsPerDay
  }

  /** The union of the keys of all rows: the columns `json_normalize` gives a
      list of flat records. */
  function AllKeys(rs: seq<Record>): (ks: set<string>)
    ensures forall i, k :: 0 <= i < |rs| && k in rs[i] ==> k in ks
    ensures forall k :: k in ks ==> exists i :: 0 <= i < |rs| && k in rs[i]
  {
    if |rs| == 0 then {}
    else
      var ks := AllKeys(rs[..|rs| - 1]) + rs[|rs| - 1].Keys;
      assert forall k :: k in ks ==> exists i :: 0 <= i < |rs| && k in rs[i] by {
        forall k | k in ks
          ensures exists i :: 0 <= i < |rs| && k in rs[i]
        {
          if k !in rs[|rs| - 1].Keys {
            var i :| 0 <= i < |rs| - 1 && k in rs[..|rs| - 1][i];
            assert k in rs[i];
          }
        }
      }
      ks
  }
}

=== FILE: wrappers.dfy ===
/** Optional values and success/failure results, standing in for Python's
    `None` and for raised exceptions. */
module Wrappers {

  datatype Option<+T> = None | Some(value: T) {

    /** The wrapped value, or `default` when absent (Python's `d.get(k, default)`). */
    function GetOr(default: T): T
    {
      match this
      case Some(v) => v
      case None => default
    }
  }

  datatype Result<+T, +E> = Ok(value: T) | Err(error: E)
}
